=== FILE: README.md ===
# Textbook sorting, searching and number algorithms in Dafny

This project models the algorithmic core of a Java collection of textbook algorithms:

- the comparison sorts in `algorithm.sort`:
  - insertion sort in its four variants;
  - Shell sort;
  - selection sort, one-sided and two-sided;
  - bubble sort in four variants;
  - heap sort;
  - top-down, bottom-up and ping-pong merge sort;
  - the fork/join merge sort;
  - five quicksorts;
- LSD radix sort on non-negative `int`s;
- the `BaseSort` helpers `less`, `exch` and `isSorted`;
- binary search, Euclid's `gcd` and four Fibonacci algorithms in `algorithm.basic`;
- Knuth–Morris–Pratt and Boyer–Moore substring search in `algorithm.string`.

How the Java is represented:

- **Arrays are values.** A Java method that mutates an array becomes a Dafny method that takes a `seq` and returns the new one. A method that works on `a[lo..hi]` (inclusive bounds, as in the Java) also promises that nothing outside that range changes.
- **Elements.** A `Comparable` element is an `Item(key, tag)`. It is compared on `key` only, and the `tag` makes stability observable: a sort is stable when, for every key, the items with that key appear in their original order.
- **Text.** A Java `String` is a sequence of UTF-16 code units, written `seq<int>`.
- **Java arithmetic.** Java's truncating `/` and `%` are modelled where the sign matters (`GCD.Quot` and `GCD.Rem`). The `long` range of the Fibonacci methods is a precondition.

Every sort is proved to return a sorted permutation of its input, for arrays short enough that the Java's `int` index arithmetic does not overflow (see "Left out"). Where the Java merge or insertion step keeps equal keys in order, the sort is also proved stable. The two merges differ on ties:

- `MergeSort`'s merge takes the left element on a tie.
- `ParallelMergeSort`'s merge takes the right one, so it is not stable. `Merging.RightFirstIsNotStable` exhibits this.

Each operation is tied to an independent reference definition:

| Operation | Reference definition |
|---|---|
| merging | the functional `Merging.Merge` |
| radix passes | the bucket concatenation `RadixSort.CountingPass` |
| the KMP automaton | `KMP.Overlap`, the longest prefix of the pattern that is a suffix of the text read |
| Boyer–Moore's `right` table | `BoyerMoore.LastIndex` |
| Fibonacci | the recurrence `Fibonacci.Fib` |
| `gcd` | divisibility |

Paths in the table below are relative to the repository root.

## Model

| member | source | states |
|---|---|---|
| BaseSort.CompareTo | src/main/java/algorithm/sort/BaseSort.java:31-33 | the comparison is negative, zero or positive exactly when the first key is below, equal to or above the second |
| BaseSort.Less | src/main/java/algorithm/sort/BaseSort.java:31-33 | `less(v, w)` holds exactly when `v`'s key is below `w`'s |
| BaseSort.Exch | src/main/java/algorithm/sort/BaseSort.java:42-46 | the two positions trade their items, every other position keeps its item, and the multiset of items is unchanged |
| BaseSort.AdjacentSortedIsSorted | src/main/java/algorithm/sort/BaseSort.java:74-78 | if no neighbour pair in the range is out of order, then every pair `i < j` in it is in order; this is why the loop's local test decides global order |
| BaseSort.IsSortedRange | src/main/java/algorithm/sort/BaseSort.java:74-78 | true exactly when every pair `i < j` in `[lo, hi]` is in key order; an empty or one-element range is sorted |
| BaseSort.IsSorted | src/main/java/algorithm/sort/BaseSort.java:59-61 | true exactly when the whole array is in non-decreasing key order |
| BaseSort.IsSortedIntsRange | src/main/java/algorithm/sort/BaseSort.java:80-84 | for `int` arrays: true exactly when every pair `i < j` in `[lo, hi]` satisfies `a[i] <= a[j]` |
| BaseSort.IsSortedInts | src/main/java/algorithm/sort/BaseSort.java:63-65 | for `int` arrays: true exactly when the whole array is non-decreasing |
| Merging.MergePermutes | src/main/java/algorithm/sort/MergeSort.java:156-165 | merging two runs yields exactly their items, as a multiset union |
| Merging.MergeSorted | src/main/java/algorithm/sort/MergeSort.java:156-165 | merging two sorted runs yields a sorted run, whichever side wins ties |
| Merging.MergeStable | src/main/java/algorithm/sort/MergeSort.java:162-164 | with ties to the left and a sorted left run, the items of every key come out as those of the left run followed by those of the right run |
| Merging.MergeOfOrderedHalves | src/main/java/algorithm/sort/MergeSort.java:127-130 | when the last key of the left run is not above the first of the right run, the merge is plain concatenation |
| Merging.RightFirstIsNotStable | src/main/java/algorithm/sort/ParallelMergeSort.java:86-89 | with ties to the right, two items of equal key come out in reverse order |
| BinarySearch.Mid | src/main/java/algorithm/basic/BinarySearch.java:35 | the probe lies in `[lo, hi]` and splits the range into halves differing by at most one |
| BinarySearch.MidFits | src/main/java/algorithm/basic/BinarySearch.java:35 | `lo + (hi - lo) / 2` equals the midpoint and no intermediate leaves the `int` range |
| BinarySearch.IndexOf | src/main/java/algorithm/basic/BinarySearch.java:32-41 | the answer is -1 or an index holding the key; on a sorted array it is -1 exactly when the key is absent |
| BinarySearch.Rank | src/main/java/algorithm/basic/BinarySearch.java:28-30 | the same promise as `indexOf` |
| Fibonacci.DictIsFib | src/main/java/algorithm/basic/Fibonacci.java:20-27 | the table has 51 entries and entry `n` is the `n`-th Fibonacci number |
| Fibonacci.Test | src/main/java/algorithm/basic/Fibonacci.java:100-103 | throws exactly when `n` is outside `0..50`; otherwise answers whether `ans` is the `n`-th Fibonacci number |
| Fibonacci.RecursivelyIsFib | src/main/java/algorithm/basic/Fibonacci.java:39-41 | `fibRecursively(n)` is the `n`-th Fibonacci number for every `n` up to 92 |
| Fibonacci.ShortcutFailsTest | src/main/java/algorithm/basic/Fibonacci.java:54 | the shortcut `n <= 2 ? max(0, n)` answers 2 for `n = 2`, and `test(2, 2)` rejects it |
| Fibonacci.FibLoop | src/main/java/algorithm/basic/Fibonacci.java:58-64 | the two-variable loop yields the `n`-th Fibonacci number for `2 <= n <= 92` |
| Fibonacci.FibByArray | src/main/java/algorithm/basic/Fibonacci.java:53-65 | as written: the `n`-th Fibonacci number for every `n <= 92` except `n = 2`, where it answers 2 instead of 1 |
| Fibonacci.FibByArrayCorrected | src/main/java/algorithm/basic/Fibonacci.java:53-65 | with the shortcut limited to `n <= 1`: the `n`-th Fibonacci number for every `n <= 92` |
| Fibonacci.MultiplyAssoc | src/main/java/algorithm/basic/Fibonacci.java:131-139 | the 2x2 matrix product is associative |
| Fibonacci.QAdd | src/main/java/algorithm/basic/Fibonacci.java:131-139 | `Q^a * Q^b = Q^(a+b)`, where `Q^n = [[F(n+1), F(n)], [F(n), F(n-1)]]` |
| Fibonacci.Power | src/main/java/algorithm/basic/Fibonacci.java:146-158 | `power(n)` is `Q^n = [[F(n+1), F(n)], [F(n), F(n-1)]]` for `1 <= n < 92` |
| Fibonacci.FibByMatrix | src/main/java/algorithm/basic/Fibonacci.java:87-91 | as written: the `n`-th Fibonacci number for every `n <= 92` except `n = 2`, where it answers 2 |
| Fibonacci.FibByMatrixCorrected | src/main/java/algorithm/basic/Fibonacci.java:87-91 | with the shortcut limited to `n <= 1`: the `n`-th Fibonacci number for every `n <= 92` |
| GCD.Rem | src/main/java/algorithm/basic/GCD.java:16 | Java's `p % q`: smaller than `q` in magnitude, and zero or of the sign of `p` |
| GCD.QuotRem | src/main/java/algorithm/basic/GCD.java:16 | Java's division identity `(p / q) * q + p % q == p` with truncating division |
| GCD.GcdStep | src/main/java/algorithm/basic/GCD.java:13-17 | each recursive call has a second argument smaller in magnitude, so `gcd` terminates |
| GCD.GcdDividesBoth | src/main/java/algorithm/basic/GCD.java:12-18 | the answer divides both arguments |
| GCD.CommonDivisorDividesGcd | src/main/java/algorithm/basic/GCD.java:12-18 | every common divisor of the arguments divides the answer, so its magnitude is the greatest common divisor |
| GCD.GcdNonNegative | src/main/java/algorithm/basic/GCD.java:12-18 | on non-negative arguments the answer is non-negative, and it is zero exactly when both arguments are |
| InsertionSort.SinkLeft | src/main/java/algorithm/sort/InsertionSort.java:31-33 | the exchange loop moves `a[i]` to just after the last key not above it in the sorted prefix, and shifts the greater keys up by one |
| InsertionSort.SortRange | src/main/java/algorithm/sort/MergeSort.java:200-204 | the private `insertionSort(a, lo, hi)`, identical in MergeSort, QuickSort and ParallelMergeSort: the range becomes a sorted, stable permutation of itself and nothing outside it changes |
| InsertionSort.Sort | src/main/java/algorithm/sort/InsertionSort.java:25-36 | the result is a sorted, stable permutation of the input |
| InsertionSort.ShiftIn | src/main/java/algorithm/sort/InsertionSort.java:50-58 | the shifting loop places `cur` just after the last key not above it, shifting the greater keys up by one |
| InsertionSort.SortWithOverride | src/main/java/algorithm/sort/InsertionSort.java:47-60 | the result is a sorted, stable permutation of the input |
| InsertionSort.GetInsertIndex | src/main/java/algorithm/sort/InsertionSort.java:91-99 | on a sorted prefix `a[0..end-1]`, the answer `high` splits it: keys at or before `high` are not above `temp`, and keys after it are above `temp` |
| InsertionSort.BinaryInsert | src/main/java/algorithm/sort/InsertionSort.java:70-79 | `a[i]` lands just after the last key not above it, and the greater keys move up by one |
| InsertionSort.BinaryInsertSort | src/main/java/algorithm/sort/InsertionSort.java:67-81 | the result is a sorted, stable permutation of the input |
| InsertionSort.WrapIsRemainder | src/main/java/algorithm/sort/InsertionSort.java:140 | the circular index arithmetic, written as subtraction, equals Java's `% len` on the non-negative values it meets, for arrays of at most 2^30 elements |
| InsertionSort.PlaceBelow | src/main/java/algorithm/sort/InsertionSort.java:139-142 | an item below the smallest key is prepended to the circular window, which stays sorted and stable |
| InsertionSort.PlaceAbove | src/main/java/algorithm/sort/InsertionSort.java:144-147 | an item above the largest key is appended to the circular window, which stays sorted and stable |
| InsertionSort.PlaceWithin | src/main/java/algorithm/sort/InsertionSort.java:149-160 | any other item is inserted after the last key not above it by shifting the tail of the window, which stays sorted and stable |
| InsertionSort.PlaceNext | src/main/java/algorithm/sort/InsertionSort.java:137-161 | each step of the outer loop grows the circular window by `a[i]` and keeps it sorted and stable |
| InsertionSort.FillBuffer | src/main/java/algorithm/sort/InsertionSort.java:130-161 | after the loop the circular window from `first` is a sorted, stable arrangement of the whole input |
| InsertionSort.CopyBack | src/main/java/algorithm/sort/InsertionSort.java:163-165 | the copy reads the window in circular order starting at `first` |
| InsertionSort.TwoPathInsertSort | src/main/java/algorithm/sort/InsertionSort.java:128-166 | the result is a sorted, stable permutation of the input |
| InsertionSort.ShellSort | src/main/java/algorithm/sort/InsertionSort.java:177-180 | for whatever value the shared `ShellSort.step` field holds at the call, other than 0 and 1, the result is a sorted permutation of the input |
| ShellSort.GapRetrace | src/main/java/algorithm/sort/ShellSort.java:26-36 | for `step >= 2`, `h /= step` walks the growth sequence `h = step * h + 1` back one place and takes 1 to 0 |
| ShellSort.StepOneStalls | src/main/java/algorithm/sort/ShellSort.java:36 | with `step == 1`, any number of rounds of `h /= step` leaves `h` unchanged, so `while (h >= 1)` never ends |
| ShellSort.MaxGap | src/main/java/algorithm/sort/ShellSort.java:22-26 | the growth loop stops at the first gap of the sequence that is not below `len / step` |
| ShellSort.GapSink | src/main/java/algorithm/sort/ShellSort.java:32-34 | the inner loop extends `h`-order to position `i` and only permutes the items |
| ShellSort.HSortPass | src/main/java/algorithm/sort/ShellSort.java:31-35 | a pass leaves the array `h`-sorted (`a[p - h] <= a[p]` for all `p`) and a permutation of its input |
| ShellSort.OneSortedIsSorted | src/main/java/algorithm/sort/ShellSort.java:29-36 | a 1-sorted array is sorted, so the final pass with gap 1 sorts |
| ShellSort.Sort | src/main/java/algorithm/sort/ShellSort.java:21-38 | for any `step` other than 0 and 1, the result is a sorted permutation of the input |
| SelectSort.MinIndex | src/main/java/algorithm/sort/SelectSort.java:28-33 | the scan finds the first position of a minimum key in `[lo, hi]` |
| SelectSort.SelectStep | src/main/java/algorithm/sort/SelectSort.java:34 | swapping that minimum into position `i` extends the sorted prefix, and every key after it is still not below it |
| SelectSort.Sort | src/main/java/algorithm/sort/SelectSort.java:26-37 | the result is a sorted permutation of the input |
| SelectSort.MinMaxIndex | src/main/java/algorithm/sort/SelectSort.java:47-58 | the scan finds the first position of a minimum key and the first position of a maximum key in the window |
| SelectSort.EndsSwapPlacesExtremes | src/main/java/algorithm/sort/SelectSort.java:61-74 | the two exchanges, with the `max == left` correction, put a minimum at `left` and a maximum at `right` and only permute the window |
| SelectSort.BilateralRound | src/main/java/algorithm/sort/SelectSort.java:45-78 | one round shrinks the unsorted window by one at each end, keeping everything outside it settled |
| SelectSort.SortBilaterally | src/main/java/algorithm/sort/SelectSort.java:42-80 | the result is a sorted permutation of the input |
| BubbleSort.SwapDownStable | src/main/java/algorithm/sort/BubbleSort.java:31-33 | exchanging neighbours whose upper item is strictly smaller preserves the relative order of equal keys |
| BubbleSort.BubbleUp | src/main/java/algorithm/sort/BubbleSort.java:109-117 | a forward pass carries a maximum to `hi`, is a stable permutation of the window, and leaves everything above the last swap in order |
| BubbleSort.BubbleDown | src/main/java/algorithm/sort/BubbleSort.java:124-130 | a backward pass carries a minimum to `lo`, is a stable permutation of the window, and leaves everything below the last swap in order |
| BubbleSort.ForwardPassSettles | src/main/java/algorithm/sort/BubbleSort.java:115-121 | after a forward pass, everything above the last swap is in its final place, so the bound may drop to it |
| BubbleSort.BackwardPassSettles | src/main/java/algorithm/sort/BubbleSort.java:128-131 | after a backward pass, everything below the last swap is in its final place, so the bound may rise to it |
| BubbleSort.Sort | src/main/java/algorithm/sort/BubbleSort.java:25-37 | the result is a sorted, stable permutation of the input |
| BubbleSort.SortWithFlag | src/main/java/algorithm/sort/BubbleSort.java:44-57 | stopping after a pass without swaps still yields a sorted, stable permutation of the input |
| BubbleSort.SortWithCheckBound | src/main/java/algorithm/sort/BubbleSort.java:66-86 | shrinking the bound to the last swap still yields a sorted, stable permutation of the input |
| BubbleSort.SortBilaterally | src/main/java/algorithm/sort/BubbleSort.java:95-133 | alternating forward and backward passes yield a sorted, stable permutation of the input |
| HeapSort.RootIsMax | src/main/java/algorithm/sort/HeapSort.java:26-27 | in a max-heap on `[0, bound)`, no key is above the root's, so `exch(a, 0, i)` moves a maximum |
| HeapSort.Heapify | src/main/java/algorithm/sort/HeapSort.java:50-66 | if the subtrees below `i` are heaps, then after sifting down the subtree of `i` is a heap; its new root is the largest of `a[i]` and its children; nothing outside the subtree changes; the items are only permuted |
| HeapSort.SiftedDown | src/main/java/algorithm/sort/HeapSort.java:62-65 | exchanging `i` with its larger child and sifting that child down restores the heap below `i` |
| HeapSort.BuildMaxHeap | src/main/java/algorithm/sort/HeapSort.java:38-42 | the result is a max-heap over the whole array and a permutation of the input |
| HeapSort.SortStep | src/main/java/algorithm/sort/HeapSort.java:26-30 | moving the root behind the heap and sifting down extends the settled suffix by one |
| HeapSort.Sort | src/main/java/algorithm/sort/HeapSort.java:22-31 | the result is a sorted permutation of the input |
| MergeSort.MergeInPlace | src/main/java/algorithm/sort/MergeSort.java:147-166 | `merge(a, lo, mid, hi)` writes the left-first merge of the two halves over `[lo, hi]` and leaves the rest; on sorted halves the range becomes sorted and stable |
| MergeSort.MergeInto | src/main/java/algorithm/sort/MergeSort.java:176-191 | `merge(src, dst, lo, mid, hi)` writes into `dst` the left-first merge of `src`'s halves; it is sorted and stable when they are |
| MergeSort.SortTopDownRange | src/main/java/algorithm/sort/MergeSort.java:78-89 | the range becomes a sorted, stable permutation of itself and nothing outside it changes |
| MergeSort.SortTopDown | src/main/java/algorithm/sort/MergeSort.java:40-43 | the result is a sorted, stable permutation of the input |
| MergeSort.MergePass | src/main/java/algorithm/sort/MergeSort.java:67-68 | one pass turns sorted blocks of width `sz` into sorted blocks of width `2 * sz`, stably |
| MergeSort.SortBottomUp | src/main/java/algorithm/sort/MergeSort.java:64-69 | the result is a sorted, stable permutation of the input |
| MergeSort.AdvancedSortRange | src/main/java/algorithm/sort/MergeSort.java:108-133 | if `src` and `dst` agree on the range, then afterwards `dst`'s range is a sorted, stable permutation of what it was, and neither array changes outside the range |
| MergeSort.CopyIsMerge | src/main/java/algorithm/sort/MergeSort.java:127-130 | when the halves are already in order, the plain copy is the merge, so it is sorted and stable |
| MergeSort.AdvancedSort | src/main/java/algorithm/sort/MergeSort.java:45-49 | the result is a sorted, stable permutation of the input |
| ParallelMergeSort.Take | src/main/java/algorithm/sort/ParallelMergeSort.java:86-89 | each step takes the left element only when it is strictly less than the right one, and otherwise takes the right element |
| ParallelMergeSort.Fill | src/main/java/algorithm/sort/ParallelMergeSort.java:82-96 | the three loops write into `tmp[left..right]` the right-first merge of the two halves, and nothing else in `tmp` changes |
| ParallelMergeSort.CopyBack | src/main/java/algorithm/sort/ParallelMergeSort.java:98-99 | the backward copy makes `arr[left..right]` equal to `tmp[left..right]` |
| ParallelMergeSort.MergeRange | src/main/java/algorithm/sort/ParallelMergeSort.java:81-100 | `arr[left..right]` becomes the right-first merge of its halves, and each array changes only inside the range |
| ParallelMergeSort.MergedRange | src/main/java/algorithm/sort/ParallelMergeSort.java:81-100 | merging two sorted halves sorts and permutes the range |
| ParallelMergeSort.Compute | src/main/java/algorithm/sort/ParallelMergeSort.java:50-69 | the fork/join action's range becomes a sorted permutation of itself; neither array changes outside it |
| ParallelMergeSort.Sort | src/main/java/algorithm/sort/ParallelMergeSort.java:14-22 | the result is a sorted permutation of the input |
| QuickSort.ScanUp | src/main/java/algorithm/sort/QuickSort.java:98 | the upward scan stops at `hi` or at the first key not below the pivot, having passed only smaller keys |
| QuickSort.ScanDown | src/main/java/algorithm/sort/QuickSort.java:99 | the downward scan stops at `lo` or at the first key not above the pivot, having passed only greater keys |
| QuickSort.Partition | src/main/java/algorithm/sort/QuickSort.java:89-111 | the pivot `a[lo]` ends at `j`; nothing before `j` is above it and nothing after `j` is below it; the range is only permuted |
| QuickSort.SortSides | src/main/java/algorithm/sort/QuickSort.java:73-76 | sorting both sides of a partitioned range sorts the range |
| QuickSort.SortRange | src/main/java/algorithm/sort/QuickSort.java:71-77 | the range becomes a sorted permutation of itself and nothing outside it changes |
| QuickSort.Sort | src/main/java/algorithm/sort/QuickSort.java:41-45 | for whatever permutation the shuffle produced, the result is a sorted permutation of the input |
| QuickSort.Median3 | src/main/java/algorithm/sort/QuickSort.java:230-234 | the answer is one of the three indices, and its key is a median of the three keys |
| QuickSort.MedianToFront | src/main/java/algorithm/sort/QuickSort.java:190-191 | after the exchange `a[lo]` holds the median of `a[lo]`, `a[lo + n/2]` and `a[hi]`, and the range is only permuted |
| QuickSort.AdvancedPartition | src/main/java/algorithm/sort/QuickSort.java:188-223 | partitions around the median of three; when the range has at least three items the early returns are never taken |
| QuickSort.AdvancedSortRange | src/main/java/algorithm/sort/QuickSort.java:165-178 | the range becomes a sorted permutation of itself and nothing outside it changes |
| QuickSort.AdvancedSort | src/main/java/algorithm/sort/QuickSort.java:52-54 | the result is a sorted permutation of the input |
| QuickSort.DigDown | src/main/java/algorithm/sort/QuickSort.java:134 | the scan from the right stops at `left` or at the first key below the pivot, having passed only keys not below it |
| QuickSort.DigUp | src/main/java/algorithm/sort/QuickSort.java:140 | the scan from the left stops at `right` or at the first key above the pivot, having passed only keys not above it |
| QuickSort.DigRound | src/main/java/algorithm/sort/QuickSort.java:130-142 | one round of hole filling keeps every key left of `left` not above the pivot and every key right of `right` not below it; the pivot stays the one missing item; the gap shrinks |
| QuickSort.DigPartition | src/main/java/algorithm/sort/QuickSort.java:125-146 | the pivot `a[lo]` ends at `left`, with no greater key before it and no smaller key after it; the range is only permuted |
| QuickSort.Sort2Range | src/main/java/algorithm/sort/QuickSort.java:122-151 | the range becomes a sorted permutation of itself and nothing outside it changes |
| QuickSort.Sort2 | src/main/java/algorithm/sort/QuickSort.java:47-50 | for whatever permutation the shuffle produced, the result is a sorted permutation of the input |
| QuickSort.AdvancedSort2Range | src/main/java/algorithm/sort/QuickSort.java:258-296 | the range becomes a sorted permutation of itself and nothing outside it changes |
| QuickSort.AdvancedSort2 | src/main/java/algorithm/sort/QuickSort.java:56-58 | the result is a sorted permutation of the input |
| QuickSort.ThreeWayPartition | src/main/java/algorithm/sort/QuickSort.java:337-347 | the range splits into keys below the pivot `[lo, lt)`, keys equal to it `[lt, gt]` and keys above it `(gt, hi]`, and is only permuted |
| QuickSort.MedianThreeWayPartition | src/main/java/algorithm/sort/QuickSort.java:334-347 | after the median of three is moved to the front, the equal block holds that median's key, with smaller keys before it and greater keys after it |
| QuickSort.ThreeWaySortRange | src/main/java/algorithm/sort/QuickSort.java:323-351 | the range becomes a sorted permutation of itself and nothing outside it changes |
| QuickSort.ThreeWaySort | src/main/java/algorithm/sort/QuickSort.java:60-62 | the result is a sorted permutation of the input |
| RadixSort.RadixDictDiffers | src/main/java/algorithm/sort/RadixSort.java:33 | the first five table entries are `10^k`, but entry 5 is not `10^5` and entry 9 is not `10^9` |
| RadixSort.PassPermutes | src/main/java/algorithm/sort/RadixSort.java:50-77 | a counting pass only permutes the values |
| RadixSort.PassStable | src/main/java/algorithm/sort/RadixSort.java:68-72 | a counting pass keeps the values of each digit in their input order |
| RadixSort.PassOrdersDigit | src/main/java/algorithm/sort/RadixSort.java:50-77 | after a pass the values are in order of the current digit |
| RadixSort.PassExtendsOrder | src/main/java/algorithm/sort/RadixSort.java:48-78 | if the values are ordered on their last `k` digits, then a stable pass on digit `k+1` orders them on their last `k+1` digits |
| RadixSort.PassesSort | src/main/java/algorithm/sort/RadixSort.java:48-78 | with true powers of ten, `k` passes sort any non-negative values below `10^k` and only permute them |
| RadixSort.CountDigits | src/main/java/algorithm/sort/RadixSort.java:50-63 | after zeroing, counting and prefix sums, `count[d]` is the number of values whose digit is at most `d` |
| RadixSort.PlacedAll | src/main/java/algorithm/sort/RadixSort.java:68-72 | the backward placement loop fills `bucket` with the values grouped by digit, each group in input order |
| RadixSort.CountingSortPass | src/main/java/algorithm/sort/RadixSort.java:50-77 | one iteration of the outer loop computes the reference counting pass |
| RadixSort.Passes | src/main/java/algorithm/sort/RadixSort.java:48 | the loop `for (k = 1; k <= max; k++)` runs `max` times, and not at all when `max <= 0` |
| RadixSort.Sort | src/main/java/algorithm/sort/RadixSort.java:41-79 | with the table corrected to true powers of ten and ten counters: the result is a permutation of the input, sorted whenever every value has at most `max` digits |
| RadixSort.SortAsWritten | src/main/java/algorithm/sort/RadixSort.java:41-79 | as written: when no digit indexes past `count`, the result is the passes with the table as written, it is a permutation of the input, and it is sorted for `max <= 5` |
| RadixSort.AsWrittenAgrees | src/main/java/algorithm/sort/RadixSort.java:33 | the first five passes with the table as written are the passes with true powers of ten |
| RadixSort.AsWrittenLeavesUnsorted | src/main/java/algorithm/sort/RadixSort.java:33 | `[100000, 0]` with `max = 6` has six-digit values, yet the passes with the table as written leave it unsorted |
| RadixSort.AsWrittenCountTooShort | src/main/java/algorithm/sort/RadixSort.java:43-57 | for `[5]`, the first pass's digit 5 indexes past the one-entry `count` array |
| KMP.OverlapStep | src/main/java/algorithm/string/KMP.java:37-47 | the reference automaton's state after reading one more character is its transition from the previous state |
| KMP.MatchColumn | src/main/java/algorithm/string/KMP.java:43 | reading the expected character `pat[j]` in state `j` leads to state `j + 1` |
| KMP.MismatchColumn | src/main/java/algorithm/string/KMP.java:39-41 | on any other character, state `j` behaves like the restart state `X`, so copying column `X` is correct |
| KMP.RestartStep | src/main/java/algorithm/string/KMP.java:46 | `X = dfa[pat[j]][X]` keeps `X` the state the automaton reaches on `pat[1..j]` |
| KMP.BuildColumn | src/main/java/algorithm/string/KMP.java:38-46 | one round fills column `j` with the reference transitions and advances `X` |
| KMP.FirstTable | src/main/java/algorithm/string/KMP.java:31-34 | column 0 of the table is the reference transition out of the start state |
| KMP.New | src/main/java/algorithm/string/KMP.java:22-48 | the constructed table is the reference automaton of the pattern, with every entry at most one above its state |
| KMP.MatchEndsInFinal | src/main/java/algorithm/string/KMP.java:65-67 | if the pattern occurs ending at position `i`, the automaton is in the final state after `i` characters |
| KMP.FinalIsMatch | src/main/java/algorithm/string/KMP.java:65-67 | if the automaton is in the final state after `i` characters, the pattern occurs at `i - M` |
| KMP.ScanStep | src/main/java/algorithm/string/KMP.java:60-62 | each table lookup tracks the reference state, and no occurrence has ended before the scan position |
| KMP.Search | src/main/java/algorithm/string/KMP.java:57-70 | the answer is the first offset where the pattern occurs, or `txt.length()` when it occurs nowhere |
| BoyerMoore.LastIndex | src/main/java/algorithm/string/BoyerMoore.java:74-77 | the rightmost index of `c` in the pattern, or -1 exactly when `c` does not occur |
| BoyerMoore.NewWithRadix | src/main/java/algorithm/string/BoyerMoore.java:66-78 | `right[c]` is the rightmost index of `c` in the pattern for every character of the alphabet |
| BoyerMoore.New | src/main/java/algorithm/string/BoyerMoore.java:80-82 | the same table over the default 256-letter alphabet |
| BoyerMoore.MismatchFromRight | src/main/java/algorithm/string/BoyerMoore.java:92-99 | the right-to-left comparison finds the rightmost mismatch, or -1 exactly when the pattern occurs at `i` |
| BoyerMoore.Skip | src/main/java/algorithm/string/BoyerMoore.java:96 | the shift is at least 1 and at least `j - right[c]` |
| BoyerMoore.SkipSafe | src/main/java/algorithm/string/BoyerMoore.java:94-96 | no occurrence starts at any offset the shift jumps over |
| BoyerMoore.Search | src/main/java/algorithm/string/BoyerMoore.java:84-107 | the answer is the first offset where the pattern occurs, or `text.length()` when it occurs nowhere |

## Left out

- `Fibonacci.RecursivelyIsFib`, `Fibonacci.FibLoop`, `Fibonacci.FibByArray`, `Fibonacci.FibByArrayCorrected`, `Fibonacci.FibByMatrix`, `Fibonacci.FibByMatrixCorrected`: these require `n <= 92`. The Java answers a `long`, which wraps around from `fib(93)` on, and 64-bit wrap-around is not modelled.
- `Fibonacci.Power`: requires `1 <= n < 92`. `fibByMatrix` only calls it with `n - 1 >= 2`. Outside that range the Java behaves differently: `power(0)` calls itself forever and never returns. A negative `n` gives `Q` itself when it is odd, because Java's `n % 2` is then -1 and neither branch runs. It gives a power of `Q` when it is even, such as `Q^2` for -2. None of this is modelled.
- `BaseSort.IsSortedRange`, `BaseSort.IsSortedIntsRange`: require either an empty or one-element range (`hi <= lo`) or one inside the array (`0 <= lo` and `hi < a.length`). When `isSorted(a, lo, hi)` reaches past the array, the Java throws `ArrayIndexOutOfBoundsException` at the first out-of-bounds read. Before that read it may already answer `false`, as on `[2, 1]` with `lo = 0, hi = 5`. Neither outcome is modelled.
- `MergeSort.SortBottomUp`, `MergeSort.MergePass`, `HeapSort.Heapify`, `HeapSort.BuildMaxHeap`, `HeapSort.Sort`, `HeapSort.SortStep`, `InsertionSort.TwoPathInsertSort`, `InsertionSort.PlaceNext`, `InsertionSort.CopyBack`, `InsertionSort.WrapIsRemainder`: index arithmetic is on unbounded integers, so arrays of more than 2^30 elements are not modelled. The Java's `int` arithmetic wraps around there:
  - In `sortBottomUp`, `lo += sz + sz` reaches -2^31 when `sz = 2^30`, and the next `merge` reads a negative index.
  - In `heapify`, `2 * i + 1` turns negative once `i >= 2^30`. It still passes `left < bound`, and `a[left]` throws.
  - In `twoPathInsertSort`, `tail + 1 + len` and `first + k` overflow once `len > 2^30`. The `% len` result is then negative, and the index throws.
  The contracts promise a sorted permutation for every length.
- `InsertionSort.ShellSort`: the shared `ShellSort.step` field becomes the parameter `step`. It requires `step` to be neither 0 nor 1, for the reasons given for `ShellSort.Sort`; with 1 `shellSort` never returns, and with 0 it throws.
- `InsertionSort.TwoPathInsertSort`: requires a non-empty array. On an empty array the Java throws `ArrayIndexOutOfBoundsException` at `b[0] = a[0]`.
- `ShellSort.Sort`: requires `step` to be neither 0 nor 1:
  - a `step` of 0 throws `ArithmeticException` in `len / step`;
  - a `step` of 1 never terminates; see Findings.
- `RadixSort.Sort`, `RadixSort.SortAsWritten`: require `max <= 10` and non-negative values:
  - a larger `max` indexes past `RADIX_DICT` and throws;
  - a negative value has a negative digit, which throws when it indexes `count`.

  `RadixSort.SortAsWritten` also requires every digit to index inside the `arr.length`-entry `count` array. Without that, the Java throws; see Findings.
- `KMP.Search`: requires every text character to be below 256. The Java throws `ArrayIndexOutOfBoundsException` only when it actually reads such a character, which happens only before a match completes.
- `BoyerMoore.Search`: requires every text character to be inside the alphabet. The Java throws only when it looks up `right` for a mismatched character outside it.
- `KMP.New`: requires a non-empty pattern whose characters are below 256. The Java throws for an empty pattern (`pat.charAt(0)`) and for larger characters.
- `BoyerMoore.NewWithRadix`, `BoyerMoore.New`: require the pattern's characters to lie inside the alphabet, and a non-negative radix. Otherwise the Java throws.
- `QuickSort.Sort`, `QuickSort.Sort2`: `StdRandom.shuffle` becomes a parameter `shuffled`. It may be any permutation of the input, so randomness is not modelled and the result is proved for every shuffle.
- `ParallelMergeSort.Compute`: the fork/join tasks run one after the other. The two forked tasks work on disjoint ranges of `arr` and `tmp`, so sequential execution gives the same result. The thread pool itself is not modelled.
- `MergeSort`'s static `aux` field is a local buffer of each merge. Concurrent calls sharing the field are not modelled.
- Arrays are values, so aliasing between arguments is not modelled.
- `BaseSort.show` and every `main` method are left out; they do printing and console I/O.
- The `double[]` overloads of `isSorted` are left out because they involve floating point.
- `fibByFormula` is left out because it uses floating point (`Math.pow`, `Math.sqrt`).
- `GCD`: Java `int` operands are modelled as unbounded integers. `p % q` never overflows, so `gcd` gives the same answer on every `int` pair.
- `BinarySearch.IndexOf`: the `int` range is modelled only for the probe arithmetic (`BinarySearch.MidFits`).
- The progress `println` in `ShellSort.sort` is left out.

## Findings

| source | as written | input that shows it | evidently intended | confidence | as-written member | corrected member |
|---|---|---|---|---|---|---|
| src/main/java/algorithm/basic/Fibonacci.java:54 | `fibByArray` and `fibByMatrix` return `Math.max(0, n)` for every `n <= 2` | `n = 2` answers 2, but `fib(2)` is 1 (`DICT[2]`) | the shortcut only for `n <= 1` | not executed | Fibonacci.FibByArray | Fibonacci.FibByArrayCorrected |
| src/main/java/algorithm/basic/Fibonacci.java:88 | the same shortcut in `fibByMatrix` | `n = 2` answers 2 | the shortcut only for `n <= 1` | not executed | Fibonacci.FibByMatrix | Fibonacci.FibByMatrixCorrected |
| src/main/java/algorithm/sort/RadixSort.java:33 | `RADIX_DICT` holds 1000000 at index 5 and 100000000 at index 9, so the 6th pass reads the same digit as the 7th, and the 10th the same as the 9th | `[100000, 0]` with `max = 6` stays unsorted | `RADIX_DICT[k] = 10^k` | not executed | RadixSort.AsWrittenLeavesUnsorted | RadixSort.Sort |
| src/main/java/algorithm/sort/RadixSort.java:43-57 | `count` has `arr.length` entries but is indexed by a digit `0..9` | `[5]` with `max = 1` reads `count[5]` of a one-entry array | ten counters | not executed | RadixSort.AsWrittenCountTooShort | RadixSort.Sort |
| src/main/java/algorithm/sort/ShellSort.java:29-36 | the public `step` field may be set to 1, and then `h /= step` never shrinks `h` | `step = 1` on any array: `while (h >= 1)` never ends | a `step` of at least 2 | not executed | ShellSort.StepOneStalls | ShellSort.Sort |

=== FILE: base_sort.dfy ===
/** The ordering kernel that every sort builds on: the element type, the
    comparison, the swap, the sortedness checks, and the vocabulary the sort
    contracts are written in (sorted ranges, range permutations, framing,
    stability). Java arrays are modelled as sequences that a method takes and
    returns. */
module BaseSort {

  /** One array element. Comparisons look only at `key`; `tag` tells apart
      elements whose keys are equal, which is what makes stability observable. */
  datatype Item = Item(key: int, tag: int)

  /** `v.compareTo(w)`: negative, zero or positive as the key of `v` is below,
      equal to or above the key of `w`. */
  function CompareTo(v: Item, w: Item): (c: int)
    ensures c < 0 <==> v.key < w.key
    ensures c == 0 <==> v.key == w.key
    ensures c > 0 <==> w.key < v.key
  {
    if v.key < w.key then -1 else if v.key == w.key then 0 else 1
  }

  /** `less(v, w)`: v orders strictly before w. */
  function Less(v: Item, w: Item): (b: bool)
    ensures b <==> v.key < w.key
  {
    CompareTo(v, w) < 0
  }

  /** `less` is a strict weak order whose incomparable elements are exactly
      those with equal keys: the total order on keys the sorts rely on. */
  lemma LessIsStrictWeakOrder(u: Item, v: Item, w: Item)
    ensures !Less(u, u)
    ensures Less(u, v) ==> !Less(v, u)
    ensures Less(u, v) && Less(v, w) ==> Less(u, w)
    ensures !Less(u, v) && !Less(v, u) <==> u.key == v.key
    ensures Less(u, v) || Less(v, u) || u.key == v.key
  {
  }

  /** `exch(a, i, j)`: swaps positions i and j and nothing else. */
  function Exch(a: seq<Item>, i: int, j: int): (r: seq<Item>)
    requires 0 <= i < |a| && 0 <= j < |a|
    ensures |r| == |a|
    ensures r[i] == a[j] && r[j] == a[i]
    ensures forall k :: 0 <= k < |a| && k != i && k != j ==> r[k] == a[k]
    ensures multiset(r) == multiset(a)
  {
    a[i := a[j]][j := a[i]]
  }

  /** Swapping a position with itself changes nothing, and swapping twice
      undoes the swap. */
  lemma ExchSelfAndUndo(a: seq<Item>, i: int, j: int)
    requires 0 <= i < |a| && 0 <= j < |a|
    ensures Exch(a, i, i) == a
    ensures Exch(Exch(a, i, j), i, j) == a
  {
  }

  // ---------------------------------------------------------------------
  // Sortedness

  /** Every pair inside `[lo, hi]` (clipped to the array) is in key order. */
  ghost predicate SortedRange(a: seq<Item>, lo: int, hi: int) {
    forall i, j :: lo <= i < j <= hi && 0 <= i && j < |a| ==> a[i].key <= a[j].key
  }

  ghost predicate Sorted(a: seq<Item>) {
    SortedRange(a, 0, |a| - 1)
  }

  /** No neighbour pair inside `[lo, hi]` is out of order: the test the
      loop of `isSorted(a, lo, hi)` performs. */
  ghost predicate AdjacentSorted(a: seq<Item>, lo: int, hi: int) {
    forall i :: lo < i <= hi && 0 < i < |a| ==> !Less(a[i], a[i - 1])
  }

  /** A range is sorted exactly when its slice is. */
  lemma SortedRangeSlice(a: seq<Item>, lo: int, hi: int)
    requires ValidRange(a, lo, hi)
    ensures SortedRange(a, lo, hi) <==> Sorted(a[lo..hi + 1])
  {
    var s := a[lo..hi + 1];
    if SortedRange(a, lo, hi) {
      forall i, j | 0 <= i < j < |s| ensures s[i].key <= s[j].key {
        assert s[i] == a[lo + i] && s[j] == a[lo + j];
      }
    }
    if Sorted(s) {
      forall i, j | lo <= i < j <= hi && 0 <= i && j < |a| ensures a[i].key <= a[j].key {
        assert s[i - lo] == a[i] && s[j - lo] == a[j];
      }
    }
  }

  /** Neighbour order over a range gives order of every pair in it. */
  lemma {:induction false} AdjacentSortedIsSorted(a: seq<Item>, lo: int, hi: int)
    requires AdjacentSorted(a, lo, hi)
    ensures SortedRange(a, lo, hi)
    decreases hi - lo
  {
    if lo < hi && 0 <= lo && hi < |a| {
      AdjacentSortedIsSorted(a, lo, hi - 1);
      forall i, j | lo <= i < j <= hi
        ensures a[i].key <= a[j].key
      {
        if j < hi {
        } else if i < hi - 1 {
          assert a[i].key <= a[hi - 1].key;
          assert !Less(a[hi], a[hi - 1]);
        } else {
          assert !Less(a[hi], a[hi - 1]);
        }
      }
    } else if lo < hi {
      // the range is clipped by the array bounds on at least one side
      var lo' := if lo < 0 then 0 else lo;
      var hi' := if hi >= |a| then |a| - 1 else hi;
      if lo' < hi' {
        AdjacentSortedIsSorted(a, lo', hi');
      }
    }
  }

  /** `isSorted(a, lo, hi)`: true exactly when no `a[i] < a[i-1]` for i in
      `(lo, hi]`, which is the same as every pair in `[lo, hi]` being in order.
      An empty or one-element range is sorted. */
  method IsSortedRange(a: seq<Item>, lo: int, hi: int) returns (b: bool)
    requires hi <= lo || (0 <= lo && hi < |a|)
    ensures b <==> (forall i :: lo < i <= hi ==> !Less(a[i], a[i - 1]))
    ensures b <==> SortedRange(a, lo, hi)
    ensures hi <= lo ==> b
  {
    var i := lo + 1;
    while i <= hi
      invariant lo + 1 <= i && (i <= hi + 1 || i == lo + 1)
      invariant forall k :: lo < k < i ==> !Less(a[k], a[k - 1])
    {
      if Less(a[i], a[i - 1]) {
        assert !(a[i - 1].key <= a[i].key);
        return false;
      }
      i := i + 1;
    }
    AdjacentSortedIsSorted(a, lo, hi);
    return true;
  }

  /** `isSorted(a)`: the range check over `[0, a.length - 1]`. */
  method IsSorted(a: seq<Item>) returns (b: bool)
    ensures b <==> Sorted(a)
    ensures b <==> (forall i :: 0 < i < |a| ==> a[i - 1].key <= a[i].key)
  {
    b := IsSortedRange(a, 0, |a| - 1);
  }

  // ---------------------------------------------------------------------
  // int arrays

  /** `int` arrays are compared through boxing to `Integer`, whose
      `compareTo` is the numeric order: an int is an item whose key is itself. */
  function Boxed(a: seq<int>): (r: seq<Item>)
    ensures |r| == |a|
    ensures forall i :: 0 <= i < |a| ==> r[i].key == a[i]
  {
    seq(|a|, i requires 0 <= i < |a| => Item(a[i], i))
  }

  ghost predicate SortedInts(a: seq<int>) {
    forall i, j :: 0 <= i < j < |a| ==> a[i] <= a[j]
  }

  /** `isSorted(int[] a, lo, hi)`: the same loop as the generic overload,
      run on the boxed values, so it answers exactly as the generic one does. */
  method IsSortedIntsRange(a: seq<int>, lo: int, hi: int) returns (b: bool)
    requires hi <= lo || (0 <= lo && hi < |a|)
    ensures b <==> SortedRange(Boxed(a), lo, hi)
    ensures b <==> (forall i, j :: lo <= i < j <= hi ==> a[i] <= a[j])
  {
    var boxed := Boxed(a);
    var i := lo + 1;
    while i <= hi
      invariant lo + 1 <= i && (i <= hi + 1 || i == lo + 1)
      invariant forall k :: lo < k < i ==> !Less(boxed[k], boxed[k - 1])
    {
      if Less(Item(a[i], i), Item(a[i - 1], i - 1)) {
        assert !(boxed[i - 1].key <= boxed[i].key);
        return false;
      }
      i := i + 1;
    }
    AdjacentSortedIsSorted(boxed, lo, hi);
    return true;
  }

  /** `isSorted(int[] a)`. */
  method IsSortedInts(a: seq<int>) returns (b: bool)
    ensures b <==> SortedInts(a)
    ensures b <==> Sorted(Boxed(a))
  {
    b := IsSortedIntsRange(a, 0, |a| - 1);
  }

  // ---------------------------------------------------------------------
  // Ranges, framing and permutations

  predicate ValidRange<T>(a: seq<T>, lo: int, hi: int) {
    0 <= lo <= hi + 1 <= |a|
  }

  /** `b` is `a` outside `[lo, hi]`. */
  ghost predicate SameOutside<T>(a: seq<T>, b: seq<T>, lo: int, hi: int) {
    |b| == |a| && forall k :: 0 <= k < |a| && (k < lo || hi < k) ==> b[k] == a[k]
  }

  /** `b[lo..hi]` holds the same elements as `a[lo..hi]`, counted with multiplicity. */
  ghost predicate PermRange<T>(a: seq<T>, b: seq<T>, lo: int, hi: int) {
    |b| == |a| && ValidRange(a, lo, hi) && multiset(b[lo..hi + 1]) == multiset(a[lo..hi + 1])
  }

  lemma Split3<T>(a: seq<T>, lo: int, hi: int)
    requires ValidRange(a, lo, hi)
    ensures a == a[..lo] + a[lo..hi + 1] + a[hi + 1..]
  {
  }

  /** A range is its two halves put together. */
  lemma SliceSplit<T>(a: seq<T>, lo: int, mid: int, hi: int)
    requires 0 <= lo <= mid <= hi <= |a|
    ensures a[lo..hi] == a[lo..mid] + a[mid..hi]
  {
  }

  /** A range laid out as `m`, where `m` holds the elements of the two
      parts `[lo, mid]` and `[mid + 1, hi]` of another array, is a
      permutation of that range. */
  lemma PartsPermRange<T>(a: seq<T>, r: seq<T>, lo: int, mid: int, hi: int, m: seq<T>)
    requires 0 <= lo <= mid + 1 <= hi + 1 <= |a| && |r| == |a|
    requires r[lo..hi + 1] == m
    requires multiset(m) == multiset(a[lo..mid + 1]) + multiset(a[mid + 1..hi + 1])
    ensures PermRange(a, r, lo, hi)
  {
    SliceSplit(a, lo, mid + 1, hi + 1);
  }

  lemma PermRangeWhole<T>(a: seq<T>, b: seq<T>, lo: int, hi: int)
    requires PermRange(a, b, lo, hi) && SameOutside(a, b, lo, hi)
    ensures multiset(b) == multiset(a)
  {
    Split3(a, lo, hi);
    Split3(b, lo, hi);
    assert a[..lo] == b[..lo];
    assert a[hi + 1..] == b[hi + 1..];
  }

  /** Conversely, a whole-array permutation that leaves everything outside
      `[lo, hi]` alone permutes `[lo, hi]`. */
  lemma WholeToPermRange<T>(a: seq<T>, b: seq<T>, lo: int, hi: int)
    requires ValidRange(a, lo, hi) && multiset(b) == multiset(a) && SameOutside(a, b, lo, hi)
    ensures PermRange(a, b, lo, hi)
  {
    Split3(a, lo, hi);
    Split3(b, lo, hi);
    assert a[..lo] == b[..lo];
    assert a[hi + 1..] == b[hi + 1..];
    calc {
      multiset(b[lo..hi + 1]);
      multiset(b) - multiset(b[..lo]) - multiset(b[hi + 1..]);
      multiset(a) - multiset(a[..lo]) - multiset(a[hi + 1..]);
      multiset(a[lo..hi + 1]);
    }
  }

  /** A permutation of `[lo, hi]` is a permutation of any range around it. */
  lemma PermRangeWiden<T>(a: seq<T>, b: seq<T>, lo: int, hi: int, lo': int, hi': int)
    requires PermRange(a, b, lo, hi) && SameOutside(a, b, lo, hi)
    requires lo' <= lo && hi <= hi' && ValidRange(a, lo', hi')
    ensures PermRange(a, b, lo', hi') && SameOutside(a, b, lo', hi')
  {
    SliceSplit(a, lo', lo, hi' + 1);
    SliceSplit(a, lo, hi + 1, hi' + 1);
    SliceSplit(b, lo', lo, hi' + 1);
    SliceSplit(b, lo, hi + 1, hi' + 1);
    assert a[lo'..hi' + 1] == a[lo'..lo] + a[lo..hi + 1] + a[hi + 1..hi' + 1];
    assert b[lo'..hi' + 1] == b[lo'..lo] + b[lo..hi + 1] + b[hi + 1..hi' + 1];
    assert a[lo'..lo] == b[lo'..lo];
    assert a[hi + 1..hi' + 1] == b[hi + 1..hi' + 1];
  }

  /** Two rearrangements of the same range compose. */
  lemma RearrangeTrans<T>(a: seq<T>, b: seq<T>, c: seq<T>, lo: int, hi: int)
    requires SameOutside(a, b, lo, hi) && PermRange(a, b, lo, hi)
    requires SameOutside(b, c, lo, hi) && PermRange(b, c, lo, hi)
    ensures SameOutside(a, c, lo, hi) && PermRange(a, c, lo, hi)
  {
  }

  /** Two changes inside the same range change only that range. */
  lemma SameOutsideTrans<T>(a: seq<T>, b: seq<T>, c: seq<T>, lo: int, hi: int)
    requires SameOutside(a, b, lo, hi) && SameOutside(b, c, lo, hi)
    ensures SameOutside(a, c, lo, hi)
  {
  }

  /** Changing `[lo, mid]` and then `[mid+1, hi]` changes only `[lo, hi]`. */
  lemma FramedTwice<T>(a: seq<T>, b: seq<T>, c: seq<T>, lo: int, mid: int, hi: int)
    requires lo <= mid <= hi && SameOutside(a, b, lo, mid) && SameOutside(b, c, mid + 1, hi)
    ensures SameOutside(a, c, lo, hi)
  {
  }

  /** Every key in `a[lo..hi]` lies in `[low, high]`. */
  ghost predicate KeysWithin(a: seq<Item>, lo: int, hi: int, low: int, high: int) {
    forall k :: lo <= k <= hi && 0 <= k < |a| ==> low <= a[k].key <= high
  }

  /** A permutation of a range keeps every key bound of that range. */
  lemma PermRangeKeepsBounds(a: seq<Item>, b: seq<Item>, lo: int, hi: int, low: int, high: int)
    requires PermRange(a, b, lo, hi) && KeysWithin(a, lo, hi, low, high)
    ensures KeysWithin(b, lo, hi, low, high)
  {
    forall k | lo <= k <= hi && 0 <= k < |b|
      ensures low <= b[k].key <= high
    {
      assert b[k] == b[lo..hi + 1][k - lo];
      assert b[k] in multiset(a[lo..hi + 1]);
      var t :| 0 <= t < |a[lo..hi + 1]| && a[lo..hi + 1][t] == b[k];
      assert a[lo + t] == b[k];
    }
  }

  /** Every key in `a[lo..hi]` is at most `p` / at least `p`. */
  ghost predicate AllAtMost(a: seq<Item>, lo: int, hi: int, p: int) {
    forall k :: lo <= k <= hi && 0 <= k < |a| ==> a[k].key <= p
  }

  ghost predicate AllAtLeast(a: seq<Item>, lo: int, hi: int, p: int) {
    forall k :: lo <= k <= hi && 0 <= k < |a| ==> p <= a[k].key
  }

  lemma PermRangeKeepsUpper(a: seq<Item>, b: seq<Item>, lo: int, hi: int, p: int)
    requires PermRange(a, b, lo, hi) && AllAtMost(a, lo, hi, p)
    ensures AllAtMost(b, lo, hi, p)
  {
    forall k | lo <= k <= hi && 0 <= k < |b|
      ensures b[k].key <= p
    {
      assert b[k] == b[lo..hi + 1][k - lo];
      assert b[k] in multiset(a[lo..hi + 1]);
      var t :| 0 <= t < |a[lo..hi + 1]| && a[lo..hi + 1][t] == b[k];
      assert a[lo + t] == b[k];
    }
  }

  lemma PermRangeKeepsLower(a: seq<Item>, b: seq<Item>, lo: int, hi: int, p: int)
    requires PermRange(a, b, lo, hi) && AllAtLeast(a, lo, hi, p)
    ensures AllAtLeast(b, lo, hi, p)
  {
    forall k | lo <= k <= hi && 0 <= k < |b|
      ensures p <= b[k].key
    {
      assert b[k] == b[lo..hi + 1][k - lo];
      assert b[k] in multiset(a[lo..hi + 1]);
      var t :| 0 <= t < |a[lo..hi + 1]| && a[lo..hi + 1][t] == b[k];
      assert a[lo + t] == b[k];
    }
  }

  /** `a[0..k-1]` is in its final place: sorted, and no key after it is smaller. */
  ghost predicate SettledBelow(a: seq<Item>, k: int) {
    SortedRange(a, 0, k - 1) && (1 <= k <= |a| ==> AllAtLeast(a, k, |a| - 1, a[k - 1].key))
  }

  /** `a[k+1..]` is in its final place: sorted, and no key before it is larger. */
  ghost predicate SettledAbove(a: seq<Item>, k: int) {
    SortedRange(a, k + 1, |a| - 1) && (0 <= k + 1 < |a| ==> AllAtMost(a, 0, k, a[k + 1].key))
  }

  /** Rearranging the window between a settled prefix and a settled suffix
      keeps both settled. */
  lemma PermWindowKeepsSettled(a: seq<Item>, b: seq<Item>, lo: int, hi: int)
    requires SameOutside(a, b, lo, hi) && PermRange(a, b, lo, hi)
    requires SettledBelow(a, lo) && SettledAbove(a, hi)
    ensures SettledBelow(b, lo) && SettledAbove(b, hi)
  {
    if 1 <= lo <= |a| {
      PermRangeKeepsLower(a, b, lo, hi, a[lo - 1].key);
      assert b[lo - 1] == a[lo - 1];
    }
    if 0 <= hi + 1 < |a| {
      PermRangeKeepsUpper(a, b, lo, hi, a[hi + 1].key);
      assert b[hi + 1] == a[hi + 1];
    }
  }

  /** Settled ends with a neighbour-ordered window between them: all sorted. */
  lemma {:induction false} SettledAroundSorted(a: seq<Item>, lo: int, hi: int)
    requires 0 <= lo && hi < |a| && lo <= hi + 1
    requires SettledBelow(a, lo) && SettledAbove(a, hi) && AdjacentSorted(a, lo, hi)
    ensures Sorted(a)
  {
    AdjacentSortedIsSorted(a, lo, hi);
    forall p, q | 0 <= p < q < |a|
      ensures a[p].key <= a[q].key
    {
      if q < lo || hi < p || (lo <= p && q <= hi) {
      } else if p < lo && hi < q {
        assert a[p].key <= a[lo - 1].key;
        if lo <= hi {
          assert a[lo - 1].key <= a[lo].key <= a[hi + 1].key;
        }
      } else if p < lo {
        assert a[p].key <= a[lo - 1].key;
      } else {
        assert a[p].key <= a[hi + 1].key;
      }
    }
  }

  // ---------------------------------------------------------------------
  // Stability

  /** The elements of `s` whose key is `k`, in their order in `s`. */
  function KeyRun(s: seq<Item>, k: int): (r: seq<Item>)
    ensures |r| <= |s|
  {
    if |s| == 0 then []
    else (if s[0].key == k then [s[0]] else []) + KeyRun(s[1..], k)
  }

  lemma {:induction false} KeyRunConcat(s: seq<Item>, t: seq<Item>, k: int)
    ensures KeyRun(s + t, k) == KeyRun(s, k) + KeyRun(t, k)
  {
    if |s| == 0 {
      assert s + t == t;
    } else {
      var h := if s[0].key == k then [s[0]] else [];
      assert (s + t)[1..] == s[1..] + t;
      assert KeyRun(s + t, k) == h + KeyRun(s[1..] + t, k);
      KeyRunConcat(s[1..], t, k);
      Assoc3(h, KeyRun(s[1..], k), KeyRun(t, k));
    }
  }

  /** Concatenation is associative. */
  lemma Assoc3<T>(a: seq<T>, b: seq<T>, c: seq<T>)
    ensures a + (b + c) == (a + b) + c
  {
  }

  /** Within `[lo, hi]`, elements of equal key appear in `b` in the same
      relative order as in `a`. */
  ghost predicate StableRange(a: seq<Item>, b: seq<Item>, lo: int, hi: int) {
    |b| == |a| && ValidRange(a, lo, hi) && forall k :: SameRun(a, b, lo, hi, k)
  }

  ghost predicate SameRun(a: seq<Item>, b: seq<Item>, lo: int, hi: int, k: int)
    requires |b| == |a| && ValidRange(a, lo, hi)
  {
    KeyRun(b[lo..hi + 1], k) == KeyRun(a[lo..hi + 1], k)
  }

  /** A stable rearrangement of `[lo, hi]` is a stable rearrangement of any
      range around it. */
  lemma StableRangeWiden(a: seq<Item>, b: seq<Item>, lo: int, hi: int, lo': int, hi': int)
    requires StableRange(a, b, lo, hi) && SameOutside(a, b, lo, hi)
    requires lo' <= lo && hi <= hi' && ValidRange(a, lo', hi')
    ensures StableRange(a, b, lo', hi')
  {
    assert a[lo'..hi' + 1] == a[lo'..lo] + a[lo..hi + 1] + a[hi + 1..hi' + 1];
    assert b[lo'..hi' + 1] == b[lo'..lo] + b[lo..hi + 1] + b[hi + 1..hi' + 1];
    assert a[lo'..lo] == b[lo'..lo];
    assert a[hi + 1..hi' + 1] == b[hi + 1..hi' + 1];
    forall k
      ensures SameRun(a, b, lo', hi', k)
    {
      assert SameRun(a, b, lo, hi, k);
      KeyRunConcat(a[lo'..lo] + a[lo..hi + 1], a[hi + 1..hi' + 1], k);
      KeyRunConcat(a[lo'..lo], a[lo..hi + 1], k);
      KeyRunConcat(b[lo'..lo] + b[lo..hi + 1], b[hi + 1..hi' + 1], k);
      KeyRunConcat(b[lo'..lo], b[lo..hi + 1], k);
    }
  }

  /** A single element is its own key's run and nothing else's. */
  lemma KeyRunSingle(x: Item, k: int)
    ensures KeyRun([x], k) == if x.key == k then [x] else []
  {
    assert [x][1..] == [];
  }

  /** A key that no element of `s` carries has an empty run. */
  lemma {:induction false} KeyRunAbsent(s: seq<Item>, k: int)
    requires forall i :: 0 <= i < |s| ==> s[i].key != k
    ensures KeyRun(s, k) == []
  {
    if |s| > 0 {
      KeyRunAbsent(s[1..], k);
    }
  }

  /** Stable rearrangements compose. */
  lemma StableTrans(a: seq<Item>, b: seq<Item>, c: seq<Item>, lo: int, hi: int)
    requires StableRange(a, b, lo, hi) && StableRange(b, c, lo, hi)
    ensures StableRange(a, c, lo, hi)
  {
    forall k
      ensures SameRun(a, c, lo, hi, k)
    {
      assert SameRun(a, b, lo, hi, k) && SameRun(b, c, lo, hi, k);
    }
  }

  lemma KeyRun3(p: seq<Item>, m: seq<Item>, q: seq<Item>, k: int)
    ensures KeyRun(p + m + q, k) == KeyRun(p, k) + KeyRun(m, k) + KeyRun(q, k)
  {
    KeyRunConcat(p + m, q, k);
    KeyRunConcat(p, m, k);
  }

  lemma KeyRunSwapPair(x: Item, y: Item, k: int)
    requires x.key != y.key
    ensures KeyRun([x, y], k) == KeyRun([y, x], k)
  {
    assert [x, y][1..] == [y] && [y, x][1..] == [x];
    assert [x][1..] == [] && [y][1..] == [];
  }

  /** Swapping neighbours whose keys differ keeps every key's run: it is the
      only kind of swap the adjacent-exchange sorts make. */
  lemma ExchAdjacentStable(a: seq<Item>, j: int, lo: int, hi: int)
    requires ValidRange(a, lo, hi) && lo < j <= hi && a[j].key != a[j - 1].key
    ensures StableRange(a, Exch(a, j, j - 1), lo, hi)
    ensures SameOutside(a, Exch(a, j, j - 1), lo, hi) && PermRange(a, Exch(a, j, j - 1), lo, hi)
  {
    var b := Exch(a, j, j - 1);
    var x, y := a[j - 1], a[j];
    var pre, post := a[lo..j - 1], a[j + 1..hi + 1];
    assert a[lo..hi + 1] == pre + [x, y] + post;
    assert b[lo..hi + 1] == pre + [y, x] + post;
    forall k
      ensures SameRun(a, b, lo, hi, k)
    {
      KeyRun3(pre, [x, y], post, k);
      KeyRun3(pre, [y, x], post, k);
      KeyRunSwapPair(x, y, k);
    }
  }
}

=== FILE: binary_search.dfy ===
/** Binary search for an `int` key in an `int` array sorted in ascending
    order. The search answers with the index of some occurrence of the key,
    or -1. */
module BinarySearch {
  import opened BaseSort

  const IntMax: int := 0x7fff_ffff

  /** The probe `lo + (hi - lo) / 2`. */
  function Mid(lo: int, hi: int): (m: int)
    requires lo <= hi
    ensures lo <= m <= hi
    ensures m - lo <= hi - m <= m - lo + 1
  {
    lo + (hi - lo) / 2
  }

  /** The probe is the plain midpoint `(lo + hi) / 2`, but unlike `lo + hi`
      none of the values it computes leaves the 32-bit range when `lo` and
      `hi` are array indices. */
  lemma MidFits(lo: int, hi: int)
    requires 0 <= lo <= hi <= IntMax
    ensures Mid(lo, hi) == (lo + hi) / 2
    ensures 0 <= hi - lo <= IntMax && 0 <= Mid(lo, hi) <= IntMax
  {
    var d := hi - lo;
    assert d == 2 * (d / 2) + d % 2;
    assert lo + hi == 2 * (lo + d / 2) + d % 2;
  }

  /** `indexOf(key, a)`. The answer is -1 or an index holding `key`,
      whatever `a` holds; on a sorted `a` it is -1 exactly when `key` does
      not occur. */
  method IndexOf(key: int, a: seq<int>) returns (r: int)
    ensures r == -1 || (0 <= r < |a| && a[r] == key)
    ensures SortedInts(a) ==> (r == -1 <==> key !in a)
  {
    var lo, hi := 0, |a| - 1;
    while lo <= hi
      invariant 0 <= lo <= hi + 1 <= |a|
      invariant SortedInts(a) ==> forall i :: 0 <= i < |a| && a[i] == key ==> lo <= i <= hi
      decreases hi - lo
    {
      var mid := Mid(lo, hi);
      if key < a[mid] {
        hi := mid - 1;
      } else if key > a[mid] {
        lo := mid + 1;
      } else {
        return mid;
      }
    }
    return -1;
  }

  /** `rank(key, a)`: the same search under its textbook name. */
  method Rank(key: int, a: seq<int>) returns (r: int)
    ensures r == -1 || (0 <= r < |a| && a[r] == key)
    ensures SortedInts(a) ==> (r == -1 <==> key !in a)
  {
    r := IndexOf(key, a);
  }
}

=== FILE: boyer_moore.dfy ===
/** Boyer-Moore substring search with the bad-character rule only. The
    pattern is compared with the text from right to left; on a mismatch the
    text index jumps so that the mismatched text character lines up with
    its rightmost occurrence in the pattern, and always moves by at least
    one. */
module BoyerMoore {
  import opened Text

  /** The default alphabet size. */
  const DefaultRadix: int := 256

  /** The rightmost index of `c` in `pat`, or -1 when `c` does not occur. */
  function LastIndex(pat: seq<int>, c: int): (r: int)
    ensures -1 <= r < |pat|
    ensures r >= 0 ==> pat[r] == c
    ensures forall k :: r < k < |pat| ==> pat[k] != c
    ensures r == -1 <==> c !in pat
  {
    if |pat| == 0 then -1
    else if pat[|pat| - 1] == c then |pat| - 1
    else LastIndex(pat[..|pat| - 1], c)
  }

  /** The searcher: the pattern, the alphabet size and the table `right`. */
  datatype Searcher = Searcher(pat: seq<int>, radix: int, right: seq<int>)

  /** `right[c]` is the rightmost index of `c` in the pattern, for every
      character `c` of the alphabet. */
  ghost predicate Valid(b: Searcher) {
    InAlphabet(b.pat, b.radix) && |b.right| == b.radix &&
    forall c :: 0 <= c < b.radix ==> b.right[c] == LastIndex(b.pat, c)
  }

  /** The constructor `BoyerMoore(pat, R)`: fills `right` with -1, then
      records each character's index from left to right, so the last write
      for a character is its rightmost occurrence. */
  method NewWithRadix(pat: seq<int>, radix: int) returns (b: Searcher)
    requires radix >= 0 && InAlphabet(pat, radix)
    ensures b.pat == pat && b.radix == radix && Valid(b)
  {
    var right := seq(radix, _ => -1);
    var i := 0;
    while i < |pat|
      invariant 0 <= i <= |pat| && |right| == radix
      invariant forall c :: 0 <= c < radix ==> right[c] == LastIndex(pat[..i], c)
    {
      assert pat[..i + 1][..i] == pat[..i];
      right := right[pat[i] := i];
      i := i + 1;
    }
    assert pat[..|pat|] == pat;
    b := Searcher(pat, radix, right);
  }

  /** The constructor `BoyerMoore(pat)`, with 256 characters. */
  method New(pat: seq<int>) returns (b: Searcher)
    requires InAlphabet(pat, DefaultRadix)
    ensures b.pat == pat && b.radix == DefaultRadix && Valid(b)
  {
    b := NewWithRadix(pat, DefaultRadix);
  }

  /** The inner loop of `search`: compares `pat` with the text at offset
      `i` from right to left and stops at the first mismatch, answering its
      index, or -1 when every position matched. */
  method MismatchFromRight(pat: seq<int>, text: seq<int>, i: int) returns (j: int)
    requires 0 <= i && i + |pat| <= |text|
    ensures -1 <= j < |pat|
    ensures forall k :: j < k < |pat| ==> pat[k] == text[i + k]
    ensures j >= 0 ==> pat[j] != text[i + j]
    ensures j == -1 <==> MatchAt(pat, text, i)
  {
    j := |pat| - 1;
    while j >= 0 && pat[j] == text[i + j]
      invariant -1 <= j < |pat|
      invariant forall k :: j < k < |pat| ==> pat[k] == text[i + k]
    {
      j := j - 1;
    }
    if j == -1 {
      assert text[i..i + |pat|] == pat;
    } else {
      assert text[i..i + |pat|][j] == text[i + j];
    }
  }

  /** The skip `max(1, j - right[c])`. */
  function Skip(j: int, rc: int): (s: int)
    ensures s >= 1 && s >= j - rc
    ensures s == 1 || s == j - rc
  {
    if 1 < j - rc then j - rc else 1
  }

  /** The bad-character rule is safe: every offset the skip jumps over
      would put an occurrence of the mismatched text character to the right
      of its rightmost occurrence in the pattern. */
  lemma SkipSafe(pat: seq<int>, text: seq<int>, i: int, j: int)
    requires 0 <= i && 0 <= j < |pat| && i + |pat| <= |text|
    requires pat[j] != text[i + j]
    ensures forall p :: i <= p < i + Skip(j, LastIndex(pat, text[i + j])) ==> !MatchAt(pat, text, p)
  {
  }

  /** `search(text)`: the offset of the leftmost occurrence of the pattern,
      or the text's length when there is none (in particular when the
      pattern is longer than the text). */
  method Search(b: Searcher, text: seq<int>) returns (r: int)
    requires Valid(b) && InAlphabet(text, b.radix)
    ensures 0 <= r <= |text|
    ensures r < |text| ==> MatchAt(b.pat, text, r)
    ensures forall p :: 0 <= p < r ==> !MatchAt(b.pat, text, p)
  {
    var m, n := |b.pat|, |text|;
    var i := 0;
    while i <= n - m
      invariant 0 <= i <= n
      invariant forall p :: 0 <= p < i ==> !MatchAt(b.pat, text, p)
      decreases n - i
    {
      var j := MismatchFromRight(b.pat, text, i);
      if j == -1 {
        return i;
      }
      var skip := Skip(j, b.right[text[i + j]]);
      SkipSafe(b.pat, text, i, j);
      i := i + skip;
    }
    return n;
  }
}

=== FILE: bubble_sort.dfy ===
/** Bubble sort and its refinements: the plain version, the version that
    stops after a pass without swaps, the version that ends the next pass at
    the last swap, and the two-way (cocktail) version that alternates forward
    and backward passes over a shrinking window.

    Every swap exchanges neighbours whose keys differ, so all four are
    stable. Each forward pass leaves the elements above its last swap in
    their final places; each backward pass does the same for the elements
    below its last swap. */
module BubbleSort {
  import opened BaseSort

  // ---------------------------------------------------------------------
  // Passes

  /** Exchanging neighbours `j` and `j + 1` where the upper one is strictly
      smaller is a stable permutation of any range holding both. */
  lemma SwapDownStable(a: seq<Item>, j: int, lo: int, hi: int)
    requires ValidRange(a, lo, hi) && lo <= j < hi && Less(a[j + 1], a[j])
    ensures StableRange(a, Exch(a, j, j + 1), lo, hi)
    ensures SameOutside(a, Exch(a, j, j + 1), lo, hi) && PermRange(a, Exch(a, j, j + 1), lo, hi)
  {
    ExchAdjacentStable(a, j + 1, lo, hi);
    assert Exch(a, j, j + 1) == Exch(a, j + 1, j);
  }

  /** `r` is a stable permutation of `a` inside `[lo, hi]` and equal to it
      outside. */
  ghost predicate Rearranged(a: seq<Item>, r: seq<Item>, lo: int, hi: int) {
    SameOutside(a, r, lo, hi) && PermRange(a, r, lo, hi) && StableRange(a, r, lo, hi)
  }

  lemma RearrangedTrans(a: seq<Item>, r: seq<Item>, r': seq<Item>, lo: int, hi: int)
    requires Rearranged(a, r, lo, hi) && Rearranged(r, r', lo, hi)
    ensures Rearranged(a, r', lo, hi)
  {
    StableTrans(a, r, r', lo, hi);
  }

  /** The state of the forward inner loop before comparing `(j, j+1)`:
      `r[j]` is the largest key so far, the pairs after the last swap are in
      order, and nothing has moved when nothing was swapped. */
  ghost predicate UpState(a: seq<Item>, r: seq<Item>, lo: int, hi: int, j: int, last: int, swapped: bool, bound: int) {
    0 <= lo <= j <= hi < |a| && |r| == |a| && Rearranged(a, r, lo, hi) &&
    AllAtMost(r, lo, j, r[j].key) &&
    (!swapped ==> r == a && AdjacentSorted(a, lo, j) && last == bound) &&
    (swapped ==> lo <= last < j && AdjacentSorted(r, last + 1, j) &&
                 AllAtMost(r, lo, last + 1, r[last + 1].key))
  }

  /** Swapping an out-of-order pair carries the largest key up. */
  lemma UpSwap(a: seq<Item>, r: seq<Item>, lo: int, hi: int, j: int, last: int, swapped: bool, bound: int)
    requires UpState(a, r, lo, hi, j, last, swapped, bound) && j < hi && Less(r[j + 1], r[j])
    ensures UpState(a, Exch(r, j, j + 1), lo, hi, j + 1, j, true, bound)
  {
    var r' := Exch(r, j, j + 1);
    SwapDownStable(r, j, lo, hi);
    RearrangedTrans(a, r, r', lo, hi);
    forall k | lo <= k <= j + 1 && 0 <= k < |r'|
      ensures r'[k].key <= r'[j + 1].key
    {
      if k < j {
        assert r'[k] == r[k];
      }
    }
  }

  /** Leaving an ordered pair alone keeps the state. */
  lemma UpKeep(a: seq<Item>, r: seq<Item>, lo: int, hi: int, j: int, last: int, swapped: bool, bound: int)
    requires UpState(a, r, lo, hi, j, last, swapped, bound) && j < hi && !Less(r[j + 1], r[j])
    ensures UpState(a, r, lo, hi, j + 1, last, swapped, bound)
  {
  }

  /** The inner loop of every forward pass: compares each pair `(j, j+1)`
      for `j` from `lo` up to `hi - 1` and swaps it when out of order.
      `last` is the last-swap variable of the passes: the lower index of the
      last swap, or `bound` unchanged when the pass swaps nothing. */
  method BubbleUp(a: seq<Item>, lo: int, hi: int, bound: int) returns (r: seq<Item>, last: int, swapped: bool)
    requires 0 <= lo <= hi < |a|
    ensures SameOutside(a, r, lo, hi) && PermRange(a, r, lo, hi) && StableRange(a, r, lo, hi)
    ensures AllAtMost(r, lo, hi, r[hi].key)
    ensures !swapped ==> r == a && AdjacentSorted(a, lo, hi) && last == bound
    ensures swapped ==> lo <= last < hi && AdjacentSorted(r, last + 1, hi)
    ensures swapped ==> AllAtMost(r, lo, last + 1, r[last + 1].key)
  {
    r, last, swapped := a, bound, false;
    var j := lo;
    while j < hi
      invariant UpState(a, r, lo, hi, j, last, swapped, bound)
      decreases hi - j
    {
      if Less(r[j + 1], r[j]) {
        UpSwap(a, r, lo, hi, j, last, swapped, bound);
        r := Exch(r, j, j + 1);
        swapped, last := true, j;
      } else {
        UpKeep(a, r, lo, hi, j, last, swapped, bound);
      }
      j := j + 1;
    }
  }

  /** The state of the backward inner loop before comparing `(j-1, j)`:
      `r[j]` is the smallest key of `[j, hi]`, the pairs before the last swap
      are in order, and nothing has moved when nothing was swapped. */
  ghost predicate DownState(a: seq<Item>, r: seq<Item>, lo: int, hi: int, j: int, first: int, swapped: bool, bound: int) {
    0 <= lo <= j <= hi < |a| && |r| == |a| && Rearranged(a, r, lo, hi) &&
    AllAtLeast(r, j, hi, r[j].key) &&
    (!swapped ==> r == a && AdjacentSorted(a, j, hi) && first == bound) &&
    (swapped ==> j < first <= hi && AdjacentSorted(r, j, first - 1) &&
                 AllAtLeast(r, first - 1, hi, r[first - 1].key))
  }

  /** Swapping an out-of-order pair carries the smallest key down. */
  lemma DownSwap(a: seq<Item>, r: seq<Item>, lo: int, hi: int, j: int, first: int, swapped: bool, bound: int)
    requires DownState(a, r, lo, hi, j, first, swapped, bound) && lo < j && Less(r[j], r[j - 1])
    ensures DownState(a, Exch(r, j, j - 1), lo, hi, j - 1, j, true, bound)
  {
    var r' := Exch(r, j, j - 1);
    ExchAdjacentStable(r, j, lo, hi);
    RearrangedTrans(a, r, r', lo, hi);
    forall k | j - 1 <= k <= hi && 0 <= k < |r'|
      ensures r'[j - 1].key <= r'[k].key
    {
      if k > j {
        assert r'[k] == r[k];
      }
    }
  }

  /** Leaving an ordered pair alone keeps the state. */
  lemma DownKeep(a: seq<Item>, r: seq<Item>, lo: int, hi: int, j: int, first: int, swapped: bool, bound: int)
    requires DownState(a, r, lo, hi, j, first, swapped, bound) && lo < j && !Less(r[j], r[j - 1])
    ensures DownState(a, r, lo, hi, j - 1, first, swapped, bound)
  {
  }

  /** The inner loop of the backward pass: compares each pair `(j-1, j)` for
      `j` from `hi` down to `lo + 1` and swaps it when out of order. `first`
      is the upper index of the last swap made, or `bound` unchanged when the
      pass swaps nothing. */
  method BubbleDown(a: seq<Item>, lo: int, hi: int, bound: int) returns (r: seq<Item>, first: int, swapped: bool)
    requires 0 <= lo <= hi < |a|
    ensures SameOutside(a, r, lo, hi) && PermRange(a, r, lo, hi) && StableRange(a, r, lo, hi)
    ensures AllAtLeast(r, lo, hi, r[lo].key)
    ensures !swapped ==> r == a && AdjacentSorted(a, lo, hi) && first == bound
    ensures swapped ==> lo < first <= hi && AdjacentSorted(r, lo, first - 1)
    ensures swapped ==> AllAtLeast(r, first - 1, hi, r[first - 1].key)
  {
    r, first, swapped := a, bound, false;
    var j := hi;
    while j > lo
      invariant DownState(a, r, lo, hi, j, first, swapped, bound)
      decreases j
    {
      if Less(r[j], r[j - 1]) {
        DownSwap(a, r, lo, hi, j, first, swapped, bound);
        r := Exch(r, j, j - 1);
        swapped, first := true, j;
      } else {
        DownKeep(a, r, lo, hi, j, first, swapped, bound);
      }
      j := j - 1;
    }
  }

  // ---------------------------------------------------------------------
  // What a pass settles

  /** After a forward pass over a window between settled ends, everything
      above the last swap is settled. */
  lemma {:induction false} ForwardPassSettles(r: seq<Item>, lo: int, hi: int, last: int)
    requires 0 <= lo <= last < hi < |r|
    requires SettledBelow(r, lo) && SettledAbove(r, hi)
    requires AdjacentSorted(r, last + 1, hi) && AllAtMost(r, lo, last + 1, r[last + 1].key)
    ensures SettledAbove(r, last)
  {
    AdjacentSortedIsSorted(r, last + 1, hi);
    forall p, q | last + 1 <= p < q < |r|
      ensures r[p].key <= r[q].key
    {
      if p <= hi && hi < q {
        assert r[p].key <= r[hi + 1].key;
      }
    }
    forall k | 0 <= k <= last
      ensures r[k].key <= r[last + 1].key
    {
      if k < lo {
        assert r[k].key <= r[lo - 1].key;
      }
    }
  }

  /** After a backward pass over a window between settled ends, everything
      below the last swap is settled. */
  lemma {:induction false} BackwardPassSettles(r: seq<Item>, lo: int, hi: int, first: int)
    requires 0 <= lo < first <= hi < |r|
    requires SettledBelow(r, lo) && SettledAbove(r, hi)
    requires AdjacentSorted(r, lo, first - 1) && AllAtLeast(r, first - 1, hi, r[first - 1].key)
    ensures SettledBelow(r, first)
  {
    AdjacentSortedIsSorted(r, lo, first - 1);
    forall p, q | 0 <= p < q <= first - 1
      ensures r[p].key <= r[q].key
    {
      if p < lo && lo <= q {
        assert r[lo - 1].key <= r[q].key;
      }
    }
    forall k | first <= k < |r|
      ensures r[first - 1].key <= r[k].key
    {
      if hi < k {
        assert r[first - 1].key <= r[hi + 1].key;
      }
    }
  }

  /** A pass of either direction keeps the whole array a stable permutation of the input
      and keeps the settled ends settled. */
  lemma PassKeeps(a: seq<Item>, r: seq<Item>, r': seq<Item>, lo: int, hi: int)
    requires |r| == |a| && multiset(r) == multiset(a) && StableRange(a, r, 0, |a| - 1)
    requires SameOutside(r, r', lo, hi) && PermRange(r, r', lo, hi) && StableRange(r, r', lo, hi)
    requires SettledBelow(r, lo) && SettledAbove(r, hi)
    ensures |r'| == |a| && multiset(r') == multiset(a) && StableRange(a, r', 0, |a| - 1)
    ensures SettledBelow(r', lo) && SettledAbove(r', hi)
  {
    PermRangeWhole(r, r', lo, hi);
    StableRangeWiden(r, r', lo, hi, 0, |a| - 1);
    StableTrans(a, r, r', 0, |a| - 1);
    PermWindowKeepsSettled(r, r', lo, hi);
  }

  // ---------------------------------------------------------------------
  // The sorts

  /** What every variant returns: a stable sorted permutation of its input. */
  ghost predicate StablySorted(a: seq<Item>, r: seq<Item>) {
    |r| == |a| && Sorted(r) && multiset(r) == multiset(a) && StableRange(a, r, 0, |a| - 1)
  }

  /** One pass of `sort`: a forward pass over `[0, hi]`, which leaves the
      maximum at `hi`. */
  method SortPass(a: seq<Item>, r: seq<Item>, hi: int) returns (r': seq<Item>)
    requires |r| == |a| && multiset(r) == multiset(a) && StableRange(a, r, 0, |a| - 1)
    requires 1 <= hi < |r| && SettledAbove(r, hi)
    ensures |r'| == |a| && multiset(r') == multiset(a) && StableRange(a, r', 0, |a| - 1)
    ensures SettledAbove(r', hi - 1)
  {
    var r1, _, _ := BubbleUp(r, 0, hi, 0);
    PassKeeps(a, r, r1, 0, hi);
    r' := r1;
    ForwardPassSettles(r', 0, hi, hi - 1);
  }

  /** `sort`: `len - 1` forward passes, pass `i` ending at `len - 1 - i`. */
  method Sort(a: seq<Item>) returns (r: seq<Item>)
    ensures StablySorted(a, r)
  {
    r := a;
    var len := |a|;
    var i := 0;
    while i < len - 1
      invariant 0 <= i && (len >= 1 ==> i <= len - 1)
      invariant |r| == len && multiset(r) == multiset(a) && StableRange(a, r, 0, len - 1)
      invariant SettledAbove(r, len - 1 - i)
    {
      r := SortPass(a, r, len - 1 - i);
      i := i + 1;
    }
    if len > 0 {
      SettledAroundSorted(r, 0, 0);
    }
  }

  /** `sortWithFlag`: as `sort`, but returns as soon as a pass makes no swap. */
  method SortWithFlag(a: seq<Item>) returns (r: seq<Item>)
    ensures StablySorted(a, r)
  {
    r := a;
    var len := |a|;
    var i := 0;
    while i < len - 1
      invariant 0 <= i && (len >= 1 ==> i <= len - 1)
      invariant |r| == len && multiset(r) == multiset(a) && StableRange(a, r, 0, len - 1)
      invariant SettledAbove(r, len - 1 - i)
    {
      var r', _, swapped := BubbleUp(r, 0, len - 1 - i, 0);
      PassKeeps(a, r, r', 0, len - 1 - i);
      if !swapped {
        SettledAroundSorted(r', 0, len - 1 - i);
        return r';
      }
      ForwardPassSettles(r', 0, len - 1 - i, len - 2 - i);
      r := r';
      i := i + 1;
    }
    if len > 0 {
      SettledAroundSorted(r, 0, 0);
    }
  }

  /** `sortWithCheckBound`: each pass ends at the lower index of the
      previous pass's last swap, and the sort stops after a pass without
      swaps. */
  method SortWithCheckBound(a: seq<Item>) returns (r: seq<Item>)
    ensures StablySorted(a, r)
  {
    r := a;
    var len := |a|;
    var pos, k := 0, len - 1;
    var i := 0;
    while i < len - 1
      invariant 0 <= i && (len >= 1 ==> i <= len - 1)
      invariant |r| == len && multiset(r) == multiset(a) && StableRange(a, r, 0, len - 1)
      invariant len >= 1 ==> 0 <= k <= len - 1 - i
      invariant SettledAbove(r, k)
    {
      var r', pos', swapped := BubbleUp(r, 0, k, pos);
      PassKeeps(a, r, r', 0, k);
      r, pos := r', pos';
      if !swapped {
        break;
      }
      ForwardPassSettles(r, 0, k, pos);
      k := pos;
      i := i + 1;
    }
    if len > 0 {
      SettledAroundSorted(r, 0, k);
    }
  }

  /** `sortBilaterally`: alternating forward and backward passes over the
      window `[leftVar, rightVar]`; each pass moves the window's end in to its
      last swap, and the sort stops after a forward pass without swaps. */
  method SortBilaterally(a: seq<Item>) returns (r: seq<Item>)
    ensures StablySorted(a, r)
  {
    r := a;
    var len := |a|;
    var leftBound, leftVar, rightBound, rightVar := 0, 0, len - 1, len - 1;
    var i := 0;
    while i < len - 1
      invariant 0 <= i && (len >= 1 ==> i <= len - 1)
      invariant |r| == len && multiset(r) == multiset(a) && StableRange(a, r, 0, len - 1)
      invariant leftBound == leftVar && rightBound == rightVar
      invariant len >= 1 ==> 0 <= leftVar <= rightVar <= len - 1 - i
      invariant SettledBelow(r, leftVar) && SettledAbove(r, rightVar)
    {
      var r1, rb, swapped := BubbleUp(r, leftVar, rightVar, rightBound);
      PassKeeps(a, r, r1, leftVar, rightVar);
      r, rightBound := r1, rb;
      if !swapped {
        SettledAroundSorted(r, leftVar, rightVar);
        return;
      }
      ForwardPassSettles(r, leftVar, rightVar, rightBound);
      rightVar := rightBound;

      var r2, lb, swapped2 := BubbleDown(r, leftVar, rightVar, leftBound);
      PassKeeps(a, r, r2, leftVar, rightVar);
      r, leftBound := r2, lb;
      if swapped2 {
        BackwardPassSettles(r, leftVar, rightVar, leftBound);
      }
      leftVar := leftBound;
      i := i + 1;
    }
    if len > 0 {
      SettledAroundSorted(r, leftVar, rightVar);
    }
  }
}

=== FILE: fibonacci.dfy ===
/** Fibonacci numbers, computed four ways: by the recurrence, by a loop
    keeping the last two values, and by fast exponentiation of the 2x2
    matrix `Q = [[1, 1], [1, 0]]`, checked against a table of the first
    fifty-one values. */
module Fibonacci {
  /** The sequence as documented: 0 for `n <= 0`, 1 for `n = 1`, and
      otherwise the sum of the two before. */
  function Fib(n: int): nat
    decreases n
  {
    if n <= 0 then 0 else if n == 1 then 1 else Fib(n - 2) + Fib(n - 1)
  }

  /** The Java methods answer a `long`: `fib(92)` is the last Fibonacci
      number below `2^63`, so their answers are exact up to `n = 92` and wrap
      around beyond it. */
  const LongLimit: int := 92

  function Max(a: int, b: int): int {
    if a < b then b else a
  }

  // ---------------------------------------------------------------------
  // The table

  /** `DICT`: `fib(0)` to `fib(50)`, written in two halves. */
  const Dict: seq<int> := [
    0, 1, 1, 2, 3, 5, 8, 13, 21, 34, 55, 89, 144, 233, 377, 610, 987, 1597,
    2584, 4181, 6765, 10946, 17711, 28657, 46368, 75025
  ] + [
    121393, 196418, 317811, 514229, 832040, 1346269, 2178309, 3524578,
    5702887, 9227465, 14930352, 24157817, 39088169, 63245986, 102334155,
    165580141, 267914296, 433494437, 701408733, 1134903170, 1836311903,
    2971215073, 4807526976, 7778742049, 12586269025
  ]

  lemma DictRecurrence(k: int)
    requires 2 <= k < |Dict|
    ensures Dict[k] == Dict[k - 1] + Dict[k - 2]
  {
  }

  /** Every entry of the table is the Fibonacci number of its index. */
  lemma {:induction false} DictIsFib(n: int)
    requires 0 <= n < |Dict|
    ensures |Dict| == 51 && Dict[n] == Fib(n)
    decreases n
  {
    if n >= 2 {
      DictRecurrence(n);
      DictIsFib(n - 1);
      DictIsFib(n - 2);
    }
  }

  /** What `test(n, ans)` does: it throws for `n > 50` (and, indexing the
      table, for negative `n`), and otherwise compares with the table. */
  datatype Outcome = Returned(value: bool) | Thrown

  /** `test(n, ans)`: whether `ans` is the `n`-th Fibonacci number. */
  function Test(n: int, ans: int): (o: Outcome)
    ensures o.Returned? <==> 0 <= n <= 50
    ensures o.Returned? ==> (o.value <==> ans == Fib(n))
  {
    if n > 50 || n < 0 then Thrown
    else
      DictIsFib(n);
      Returned(ans == Dict[n])
  }

  // ---------------------------------------------------------------------
  // Recursion

  /** `fibRecursively(n)`. */
  function FibRecursively(n: int): int
    decreases n
  {
    if n < 2 then Max(0, n) else FibRecursively(n - 1) + FibRecursively(n - 2)
  }

  lemma {:induction false} RecursivelyIsFib(n: int)
    requires n <= LongLimit
    ensures FibRecursively(n) == Fib(n)
    decreases n
  {
    if n >= 2 {
      RecursivelyIsFib(n - 1);
      RecursivelyIsFib(n - 2);
    }
  }

  // ---------------------------------------------------------------------
  // The shortcut for small arguments

  /** The early return `n <= 2 ? max(0, n)` of `fibByArray` and
      `fibByMatrix`. */
  function Shortcut(n: int): (r: int)
    requires n <= 2
    ensures n <= 1 ==> r == Fib(n)
    ensures n == 2 ==> r == 2
  {
    Max(0, n)
  }

  /** The shortcut answers 2 for `n = 2`, which the table rejects. */
  lemma ShortcutFailsTest()
    ensures Shortcut(2) == 2 && Test(2, Shortcut(2)) == Returned(false)
  {
    DictIsFib(2);
  }

  // ---------------------------------------------------------------------
  // The loop

  /** The loop of `fibByArray`: `fibOne` and `fibTwo` hold the last two
      values, and `fibN` the newest one. */
  method FibLoop(n: int) returns (r: int)
    requires 2 <= n <= LongLimit
    ensures r == Fib(n)
  {
    var fibOne, fibTwo, fibN := 1, 0, 0;
    var i := 1;
    while i < n
      invariant 1 <= i <= n
      invariant fibOne == Fib(i) && fibTwo == Fib(i - 1)
      invariant i > 1 ==> fibN == fibOne
    {
      fibN := fibOne + fibTwo;
      fibTwo := fibOne;
      fibOne := fibN;
      i := i + 1;
    }
    r := fibN;
  }

  /** `fibByArray(n)` as written: right everywhere but at `n = 2`. */
  method FibByArray(n: int) returns (r: int)
    requires n <= LongLimit
    ensures n != 2 ==> r == Fib(n)
    ensures n == 2 ==> r == 2 && Fib(2) == 1
  {
    if n <= 2 {
      return Shortcut(n);
    }
    r := FibLoop(n);
  }

  /** `fibByArray(n)` with the shortcut taken only for `n <= 1`, as in
      `fibRecursively`. */
  method FibByArrayCorrected(n: int) returns (r: int)
    requires n <= LongLimit
    ensures r == Fib(n)
  {
    if n <= 1 {
      return Shortcut(n);
    }
    r := FibLoop(n);
  }

  // ---------------------------------------------------------------------
  // Matrix power

  /** `FibMatrix`: a 2x2 matrix `[[m00, m01], [m10, m11]]`. */
  datatype Matrix = Matrix(m00: int, m01: int, m10: int, m11: int)

  /** `Q = [[1, 1], [1, 0]]`. */
  const Q: Matrix := Matrix(1, 1, 1, 0)

  /** `FibMatrix.multiply`: the matrix product. */
  function Multiply(a: Matrix, b: Matrix): Matrix {
    Matrix(a.m00 * b.m00 + a.m01 * b.m10, a.m00 * b.m01 + a.m01 * b.m11,
           a.m10 * b.m00 + a.m11 * b.m10, a.m10 * b.m01 + a.m11 * b.m11)
  }

  /** `Q^n` in closed form: `[[fib(n+1), fib(n)], [fib(n), fib(n-1)]]`. */
  function FibQ(n: int): Matrix {
    Matrix(Fib(n + 1), Fib(n), Fib(n), Fib(n - 1))
  }

  /** One entry of the associativity law, on plain numbers. */
  lemma AssocEntry(a0: int, a1: int, b0: int, b1: int, b2: int, b3: int, c0: int, c1: int)
    ensures (a0 * b0 + a1 * b2) * c0 + (a0 * b1 + a1 * b3) * c1 == a0 * (b0 * c0 + b1 * c1) + a1 * (b2 * c0 + b3 * c1)
  {
  }

  /** Matrix multiplication is associative. */
  lemma MultiplyAssoc(a: Matrix, b: Matrix, c: Matrix)
    ensures Multiply(Multiply(a, b), c) == Multiply(a, Multiply(b, c))
  {
    AssocEntry(a.m00, a.m01, b.m00, b.m01, b.m10, b.m11, c.m00, c.m10);
    AssocEntry(a.m00, a.m01, b.m00, b.m01, b.m10, b.m11, c.m01, c.m11);
    AssocEntry(a.m10, a.m11, b.m00, b.m01, b.m10, b.m11, c.m00, c.m10);
    AssocEntry(a.m10, a.m11, b.m00, b.m01, b.m10, b.m11, c.m01, c.m11);
  }

  /** Multiplying by `Q` on the right adds the columns. */
  lemma TimesQ(a: Matrix)
    ensures Multiply(a, Q) == Matrix(a.m00 + a.m01, a.m00, a.m10 + a.m11, a.m10)
  {
  }

  /** `Q^k Q = Q^(k+1)`: one step of the recurrence. */
  lemma QStep(k: int)
    requires k >= 1
    ensures Multiply(FibQ(k), Q) == FibQ(k + 1)
  {
    assert Fib(k + 2) == Fib(k) + Fib(k + 1);
    assert Fib(k + 1) == Fib(k - 1) + Fib(k);
    TimesQ(FibQ(k));
  }

  /** The closed form at 1 is `Q` itself. */
  lemma QOne()
    ensures FibQ(1) == Q
  {
  }

  lemma QAddOne(a: int)
    requires a >= 1
    ensures Multiply(FibQ(a), FibQ(1)) == FibQ(a + 1)
  {
    QOne();
    QStep(a);
  }

  /** `Q^a Q^b = Q^a (Q^(b-1) Q) = (Q^a Q^(b-1)) Q = Q^(a+b-1) Q`. */
  lemma QAddStep(a: int, b: int)
    requires a >= 1 && b >= 2
    requires Multiply(FibQ(a), FibQ(b - 1)) == FibQ(a + b - 1)
    ensures Multiply(FibQ(a), FibQ(b)) == FibQ(a + b)
  {
    var x, y, z := FibQ(a), FibQ(b - 1), FibQ(a + b - 1);
    calc {
      Multiply(x, FibQ(b));
      { QStep(b - 1); }
      Multiply(x, Multiply(y, Q));
      { MultiplyAssoc(x, y, Q); }
      Multiply(Multiply(x, y), Q);
      Multiply(z, Q);
      { QStep(a + b - 1); }
      FibQ(a + b);
    }
  }

  /** `Q^a Q^b = Q^(a+b)`: the product of two closed forms. */
  lemma {:induction false} QAdd(a: int, b: int)
    requires a >= 1 && b >= 1
    ensures Multiply(FibQ(a), FibQ(b)) == FibQ(a + b)
    decreases b
  {
    if b == 1 {
      QAddOne(a);
    } else {
      QAdd(a, b - 1);
      QAddStep(a, b);
    }
  }

  /** Squaring `Q^k`, then multiplying by `Q` for an odd exponent. */
  lemma PowerStep(k: int, n: int, h: Matrix)
    requires k >= 1 && h == FibQ(k)
    ensures n == 2 * k ==> Multiply(h, h) == FibQ(n)
    ensures n == 2 * k + 1 ==> Multiply(Multiply(h, h), Q) == FibQ(n)
  {
    QAdd(k, k);
    if n == 2 * k + 1 {
      QAdd(2 * k, 1);
    }
  }

  /** `FibMatrix.power(n)`: `Q^n` by squaring; `n = 0` never returns. */
  method Power(n: int) returns (r: Matrix)
    requires 1 <= n < LongLimit
    ensures r == FibQ(n)
    decreases n
  {
    r := Q;
    if n == 1 {
    } else if n % 2 == 0 {
      var k := n / 2;
      assert n == 2 * k;
      var h := Power(k);
      PowerStep(k, n, h);
      r := Multiply(h, h);
    } else {
      var k := (n - 1) / 2;
      assert n == 2 * k + 1;
      var h := Power(k);
      PowerStep(k, n, h);
      r := Multiply(h, h);
      r := Multiply(r, Q);
    }
  }

  /** `fibByMatrix(n)` as written: right everywhere but at `n = 2`. */
  method FibByMatrix(n: int) returns (r: int)
    requires n <= LongLimit
    ensures n != 2 ==> r == Fib(n)
    ensures n == 2 ==> r == 2 && Fib(2) == 1
  {
    if n <= 2 {
      return Shortcut(n);
    }
    var m := Power(n - 1);
    r := m.m00;
  }

  /** `fibByMatrix(n)` with the shortcut taken only for `n <= 1`. */
  method FibByMatrixCorrected(n: int) returns (r: int)
    requires n <= LongLimit
    ensures r == Fib(n)
  {
    if n <= 1 {
      return Shortcut(n);
    }
    var m := Power(n - 1);
    r := m.m00;
  }
}

=== FILE: gcd.dfy ===
/** Euclid's algorithm on Java `int`s: `gcd(p, q)` answers `p` when `q` is
    zero and recurses on `(q, p % q)` otherwise. Java's `%` truncates toward
    zero, so on negative arguments the answer may be negative; its absolute
    value is the greatest common divisor. */
module GCD {
  function Abs(x: int): nat {
    if x < 0 then -x else x
  }

  function Mul(d: int, k: int): int {
    d * k
  }

  /** `d` divides `x`: some multiple of `d` is `x`. */
  ghost predicate Divides(d: int, x: int) {
    exists k :: x == Mul(d, k)
  }

  // ---------------------------------------------------------------------
  // Java's integer division

  /** Java's `p / q`: the quotient rounded toward zero. */
  function Quot(p: int, q: int): int
    requires q != 0
  {
    if (p < 0) == (q < 0) then Abs(p) / Abs(q) else -(Abs(p) / Abs(q))
  }

  /** Java's `p % q`: its magnitude is below that of `q` and its sign is
      that of `p`. */
  function Rem(p: int, q: int): (r: int)
    requires q != 0
    ensures Abs(r) < Abs(q)
    ensures r == 0 || (r < 0 <==> p < 0)
  {
    if p >= 0 then p % Abs(q) else -((-p) % Abs(q))
  }

  /** Division of magnitudes, on plain numbers. */
  lemma DivModNat(a: nat, b: nat)
    requires b > 0
    ensures a == b * (a / b) + a % b
  {
  }

  /** Java's division identity `(p / q) * q + p % q == p`. */
  lemma QuotRem(p: int, q: int)
    requires q != 0
    ensures p == Mul(q, Quot(p, q)) + Rem(p, q)
  {
    var a: int, b: int := Abs(p), Abs(q);
    var u: int, m: int := a / b, a % b;
    DivModNat(a, b);
    assert a == b * u + m;
    var t := Quot(p, q);
    if p >= 0 {
      assert Rem(p, q) == m;
      if q > 0 {
        assert t == u;
      } else {
        assert t == -u && q == -b;
        assert Mul(q, t) == b * u;
      }
    } else {
      assert Rem(p, q) == -m;
      if q > 0 {
        assert t == -u && q == b;
        assert Mul(q, t) == -(b * u);
      } else {
        assert t == u && q == -b;
        assert Mul(q, t) == -(b * u);
      }
    }
  }

  /** Two examples of truncation: `7 % -2 == 1` and `-7 % 2 == -1`. */
  lemma RemExamples()
    ensures Rem(7, -2) == 1 && Quot(7, -2) == -3
    ensures Rem(-7, 2) == -1 && Quot(-7, 2) == -3
  {
  }

  // ---------------------------------------------------------------------
  // gcd

  /** `gcd(p, q)`. The recursion ends because the remainder is smaller than
      `q` in magnitude. */
  function Gcd(p: int, q: int): (r: int)
    decreases Abs(q)
  {
    if q == 0 then p else Gcd(q, Rem(p, q))
  }

  /** `gcd(p, 0)` is `p`. */
  lemma GcdZero(p: int)
    ensures Gcd(p, 0) == p
  {
  }

  /** `gcd(p, q) = gcd(q, p % q)` for nonzero `q`, with a smaller second
      argument. */
  lemma GcdStep(p: int, q: int)
    requires q != 0
    ensures Gcd(p, q) == Gcd(q, Rem(p, q))
    ensures Abs(Rem(p, q)) < Abs(q)
  {
  }

  /** `d` divides `q * t + r` when it divides `q` and `r`. */
  lemma DividesCombination(d: int, q: int, t: int, r: int)
    requires Divides(d, q) && Divides(d, r)
    ensures Divides(d, Mul(q, t) + r)
  {
    var a :| q == Mul(d, a);
    var b :| r == Mul(d, b);
    assert Mul(q, t) + r == Mul(d, a * t + b) by {
      assert Mul(q, t) == d * (a * t);
    }
  }

  /** `d` divides `p - q * t` when it divides `p` and `q`. */
  lemma DividesDifference(d: int, p: int, q: int, t: int)
    requires Divides(d, p) && Divides(d, q)
    ensures Divides(d, p - Mul(q, t))
  {
    var a :| p == Mul(d, a);
    var b :| q == Mul(d, b);
    assert p - Mul(q, t) == Mul(d, a - b * t) by {
      assert Mul(q, t) == d * (b * t);
    }
  }

  /** The answer divides both arguments. */
  lemma {:induction false} GcdDividesBoth(p: int, q: int)
    ensures Divides(Gcd(p, q), p) && Divides(Gcd(p, q), q)
    decreases Abs(q)
  {
    var g := Gcd(p, q);
    if q == 0 {
      assert p == Mul(p, 1) && 0 == Mul(p, 0);
    } else {
      var r := Rem(p, q);
      GcdDividesBoth(q, r);
      QuotRem(p, q);
      DividesCombination(g, q, Quot(p, q), r);
    }
  }

  /** Every common divisor of the arguments divides the answer, so the
      answer's magnitude is the greatest common divisor. */
  lemma {:induction false} CommonDivisorDividesGcd(p: int, q: int, d: int)
    requires Divides(d, p) && Divides(d, q)
    ensures Divides(d, Gcd(p, q))
    decreases Abs(q)
  {
    if q != 0 {
      var r := Rem(p, q);
      QuotRem(p, q);
      DividesDifference(d, p, q, Quot(p, q));
      CommonDivisorDividesGcd(q, r, d);
    }
  }

  /** On non-negative arguments the answer is non-negative, and it is zero
      only when both arguments are. */
  lemma {:induction false} GcdNonNegative(p: int, q: int)
    requires p >= 0 && q >= 0
    ensures Gcd(p, q) >= 0
    ensures Gcd(p, q) == 0 <==> p == 0 && q == 0
    decreases q
  {
    if q != 0 {
      GcdNonNegative(q, Rem(p, q));
    }
  }

  /** The demonstration in `main`: `gcd(5, 115)` is 5. */
  lemma GcdExample()
    ensures Gcd(5, 115) == 5
  {
  }
}

=== FILE: heap_sort.dfy ===
/** Heap sort: the array is arranged into a max-heap (the children of node
    `i` are `2i+1` and `2i+2`), then the root, the largest remaining key, is
    repeatedly exchanged with the last heap element and the shrunken heap is
    repaired by sifting the new root down. */
module HeapSort {
  import opened BaseSort

  // ---------------------------------------------------------------------
  // Heap shape

  function Parent(c: int): int {
    (c - 1) / 2
  }

  /** Node `k` lies in the subtree rooted at node `i`. */
  ghost predicate InSubtree(k: int, i: int)
    decreases k
  {
    0 <= i <= k && (k == i || InSubtree(Parent(k), i))
  }

  lemma {:induction false} SubtreeTrans(k: int, j: int, i: int)
    requires InSubtree(k, j) && InSubtree(j, i)
    ensures InSubtree(k, i)
    decreases k
  {
    if k != j {
      SubtreeTrans(Parent(k), j, i);
    }
  }

  /** Every parent-child edge inside `[0, bound)` whose parent is at index
      `i` or later is in order: the parent's key is not below the child's.
      `HeapFrom(a, 0, bound)` says `a[0..bound-1]` is a max-heap. */
  ghost predicate HeapFrom(a: seq<Item>, i: int, bound: int) {
    forall c :: 0 < c < bound && c < |a| && i <= Parent(c) ==> a[c].key <= a[Parent(c)].key
  }

  /** The root of a max-heap holds its largest key. */
  lemma {:induction false} RootIsMax(a: seq<Item>, bound: int, k: int)
    requires bound <= |a| && HeapFrom(a, 0, bound) && 0 <= k < bound
    ensures a[k].key <= a[0].key
    decreases k
  {
    if k > 0 {
      RootIsMax(a, bound, Parent(k));
    }
  }

  lemma RootBoundsHeap(a: seq<Item>, bound: int)
    requires 0 < bound <= |a| && HeapFrom(a, 0, bound)
    ensures AllAtMost(a, 0, bound - 1, a[0].key)
  {
    forall k | 0 <= k < bound
      ensures a[k].key <= a[0].key
    {
      RootIsMax(a, bound, k);
    }
  }

  /** `x` is what sifting down puts at node `i`: the largest of `a[i]` and its
      children inside the heap, and one of them. */
  ghost predicate NewRoot(a: seq<Item>, x: Item, i: int, bound: int)
    requires 0 <= i < bound <= |a|
  {
    (x == a[i] || (2 * i + 1 < bound && x == a[2 * i + 1]) || (2 * i + 2 < bound && x == a[2 * i + 2])) &&
    a[i].key <= x.key &&
    (2 * i + 1 < bound ==> a[2 * i + 1].key <= x.key) &&
    (2 * i + 2 < bound ==> a[2 * i + 2].key <= x.key)
  }

  /** Exchanging two nodes leaves in order every edge that touches
      neither of them. */
  lemma ExchOutsideHeap(a: seq<Item>, s: seq<Item>, x: int, y: int, lo: int, bound: int, lo': int, bound': int)
    requires 0 <= x < |a| && 0 <= y < |a| && s == Exch(a, x, y)
    requires HeapFrom(a, lo, bound) && lo <= lo' && bound' <= bound
    requires x < lo' && (y < lo' || bound' <= y)
    ensures HeapFrom(s, lo', bound')
  {
    forall c | 0 < c < bound' && c < |s| && lo' <= Parent(c)
      ensures s[c].key <= s[Parent(c)].key
    {
      assert s[c] == a[c] && s[Parent(c)] == a[Parent(c)];
    }
  }

  // ---------------------------------------------------------------------
  // Sifting down

  /** `heapify(a, i, bound)`: if every edge below node `i` is in order, the
      subtree at `i` becomes a max-heap. Only nodes of that subtree inside
      the heap move, and the new root is the largest of the old root and its
      children. */
  method Heapify(a: seq<Item>, i: int, bound: int) returns (r: seq<Item>)
    requires 0 <= i && 0 <= bound <= |a|
    requires HeapFrom(a, i + 1, bound)
    ensures |r| == |a| && multiset(r) == multiset(a)
    ensures forall k :: 0 <= k < |a| && !(k < bound && InSubtree(k, i)) ==> r[k] == a[k]
    ensures HeapFrom(r, i, bound)
    ensures i < bound ==> NewRoot(a, r[i], i, bound)
    decreases bound - i
  {
    var largest := i;
    var left, right := 2 * i + 1, 2 * i + 2;
    if left < bound && Less(a[largest], a[left]) {
      largest := left;
    }
    if right < bound && Less(a[largest], a[right]) {
      largest := right;
    }
    if largest != i {
      var s := Exch(a, i, largest);
      ExchOutsideHeap(a, s, i, largest, i + 1, bound, largest + 1, bound);
      r := Heapify(s, largest, bound);
      assert SiftCase(a, s, r, i, largest, bound);
      SiftedDown(a, s, r, i, largest, bound);
    } else {
      RootInPlace(a, i, bound);
      r := a;
    }
  }

  /** When no child inside the heap is above node `i`, the subtree at `i`
      is already a heap and its root stays. */
  lemma RootInPlace(a: seq<Item>, i: int, bound: int)
    requires 0 <= i && bound <= |a| && HeapFrom(a, i + 1, bound)
    requires 2 * i + 1 < bound ==> a[2 * i + 1].key <= a[i].key
    requires 2 * i + 2 < bound ==> a[2 * i + 2].key <= a[i].key
    ensures HeapFrom(a, i, bound)
    ensures i < bound ==> NewRoot(a, a[i], i, bound)
  {
  }

  /** The facts the recursive case of `Heapify` has about its arrays: `s`
      is `a` with node `i` and its larger child `largest` exchanged, and `r`
      is `s` with the subtree at `largest` sifted into a heap. */
  ghost predicate SiftCase(a: seq<Item>, s: seq<Item>, r: seq<Item>, i: int, largest: int, bound: int) {
    0 <= i && bound <= |a| && HeapFrom(a, i + 1, bound) &&
    (largest == 2 * i + 1 || largest == 2 * i + 2) &&
    largest < bound && s == Exch(a, i, largest) &&
    a[i].key < a[largest].key &&
    (2 * i + 1 < bound ==> a[2 * i + 1].key <= a[largest].key) &&
    (2 * i + 2 < bound ==> a[2 * i + 2].key <= a[largest].key) &&
    |r| == |s| &&
    (forall k :: 0 <= k < |s| && !(k < bound && InSubtree(k, largest)) ==> r[k] == s[k]) &&
    HeapFrom(r, largest, bound) && NewRoot(s, r[largest], largest, bound)
  }

  /** What sifting puts at the child is no larger than the key that moved
      up: it is the old root or a grandchild, and both are below. */
  lemma SunkRootBelow(a: seq<Item>, s: seq<Item>, r: seq<Item>, i: int, largest: int, bound: int)
    requires SiftCase(a, s, r, i, largest, bound)
    ensures r[largest].key <= a[largest].key
  {
    var l, h := 2 * largest + 1, 2 * largest + 2;
    if l < bound {
      assert Parent(l) == largest && s[l] == a[l];
    }
    if h < bound {
      assert Parent(h) == largest && s[h] == a[h];
    }
  }

  /** Nodes before `largest` are outside its subtree. */
  lemma BeforeNotInSubtree(k: int, largest: int)
    requires k < largest
    ensures !InSubtree(k, largest)
  {
  }

  /** Node `i` still holds the child's old key. */
  lemma SiftedRoot(a: seq<Item>, s: seq<Item>, r: seq<Item>, i: int, largest: int, bound: int)
    requires SiftCase(a, s, r, i, largest, bound)
    ensures r[i] == a[largest]
  {
    BeforeNotInSubtree(i, largest);
  }

  /** One parent-child edge of the subtree at `i` is in order after the
      recursive case. */
  lemma SiftedEdge(a: seq<Item>, s: seq<Item>, r: seq<Item>, i: int, largest: int, bound: int, c: int)
    requires SiftCase(a, s, r, i, largest, bound)
    requires 0 < c < bound && c < |r| && i <= Parent(c)
    ensures r[c].key <= r[Parent(c)].key
  {
    var p := Parent(c);
    if p == i {
      SiftedRoot(a, s, r, i, largest, bound);
      if c == largest {
        SunkRootBelow(a, s, r, i, largest, bound);
      } else {
        assert c == 2 * i + 1 || c == 2 * i + 2;
        BeforeNotInSubtree(p, largest);
        assert !InSubtree(c, largest);
        assert r[c] == s[c] == a[c];
      }
    } else if p < largest {
      BeforeNotInSubtree(p, largest);
      assert !InSubtree(c, largest);
      assert r[p] == s[p] == a[p];
      assert r[c] == s[c] == a[c];
    }
  }

  /** The recursive case of `Heapify`: after swapping the larger child up
      and sifting the old root down into that child's subtree, the whole
      subtree at `i` is a heap and nothing outside it has moved. */
  lemma SiftedDown(a: seq<Item>, s: seq<Item>, r: seq<Item>, i: int, largest: int, bound: int)
    requires SiftCase(a, s, r, i, largest, bound)
    ensures forall k :: 0 <= k < |a| && !(k < bound && InSubtree(k, i)) ==> r[k] == a[k]
    ensures HeapFrom(r, i, bound) && NewRoot(a, r[i], i, bound)
  {
    assert InSubtree(largest, i) by {
      assert Parent(largest) == i;
    }
    forall k | 0 <= k < |a| && !(k < bound && InSubtree(k, i))
      ensures r[k] == a[k]
    {
      if k < bound && InSubtree(k, largest) {
        SubtreeTrans(k, largest, i);
      }
    }
    SiftedRoot(a, s, r, i, largest, bound);
    forall c | 0 < c < bound && c < |r| && i <= Parent(c)
      ensures r[c].key <= r[Parent(c)].key
    {
      SiftedEdge(a, s, r, i, largest, bound, c);
    }
  }

  // ---------------------------------------------------------------------
  // Building the heap and sorting

  /** `buildMaxHeap`: sifts down every node from `len >> 1` to the root.
      Starting above the last internal node only adds calls that change
      nothing. */
  method BuildMaxHeap(a: seq<Item>) returns (r: seq<Item>)
    ensures |r| == |a| && multiset(r) == multiset(a)
    ensures HeapFrom(r, 0, |r|)
  {
    r := a;
    var i := |a| / 2;
    while i >= 0
      invariant -1 <= i <= |a| / 2
      invariant |r| == |a| && multiset(r) == multiset(a)
      invariant HeapFrom(r, i + 1, |a|)
    {
      r := Heapify(r, i, |a|);
      i := i - 1;
    }
  }

  /** After a round of `sort`, the heap part holds no key above the moved
      root. */
  lemma SortStepBelow(r: seq<Item>, s: seq<Item>, r': seq<Item>, i: int)
    requires 0 < i < |r| && AllAtMost(r, 0, i, r[0].key)
    requires s == Exch(r, 0, i)
    requires |r'| == |s| && multiset(r') == multiset(s)
    requires forall k :: i <= k < |s| ==> r'[k] == s[k]
    ensures AllAtMost(r', 0, i - 1, r[0].key)
  {
    assert SameOutside(s, r', 0, i - 1);
    WholeToPermRange(s, r', 0, i - 1);
    assert AllAtMost(s, 0, i - 1, r[0].key) by {
      forall k | 0 <= k <= i - 1
        ensures s[k].key <= r[0].key
      {
        if k == 0 {
          assert s[k] == r[i];
        } else {
          assert s[k] == r[k];
        }
      }
    }
    PermRangeKeepsUpper(s, r', 0, i - 1, r[0].key);
  }

  /** After a round of `sort`, the moved root extends the sorted suffix. */
  lemma SortStepSorted(r: seq<Item>, r': seq<Item>, i: int)
    requires 0 < i < |r| && |r'| == |r| && SettledAbove(r, i)
    requires r'[i] == r[0]
    requires forall k :: i < k < |r| ==> r'[k] == r[k]
    ensures SortedRange(r', i, |r'| - 1)
  {
    forall p, q | i <= p < q < |r'|
      ensures r'[p].key <= r'[q].key
    {
      assert r'[q] == r[q];
      if p == i {
        assert r[0].key <= r[i + 1].key;
        assert r[i + 1].key <= r[q].key;
      } else {
        assert r'[p] == r[p];
      }
    }
  }

  /** One round of `sort`: the root goes to the end of the heap, and the
      remaining heap is repaired. The moved key is the largest of the heap
      and no larger than the settled suffix. */
  lemma SortStep(r: seq<Item>, s: seq<Item>, r': seq<Item>, i: int)
    requires 0 < i < |r| && HeapFrom(r, 0, i + 1) && SettledAbove(r, i)
    requires s == Exch(r, 0, i)
    requires |r'| == |s| && multiset(r') == multiset(s)
    requires forall k :: 0 <= k < |s| && !(k < i && InSubtree(k, 0)) ==> r'[k] == s[k]
    ensures SettledAbove(r', i - 1)
  {
    RootBoundsHeap(r, i + 1);
    SortStepBelow(r, s, r', i);
    assert r'[i] == r[0];
    SortStepSorted(r, r', i);
  }

  /** `sort`: the result is sorted and a permutation of the input. */
  method Sort(a: seq<Item>) returns (r: seq<Item>)
    ensures |r| == |a| && Sorted(r) && multiset(r) == multiset(a)
  {
    var len := |a|;
    r := BuildMaxHeap(a);
    var i := len - 1;
    while i > 0
      invariant -1 <= i < |a| && len == i + 1
      invariant |r| == |a| && multiset(r) == multiset(a)
      invariant HeapFrom(r, 0, len) && SettledAbove(r, i)
    {
      var s := Exch(r, 0, i);
      len := len - 1;
      ExchOutsideHeap(r, s, 0, i, 0, len + 1, 1, len);
      var r' := Heapify(s, 0, len);
      SortStep(r, s, r', i);
      r := r';
      i := i - 1;
    }
    if |a| > 0 {
      SettledAroundSorted(r, 0, 0);
    }
  }
}

=== FILE: insertion_sort.dfy ===
/** Insertion sort and its variants: the adjacent-swap sort, the shifting
    sort, the binary-search insertion sort, the two-way insertion sort into a
    circular buffer, and the range version that merge sort and quicksort use
    for short ranges.

    Every step of the straight-line variants is the same rearrangement: the
    element at `i` leaves its place and re-enters the sorted range below it at
    its insertion point, the index just after every element whose key is not
    above its own. `InsertAt` is that rearrangement and `InsertAtSorts` its
    one proof; each variant is shown to perform it. */
module InsertionSort {
  import opened BaseSort
  import Shell = ShellSort


  // ---------------------------------------------------------------------
  // The shared insertion step

  /** `a` with `a[i]` moved down to position `j`; `a[j..i-1]` each move up
      one place. */
  function InsertAt(a: seq<Item>, i: int, j: int): (r: seq<Item>)
    requires 0 <= j <= i < |a|
    ensures |r| == |a|
    ensures forall p :: 0 <= p < |a| ==>
      r[p] == (if p < j then a[p] else if p == j then a[i] else if p <= i then a[p - 1] else a[p])
  {
    a[..j] + [a[i]] + a[j..i] + a[i + 1..]
  }

  /** `j` is where `a[i]` belongs among `a[lo..i-1]`: after every element
      whose key is at most its own, before every element whose key is
      strictly greater. Inserting there keeps equal keys in input order. */
  ghost predicate InsertionPoint(a: seq<Item>, lo: int, i: int, j: int) {
    0 <= lo <= j <= i < |a| &&
    (forall p :: lo <= p < j ==> a[p].key <= a[i].key) &&
    (forall p :: j <= p < i ==> a[i].key < a[p].key)
  }

  /** Inserting the next element at its insertion point extends a sorted
      range by one, permutes only that range, and is stable. */
  lemma InsertAtSorts(a: seq<Item>, lo: int, i: int, j: int)
    requires InsertionPoint(a, lo, i, j) && SortedRange(a, lo, i - 1)
    ensures SortedRange(InsertAt(a, i, j), lo, i)
    ensures SameOutside(a, InsertAt(a, i, j), lo, i)
    ensures PermRange(a, InsertAt(a, i, j), lo, i)
    ensures StableRange(a, InsertAt(a, i, j), lo, i)
  {
    InsertAtOrders(a, lo, i, j);
    InsertAtKeepsRuns(a, lo, i, j);
  }

  lemma InsertAtOrders(a: seq<Item>, lo: int, i: int, j: int)
    requires InsertionPoint(a, lo, i, j) && SortedRange(a, lo, i - 1)
    ensures SortedRange(InsertAt(a, i, j), lo, i)
  {
    var r := InsertAt(a, i, j);
    forall p, q | lo <= p < q <= i
      ensures r[p].key <= r[q].key
    {
      if q < j {
        assert r[p] == a[p] && r[q] == a[q];
      } else if q == j {
        assert r[p] == a[p] && r[q] == a[i];
      } else if p < j {
        assert r[p] == a[p] && r[q] == a[q - 1];
        assert a[p].key <= a[q - 1].key;
      } else if p == j {
        assert r[p] == a[i] && r[q] == a[q - 1];
        assert a[i].key < a[q - 1].key;
      } else {
        assert r[p] == a[p - 1] && r[q] == a[q - 1];
        assert a[p - 1].key <= a[q - 1].key;
      }
    }
  }

  lemma InsertAtKeepsRuns(a: seq<Item>, lo: int, i: int, j: int)
    requires InsertionPoint(a, lo, i, j)
    ensures SameOutside(a, InsertAt(a, i, j), lo, i)
    ensures PermRange(a, InsertAt(a, i, j), lo, i)
    ensures StableRange(a, InsertAt(a, i, j), lo, i)
  {
    var r := InsertAt(a, i, j);
    var pre, mid, x := a[lo..j], a[j..i], a[i];
    assert a[lo..i + 1] == pre + mid + [x];
    assert r[lo..i + 1] == pre + [x] + mid by {
      assert r == a[..j] + [a[i]] + a[j..i] + a[i + 1..];
    }
    assert forall t :: 0 <= t < |mid| ==> x.key < mid[t].key;
    forall k
      ensures SameRun(a, r, lo, i, k)
    {
      RunAfterGreater(pre, mid, x, k);
    }
  }

  /** Moving `x` in front of elements whose keys are all greater than its own
      changes no key's run. */
  lemma RunAfterGreater(pre: seq<Item>, mid: seq<Item>, x: Item, k: int)
    requires forall t :: 0 <= t < |mid| ==> x.key < mid[t].key
    ensures KeyRun(pre + mid + [x], k) == KeyRun(pre + [x] + mid, k)
  {
    KeyRun3(pre, mid, [x], k);
    KeyRun3(pre, [x], mid, k);
    var p, m, s := KeyRun(pre, k), KeyRun(mid, k), KeyRun([x], k);
    if k == x.key {
      KeyRunAbsent(mid, k);
      assert m == [];
      assert p + m + s == p + s;
      assert p + s + m == p + s;
    } else {
      KeyRunSingle(x, k);
      assert s == [];
      assert p + m + s == p + m;
      assert p + s + m == p + m;
    }
  }

  /** One swap of the sinking element with its left neighbour moves it one
      insertion position further down. */
  lemma InsertAtSwapDown(a: seq<Item>, i: int, j: int)
    requires 0 < j <= i < |a|
    ensures Exch(InsertAt(a, i, j), j, j - 1) == InsertAt(a, i, j - 1)
  {
    var s, t := Exch(InsertAt(a, i, j), j, j - 1), InsertAt(a, i, j - 1);
    forall p | 0 <= p < |a|
      ensures s[p] == t[p]
    {
    }
  }

  /** The state of a shifting insertion: positions up to `j` still hold `a`,
      `a[j..i-1]` has moved up one place. Position `j` itself is the gap. */
  ghost predicate Shifted(a: seq<Item>, r: seq<Item>, j: int, i: int) {
    |r| == |a| && 0 <= j <= i < |a| &&
    forall p {:trigger r[p]} :: 0 <= p < |a| && p != j ==>
      r[p] == (if p < j then a[p] else if p <= i then a[p - 1] else a[p])
  }

  /** Copying the element below the gap into it moves the gap down by one. */
  lemma ShiftStep(a: seq<Item>, r: seq<Item>, j: int, i: int)
    requires 0 < j <= i < |a| && Shifted(a, r, j, i)
    ensures Shifted(a, r[j := r[j - 1]], j - 1, i)
  {
    var s := r[j := r[j - 1]];
    assert r[j - 1] == a[j - 1];
    forall p | 0 <= p < |a| && p != j - 1
      ensures s[p] == (if p < j - 1 then a[p] else if p <= i then a[p - 1] else a[p])
    {
      if p != j {
        assert s[p] == r[p];
      }
    }
  }

  /** Writing the held element into the gap completes the insertion. */
  lemma ShiftedFill(a: seq<Item>, r: seq<Item>, j: int, i: int)
    requires 0 <= j <= i < |a| && Shifted(a, r, j, i)
    ensures r[j := a[i]] == InsertAt(a, i, j)
  {
    var s, t := r[j := a[i]], InsertAt(a, i, j);
    forall p | 0 <= p < |a|
      ensures s[p] == t[p]
    {
      if p != j {
        assert s[p] == r[p];
      }
    }
  }

  /** Below a sorted range's last element everything is at most `x` when
      that last element is. */
  lemma SortedBelow(a: seq<Item>, lo: int, j: int, x: Item)
    requires 0 <= lo < j <= |a| && SortedRange(a, lo, j - 1) && a[j - 1].key <= x.key
    ensures forall p :: lo <= p < j ==> a[p].key <= x.key
  {
    forall p | lo <= p < j
      ensures a[p].key <= x.key
    {
      if p < j - 1 {
        assert a[p].key <= a[j - 1].key;
      }
    }
  }

  /** One outer step of every straight-line variant: inserting `r[i]` at
      its insertion point grows the sorted part `[lo, i]` and keeps `[lo, hi]`
      a stable permutation of the input's range. */
  lemma InsertStep(a: seq<Item>, r: seq<Item>, lo: int, i: int, j: int, hi: int)
    requires lo <= i <= hi < |a| && SortedRange(r, lo, i - 1) && InsertionPoint(r, lo, i, j)
    requires SameOutside(a, r, lo, hi) && PermRange(a, r, lo, hi) && StableRange(a, r, lo, hi)
    ensures SortedRange(InsertAt(r, i, j), lo, i)
    ensures SameOutside(a, InsertAt(r, i, j), lo, hi) && PermRange(a, InsertAt(r, i, j), lo, hi)
    ensures StableRange(a, InsertAt(r, i, j), lo, hi)
  {
    var next := InsertAt(r, i, j);
    InsertAtSorts(r, lo, i, j);
    PermRangeWiden(r, next, lo, i, lo, hi);
    StableRangeWiden(r, next, lo, i, lo, hi);
    StableTrans(a, r, next, lo, hi);
  }

  // ---------------------------------------------------------------------
  // Adjacent-swap insertion

  /** The inner loop `for (j = i; j > lo && less(a[j], a[j-1]); j--) exch(a, j, j-1)`:
      it moves `a[i]` down to its insertion point in the sorted `a[lo..i-1]`. */
  method SinkLeft(a: seq<Item>, lo: int, i: int) returns (r: seq<Item>, j: int)
    requires 0 <= lo <= i < |a| && SortedRange(a, lo, i - 1)
    ensures InsertionPoint(a, lo, i, j) && r == InsertAt(a, i, j)
  {
    r, j := a, i;
    assert a == InsertAt(a, i, i);
    while j > lo && Less(r[j], r[j - 1])
      invariant lo <= j <= i
      invariant r == InsertAt(a, i, j)
      invariant forall p :: j <= p < i ==> a[i].key < a[p].key
    {
      InsertAtSwapDown(a, i, j);
      r := Exch(r, j, j - 1);
      j := j - 1;
    }
    if j > lo {
      SortedBelow(a, lo, j, a[i]);
    }
  }

  /** The private `insertionSort(a, lo, hi)` that merge sort, quicksort and
      the parallel merge sort each carry (three identical copies): sorts
      exactly `a[lo..hi]`, stably, and leaves everything else alone. An empty
      range is a no-op. */
  method SortRange(a: seq<Item>, lo: int, hi: int) returns (r: seq<Item>)
    requires ValidRange(a, lo, hi)
    ensures SortedRange(r, lo, hi)
    ensures SameOutside(a, r, lo, hi) && PermRange(a, r, lo, hi)
    ensures StableRange(a, r, lo, hi)
  {
    r := a;
    var i := lo;
    while i <= hi
      invariant lo <= i <= hi + 1
      invariant SortedRange(r, lo, i - 1)
      invariant SameOutside(a, r, lo, hi) && PermRange(a, r, lo, hi) && StableRange(a, r, lo, hi)
    {
      var next, j := SinkLeft(r, lo, i);
      InsertStep(a, r, lo, i, j, hi);
      r := next;
      i := i + 1;
    }
  }

  /** `sort(a)`: the same loop over the whole array, starting at 1 since the
      first element alone is sorted. After outer step `i`, `a[0..i]` is
      sorted, and the whole array is a stable permutation of `a`. */
  method Sort(a: seq<Item>) returns (r: seq<Item>)
    ensures Sorted(r) && multiset(r) == multiset(a)
    ensures StableRange(a, r, 0, |a| - 1)
  {
    r := a;
    if |a| == 0 {
      return;
    }
    var hi := |a| - 1;
    var i := 1;
    while i < |a|
      invariant 1 <= i <= hi + 1
      invariant SortedRange(r, 0, i - 1)
      invariant SameOutside(a, r, 0, hi) && PermRange(a, r, 0, hi) && StableRange(a, r, 0, hi)
    {
      var next, j := SinkLeft(r, 0, i);
      InsertStep(a, r, 0, i, j, hi);
      r := next;
      i := i + 1;
    }
    PermRangeWhole(a, r, 0, hi);
  }

  // ---------------------------------------------------------------------
  // Shifting insertion

  /** The inner loop of `sortWithOverride`: hold `a[i]`, shift every
      predecessor strictly greater than it up one place, then write it into
      the gap. */
  method ShiftIn(a: seq<Item>, i: int) returns (r: seq<Item>, j: int)
    requires 0 <= i < |a| && SortedRange(a, 0, i - 1)
    ensures InsertionPoint(a, 0, i, j) && r == InsertAt(a, i, j)
  {
    var cur := a[i];
    r, j := a, i;
    while j > 0 && Less(cur, r[j - 1])
      invariant 0 <= j <= i
      invariant Shifted(a, r, j, i)
      invariant forall p :: j <= p < i ==> cur.key < a[p].key
    {
      assert r[j - 1] == a[j - 1];
      ShiftStep(a, r, j, i);
      r := r[j := r[j - 1]];
      j := j - 1;
    }
    assert j > 0 ==> r[j - 1] == a[j - 1];
    if j > 0 {
      SortedBelow(a, 0, j, cur);
    }
    ShiftedFill(a, r, j, i);
    r := r[j := cur];
  }

  /** `sortWithOverride(a)`: the shifting variant; a sorted, stable
      permutation. */
  method SortWithOverride(a: seq<Item>) returns (r: seq<Item>)
    ensures Sorted(r) && multiset(r) == multiset(a)
    ensures StableRange(a, r, 0, |a| - 1)
  {
    r := a;
    var hi := |a| - 1;
    var i := 0;
    while i < |a|
      invariant 0 <= i <= hi + 1
      invariant SortedRange(r, 0, i - 1)
      invariant SameOutside(a, r, 0, hi) && PermRange(a, r, 0, hi) && StableRange(a, r, 0, hi)
    {
      var next, j := ShiftIn(r, i);
      InsertStep(a, r, 0, i, j, hi);
      r := next;
      i := i + 1;
    }
    PermRangeWhole(a, r, 0, |a| - 1);
  }

  // ---------------------------------------------------------------------
  // Binary insertion

  /** `getInsertIndex(a, end, temp)`: binary search over the sorted
      `a[0..end-1]` for the last index whose element is not above `temp`;
      -1 when every element is above it. */
  method GetInsertIndex(a: seq<Item>, end: int, temp: Item) returns (high: int)
    requires 0 <= end <= |a| && SortedRange(a, 0, end - 1)
    ensures -1 <= high <= end - 1
    ensures forall p :: 0 <= p <= high ==> a[p].key <= temp.key
    ensures forall p :: high < p < end ==> temp.key < a[p].key
  {
    var low := 0;
    high := end - 1;
    while low <= high
      invariant 0 <= low <= high + 1 <= end
      invariant forall p :: 0 <= p < low ==> a[p].key <= temp.key
      invariant forall p :: high < p < end ==> temp.key < a[p].key
      decreases high - low
    {
      var m := low + (high - low) / 2;
      if Less(temp, a[m]) {
        high := m - 1;
      } else {
        low := m + 1;
      }
    }
  }

  /** One step of `binaryInsertSort`: find the insertion index by binary
      search, shift `a[index+1..i-1]` up one place, write `a[i]` at
      `index + 1`. */
  method BinaryInsert(a: seq<Item>, i: int) returns (r: seq<Item>, j: int)
    requires 0 <= i < |a| && SortedRange(a, 0, i - 1)
    ensures InsertionPoint(a, 0, i, j) && r == InsertAt(a, i, j)
  {
    var temp := a[i];
    var index := GetInsertIndex(a, i, temp);
    r := a;
    var k := i - 1;
    while k >= index + 1
      invariant index <= k <= i - 1
      invariant Shifted(a, r, k + 1, i)
    {
      ShiftStep(a, r, k + 1, i);
      r := r[k + 1 := r[k]];
      k := k - 1;
    }
    ShiftedFill(a, r, index + 1, i);
    r := r[k + 1 := temp];
    j := index + 1;
  }

  /** `binaryInsertSort(a)`: a sorted, stable permutation. */
  method BinaryInsertSort(a: seq<Item>) returns (r: seq<Item>)
    ensures Sorted(r) && multiset(r) == multiset(a)
    ensures StableRange(a, r, 0, |a| - 1)
  {
    r := a;
    if |a| == 0 {
      return;
    }
    var hi := |a| - 1;
    var i := 1;
    while i < |a|
      invariant 1 <= i <= hi + 1
      invariant SortedRange(r, 0, i - 1)
      invariant SameOutside(a, r, 0, hi) && PermRange(a, r, 0, hi) && StableRange(a, r, 0, hi)
    {
      var next, j := BinaryInsert(r, i);
      InsertStep(a, r, 0, i, j, hi);
      r := next;
      i := i + 1;
    }
    PermRangeWhole(a, r, 0, |a| - 1);
  }

  // ---------------------------------------------------------------------
  // Two-way insertion into a circular buffer

  /** Buffer index of window slot `u` when the window of a circular buffer
      of length `n` starts at `first`: the index `(first + u) % n` of `twoPathInsertSort`. */
  function Pos(first: int, u: int, n: int): (p: int)
    requires 0 <= first < n && 0 <= u < n
    ensures 0 <= p < n
  {
    if first + u < n then first + u else first + u - n
  }

  /** Java's `x % n` on the non-negative operands the two-way insertion
      produces (all below `3 * n`), written as the subtraction it amounts to. */
  function Wrap(x: int, n: int): (r: int)
    requires 0 < n && 0 <= x < 3 * n
    ensures r == (if x < n then x else if x < 2 * n then x - n else x - 2 * n)
  {
    if x < n then x else if x < 2 * n then x - n else x - 2 * n
  }

  /** `Wrap` is Java's `%` on those operands. */
  lemma WrapIsRemainder(x: int, n: int)
    requires 0 < n && 0 <= x < 3 * n
    ensures Wrap(x, n) == x % n
  {
  }

  /** Distinct window slots are distinct buffer cells. */
  lemma PosInjective(first: int, u: int, v: int, n: int)
    requires 0 <= first < n && 0 <= u < n && 0 <= v < n && u != v
    ensures Pos(first, u, n) != Pos(first, v, n)
  {
  }

  /** The window of `m` slots of buffer `b` starting at `first`, in order. */
  ghost function Window(b: seq<Item>, first: int, m: int): (w: seq<Item>)
    requires 0 <= first < |b| && 0 <= m <= |b|
    ensures |w| == m && forall u :: 0 <= u < m ==> w[u] == b[Pos(first, u, |b|)]
  {
    seq(m, u requires 0 <= u < m => b[Pos(first, u, |b|)])
  }

  /** Writing one window slot changes that slot of the window only. */
  lemma WindowUpdate(b: seq<Item>, first: int, m: int, u: int, x: Item)
    requires 0 <= first < |b| && 0 <= u < m <= |b|
    ensures Window(b[Pos(first, u, |b|) := x], first, m) == Window(b, first, m)[u := x]
  {
    var n := |b|;
    var l, r := Window(b[Pos(first, u, n) := x], first, m), Window(b, first, m)[u := x];
    forall v | 0 <= v < m
      ensures l[v] == r[v]
    {
      if v != u {
        PosInjective(first, u, v, n);
      }
    }
  }

  /** Writing the slot just past the window appends to it. */
  lemma WindowAppend(b: seq<Item>, first: int, m: int, x: Item)
    requires 0 <= first < |b| && 0 <= m < |b|
    ensures Window(b[Pos(first, m, |b|) := x], first, m + 1) == Window(b, first, m) + [x]
  {
    var n := |b|;
    var l, r := Window(b[Pos(first, m, n) := x], first, m + 1), Window(b, first, m) + [x];
    forall v | 0 <= v < m + 1
      ensures l[v] == r[v]
    {
      if v != m {
        PosInjective(first, m, v, n);
      }
    }
  }

  /** Moving the window start back one cell and writing there prepends. */
  lemma WindowPrepend(b: seq<Item>, first: int, m: int, x: Item)
    requires 0 <= first < |b| && 0 <= m < |b|
    ensures Window(b[Pos(first, |b| - 1, |b|) := x], Pos(first, |b| - 1, |b|), m + 1)
         == [x] + Window(b, first, m)
  {
    var n := |b|;
    var f := Pos(first, n - 1, n);
    var l, r := Window(b[f := x], f, m + 1), [x] + Window(b, first, m);
    forall v | 0 <= v < m + 1
      ensures l[v] == r[v]
    {
      if v > 0 {
        assert Pos(f, v, n) == Pos(first, v - 1, n);
        PosInjective(first, n - 1, v - 1, n);
      }
    }
  }

  /** The window of `m + 1` slots agrees with the window of `m` slots on
      their common part. */
  lemma WindowPrefix(b: seq<Item>, first: int, m: int)
    requires 0 <= first < |b| && 0 <= m < |b|
    ensures Window(b, first, m + 1)[..m] == Window(b, first, m)
  {
  }

  /** Stepping a buffer index back one cell, `(k - 1 + n) % n`, moves one
      window slot back; `(k + n) % n` is `k` itself. */
  lemma PosBack(first: int, t: int, n: int)
    requires 0 <= first < n && 1 <= t < n
    ensures Wrap(Pos(first, t, n) - 1 + n, n) == Pos(first, t - 1, n)
    ensures Wrap(Pos(first, t, n) + n, n) == Pos(first, t, n)
  {
  }

  /** The state of the scan in `OpenGap`: the gap is at slot `t`, buffer
      cell `k`, and every element between the gap and the end is above `x`. */
  ghost predicate GapState(b: seq<Item>, first: int, m: int, x: Item, b': seq<Item>, k: int, t: int) {
    0 <= first < |b| && 1 <= m < |b| && |b'| == |b| && 1 <= t <= m && k == Pos(first, t, |b|) &&
    Shifted(Window(b, first, m) + [x], Window(b', first, m + 1), t, m) &&
    forall p :: t <= p < m ==> x.key < Window(b, first, m)[p].key
  }

  /** The element before the gap is the window's element before slot `t`. */
  lemma GapLeft(b: seq<Item>, first: int, m: int, x: Item, b': seq<Item>, k: int, t: int)
    requires GapState(b, first, m, x, b', k, t)
    ensures Wrap(k - 1 + |b|, |b|) == Pos(first, t - 1, |b|)
    ensures b'[Wrap(k - 1 + |b|, |b|)] == Window(b, first, m)[t - 1]
  {
    var n := |b|;
    PosBack(first, t, n);
    assert Window(b', first, m + 1)[t - 1] == (Window(b, first, m) + [x])[t - 1];
  }

  /** One shift of the scan: the element before the gap moves into it. */
  lemma GapStep(b: seq<Item>, first: int, m: int, x: Item, b': seq<Item>, k: int, t: int)
    requires GapState(b, first, m, x, b', k, t)
    requires Sorted(Window(b, first, m)) && b[first].key <= x.key
    requires Less(x, b'[Wrap(k - 1 + |b|, |b|)])
    ensures t > 1
    ensures GapState(b, first, m, x, b'[Wrap(k + |b|, |b|) := b'[Wrap(k - 1 + |b|, |b|)]],
                     Wrap(k - 1 + |b|, |b|), t - 1)
  {
    var n := |b|;
    var w, v := Window(b, first, m) + [x], Window(b', first, m + 1);
    GapLeft(b, first, m, x, b', k, t);
    PosBack(first, t, n);
    if t == 1 {
      assert false;
    }
    assert v[t - 1] == w[t - 1];
    WindowUpdate(b', first, m + 1, t, v[t - 1]);
    ShiftStep(w, v, t, m);
  }

  /** The scan starts with the gap at the cell past the window's end. */
  lemma GapStart(b: seq<Item>, first: int, m: int, x: Item)
    requires 0 <= first < |b| && 1 <= m < |b|
    ensures GapState(b, first, m, x, b, Wrap(Pos(first, m - 1, |b|) + 1 + |b|, |b|), m)
  {
    var n := |b|;
    WindowPrefix(b, first, m);
    var w, v := Window(b, first, m) + [x], Window(b, first, m + 1);
    assert Shifted(w, v, m, m) by {
      forall p {:trigger v[p]} | 0 <= p < |w| && p != m
        ensures v[p] == w[p]
      {
        assert v[p] == v[..m][p];
      }
    }
  }

  /** The scan stops at the insertion point of `x`. */
  lemma GapEnd(b: seq<Item>, first: int, m: int, x: Item, b': seq<Item>, k: int, t: int)
    requires GapState(b, first, m, x, b', k, t)
    requires Sorted(Window(b, first, m)) && !Less(x, b'[Wrap(k - 1 + |b|, |b|)])
    ensures InsertionPoint(Window(b, first, m) + [x], 0, m, t)
  {
    var w := Window(b, first, m) + [x];
    GapLeft(b, first, m, x, b', k, t);
    assert w[t - 1].key <= x.key;
    assert SortedRange(w, 0, t - 1) by {
      forall p, q | 0 <= p < q <= t - 1
        ensures w[p].key <= w[q].key
      {
        assert w[p] == Window(b, first, m)[p] && w[q] == Window(b, first, m)[q];
      }
    }
    SortedBelow(w, 0, t, x);
  }

  /** The loop of the scan: shifts while the element before the gap is
      above `x`. */
  method ShiftWhileAbove(b: seq<Item>, first: int, m: int, x: Item, b0: seq<Item>, k0: int, ghost t0: int)
      returns (b': seq<Item>, k: int, ghost t: int)
    requires GapState(b, first, m, x, b0, k0, t0)
    requires Sorted(Window(b, first, m)) && b[first].key <= x.key
    ensures GapState(b, first, m, x, b', k, t)
    ensures !Less(x, b'[Wrap(k - 1 + |b|, |b|)])
  {
    var n := |b|;
    b', k, t := b0, k0, t0;
    while Less(x, b'[Wrap((k - 1) + n, n)])
      invariant GapState(b, first, m, x, b', k, t)
      decreases t
    {
      GapStep(b, first, m, x, b', k, t);
      b' := b'[Wrap(k + n, n) := b'[Wrap((k - 1) + n, n)]];
      k := Wrap((k - 1) + n, n);
      t := t - 1;
    }
  }

  /** The scan of the middle case of `twoPathInsertSort`: starting from the
      cell past the window's end, shift window elements greater than `x` up
      one cell. The window's first element is not above `x`, so the scan stops
      before leaving the window; it ends with a gap at slot `t`. */
  method OpenGap(b: seq<Item>, first: int, m: int, x: Item)
      returns (b': seq<Item>, k: int, ghost t: int)
    requires 0 <= first < |b| && 1 <= m < |b|
    requires Sorted(Window(b, first, m)) && b[first].key <= x.key
    ensures |b'| == |b| && 1 <= t <= m && k == Pos(first, t, |b|)
    ensures Shifted(Window(b, first, m) + [x], Window(b', first, m + 1), t, m)
    ensures InsertionPoint(Window(b, first, m) + [x], 0, m, t)
  {
    var n := |b|;
    var tail := Pos(first, m - 1, n);
    GapStart(b, first, m, x);
    b', k, t := ShiftWhileAbove(b, first, m, x, b, Wrap(tail + 1 + n, n), m);
    GapEnd(b, first, m, x, b', k, t);
  }

  /** The middle case of `twoPathInsertSort`: open the gap, then write `x`
      into it. */
  method InsertIntoWindow(b: seq<Item>, first: int, m: int, x: Item) returns (b': seq<Item>, ghost j: int)
    requires 0 <= first < |b| && 1 <= m < |b|
    requires Sorted(Window(b, first, m)) && b[first].key <= x.key
    ensures |b'| == |b|
    ensures InsertionPoint(Window(b, first, m) + [x], 0, m, j)
    ensures Window(b', first, m + 1) == InsertAt(Window(b, first, m) + [x], m, j)
  {
    var n := |b|;
    var k;
    b', k, j := OpenGap(b, first, m, x);
    WindowUpdate(b', first, m + 1, j, x);
    ShiftedFill(Window(b, first, m) + [x], Window(b', first, m + 1), j, m);
    b' := b'[Wrap(k + n, n) := x];
  }

  /** What each of the three placements leaves: a sorted window holding the
      old one plus `x`, with every key's run as if `x` had been appended. */
  ghost predicate PlacedWell(w: seq<Item>, x: Item, v: seq<Item>) {
    Sorted(v) && multiset(v) == multiset(w + [x]) &&
    forall k :: KeyRun(v, k) == KeyRun(w + [x], k)
  }

  lemma PrependPlaced(w: seq<Item>, x: Item)
    requires Sorted(w) && |w| > 0 && x.key < w[0].key
    ensures PlacedWell(w, x, [x] + w)
  {
    PrependSorted(w, x);
    assert forall p :: 0 <= p < |w| ==> x.key < w[p].key;
    forall k
      ensures KeyRun([x] + w, k) == KeyRun(w + [x], k)
    {
      RunAfterGreater([], w, x, k);
      assert [] + w + [x] == w + [x] && [] + [x] + w == [x] + w;
    }
  }

  lemma AppendPlaced(w: seq<Item>, x: Item)
    requires Sorted(w) && |w| > 0 && w[|w| - 1].key < x.key
    ensures PlacedWell(w, x, w + [x])
  {
    AppendSorted(w, x);
  }

  lemma InsertPlaced(w: seq<Item>, x: Item, j: int)
    requires Sorted(w) && InsertionPoint(w + [x], 0, |w|, j)
    ensures PlacedWell(w, x, InsertAt(w + [x], |w|, j))
  {
    var m := |w|;
    var v := InsertAt(w + [x], m, j);
    assert SortedRange(w + [x], 0, m - 1);
    InsertAtSorts(w + [x], 0, m, j);
    SortedRangeSlice(v, 0, m);
    assert v[0..m + 1] == v && (w + [x])[0..m + 1] == w + [x];
    forall k
      ensures KeyRun(v, k) == KeyRun(w + [x], k)
    {
      assert SameRun(w + [x], v, 0, m, k);
    }
  }

  /** The first case of `twoPathInsertSort`: `x` is below the window's
      first element, so the window start moves back one cell and takes it. */
  method PlaceBelow(b: seq<Item>, first: int, tail: int, m: int, x: Item)
      returns (b': seq<Item>, first': int)
    requires 0 <= first < |b| && 1 <= m < |b| && tail == Pos(first, m - 1, |b|)
    requires Sorted(Window(b, first, m)) && x.key < b[first].key
    ensures |b'| == |b| && 0 <= first' < |b| && tail == Pos(first', m, |b|)
    ensures PlacedWell(Window(b, first, m), x, Window(b', first', m + 1))
  {
    var n := |b|;
    WindowPrepend(b, first, m, x);
    first' := Wrap(first - 1 + n, n);
    b' := b[first' := x];
    PrependPlaced(Window(b, first, m), x);
  }

  /** The second case: `x` is above the window's last element, so the window
      end moves on one cell and takes it. */
  method PlaceAbove(b: seq<Item>, first: int, tail: int, m: int, x: Item)
      returns (b': seq<Item>, tail': int)
    requires 0 <= first < |b| && 1 <= m < |b| && tail == Pos(first, m - 1, |b|)
    requires Sorted(Window(b, first, m)) && b[tail].key < x.key
    ensures |b'| == |b| && tail' == Pos(first, m, |b|)
    ensures PlacedWell(Window(b, first, m), x, Window(b', first, m + 1))
  {
    var n := |b|;
    WindowAppend(b, first, m, x);
    tail' := Wrap(tail + 1 + n, n);
    b' := b[tail' := x];
    AppendPlaced(Window(b, first, m), x);
  }

  /** The third case: `x` lies within the window's range, so it is inserted
      by shifting and the window end moves on one cell. */
  method PlaceWithin(b: seq<Item>, first: int, tail: int, m: int, x: Item)
      returns (b': seq<Item>, tail': int)
    requires 0 <= first < |b| && 1 <= m < |b| && tail == Pos(first, m - 1, |b|)
    requires Sorted(Window(b, first, m)) && b[first].key <= x.key
    ensures |b'| == |b| && tail' == Pos(first, m, |b|)
    ensures PlacedWell(Window(b, first, m), x, Window(b', first, m + 1))
  {
    var n := |b|;
    ghost var j;
    b', j := InsertIntoWindow(b, first, m, x);
    tail' := Wrap(tail + 1 + n, n);
    InsertPlaced(Window(b, first, m), x, j);
  }

  /** One outer step of `twoPathInsertSort`: place `x` below the window, above
      it, or inside it. The window grows by one cell, stays sorted, gains
      exactly `x`, and keeps every key's run as appending `x` would. */
  method PlaceNext(b: seq<Item>, first: int, tail: int, m: int, x: Item)
      returns (b': seq<Item>, first': int, tail': int)
    requires 0 <= first < |b| && 1 <= m < |b| && tail == Pos(first, m - 1, |b|)
    requires Sorted(Window(b, first, m))
    ensures |b'| == |b| && 0 <= first' < |b| && tail' == Pos(first', m, |b|)
    ensures PlacedWell(Window(b, first, m), x, Window(b', first', m + 1))
  {
    assert b[first] == Window(b, first, m)[0];
    assert b[tail] == Window(b, first, m)[m - 1];
    if Less(x, b[first]) {
      b', first' := PlaceBelow(b, first, tail, m, x);
      tail' := tail;
    } else if Less(b[tail], x) {
      b', tail' := PlaceAbove(b, first, tail, m, x);
      first' := first;
    } else {
      b', tail' := PlaceWithin(b, first, tail, m, x);
      first' := first;
    }
  }

  /** `w` is a sorted, stable rearrangement of `s`: same elements, and
      every key's elements in the same order. */
  ghost predicate SortedStably(s: seq<Item>, w: seq<Item>) {
    Sorted(w) && multiset(w) == multiset(s) && forall k :: KeyRun(w, k) == KeyRun(s, k)
  }

  /** Placing the next input element keeps the window a sorted, stable
      rearrangement of the input read so far. */
  lemma PlacedGrows(s: seq<Item>, w: seq<Item>, x: Item, v: seq<Item>)
    requires SortedStably(s, w) && PlacedWell(w, x, v)
    ensures SortedStably(s + [x], v)
  {
    forall k
      ensures KeyRun(v, k) == KeyRun(s + [x], k)
    {
      KeyRunConcat(s, [x], k);
      KeyRunConcat(w, [x], k);
    }
  }

  /** The first loop of `twoPathInsertSort`: `b[0] = a[0]`, then every next
      element is placed into the window. */
  method FillBuffer(a: seq<Item>) returns (b: seq<Item>, first: int)
    requires |a| >= 1
    ensures |b| == |a| && 0 <= first < |a|
    ensures SortedStably(a, Window(b, first, |a|))
  {
    var n := |a|;
    b := seq(n, _ => a[0]);
    first := 0;
    var tail := 0;
    assert Window(b, first, 1) == a[..1];
    var i := 1;
    while i < n
      invariant 1 <= i <= n && |b| == n && 0 <= first < n
      invariant tail == Pos(first, i - 1, n)
      invariant SortedStably(a[..i], Window(b, first, i))
    {
      ghost var w := Window(b, first, i);
      assert a[..i + 1] == a[..i] + [a[i]];
      b, first, tail := PlaceNext(b, first, tail, i, a[i]);
      PlacedGrows(a[..i], w, a[i], Window(b, first, i + 1));
      i := i + 1;
    }
    assert a[..n] == a;
  }

  /** The copy-back loop `a[k] = b[(first + k) % n]`. */
  method CopyBack(a: seq<Item>, b: seq<Item>, first: int) returns (r: seq<Item>)
    requires |b| == |a| && 0 <= first < |a|
    ensures r == Window(b, first, |a|)
  {
    var n := |a|;
    ghost var w := Window(b, first, n);
    r := a;
    var k := 0;
    while k < n
      invariant 0 <= k <= n && |r| == n
      invariant forall p :: 0 <= p < k ==> r[p] == w[p]
    {
      r := r[k := b[Wrap(first + k, n)]];
      k := k + 1;
    }
  }

  /** `twoPathInsertSort(a)`: elements go into a circular buffer `b` whose
      window `b[first..tail]` is kept sorted; a new element below the window
      extends it at the front, one above it extends it at the back, anything
      else is inserted by shifting towards the back. The window is copied
      back to `a` at the end. `twoPathInsertSort` reads `a[0]`
      unconditionally, so the array must not be empty. */
  method TwoPathInsertSort(a: seq<Item>) returns (r: seq<Item>)
    requires |a| >= 1
    ensures Sorted(r) && multiset(r) == multiset(a)
    ensures StableRange(a, r, 0, |a| - 1)
  {
    var b, first := FillBuffer(a);
    r := CopyBack(a, b, first);
    var n := |a|;
    assert r[0..n] == r && a[0..n] == a;
    var hi := n - 1;
    forall k
      ensures SameRun(a, r, 0, hi, k)
    {
      assert KeyRun(r, k) == KeyRun(a, k);
    }
  }

  lemma PrependSorted(w: seq<Item>, x: Item)
    requires Sorted(w) && |w| > 0 && x.key < w[0].key
    ensures Sorted([x] + w)
  {
    var s := [x] + w;
    forall p, q | 0 <= p < q < |s|
      ensures s[p].key <= s[q].key
    {
      if p == 0 {
        assert s[q] == w[q - 1];
      } else {
        assert s[p] == w[p - 1] && s[q] == w[q - 1];
      }
    }
  }

  lemma AppendSorted(w: seq<Item>, x: Item)
    requires Sorted(w) && |w| > 0 && w[|w| - 1].key < x.key
    ensures Sorted(w + [x])
  {
    var s := w + [x];
    forall p, q | 0 <= p < q < |s|
      ensures s[p].key <= s[q].key
    {
      if q == |w| {
        assert s[p] == w[p];
      } else {
        assert s[p] == w[p] && s[q] == w[q];
      }
    }
  }

  // ---------------------------------------------------------------------
  // Shell sort

  /** `shellSort(a)`: delegates to Shell sort. That reads the public, mutable
      field `ShellSort.step` when it is called, so `step` is the field's value
      at that moment (`Shell.DefaultStep` unless some caller changed it). */
  method ShellSort(a: seq<Item>, step: int) returns (r: seq<Item>)
    requires step >= 2 || step < 0
    ensures Sorted(r) && multiset(r) == multiset(a)
  {
    r := Shell.Sort(a, step);
  }
}

=== FILE: kmp.dfy ===
/** Knuth-Morris-Pratt substring search driven by a deterministic finite
    automaton over a 256-letter alphabet. Strings are sequences of UTF-16
    code units; the automaton's table has a row per code unit below 256, so
    every code unit of the pattern and of the text must be below 256.

    State `j` of the automaton means that the last `j` characters read are
    the first `j` characters of the pattern. The reference definition of the
    automaton is `Overlap`: after reading `u` it is in the state given by the
    longest prefix of the pattern that is a suffix of `u`. */
module KMP {
  import opened Text

  /** The alphabet size `R`. */
  const R: int := 256

  // ---------------------------------------------------------------------
  // The reference automaton

  /** `w` is a suffix of `u`, compared from the back one character at a
      time. */
  ghost predicate EndsWith(u: seq<int>, w: seq<int>)
    decreases |w|
  {
    |w| <= |u| && (|w| == 0 || (u[|u| - 1] == w[|w| - 1] && EndsWith(u[..|u| - 1], w[..|w| - 1])))
  }

  lemma {:induction false} EndsWithIff(u: seq<int>, w: seq<int>)
    ensures EndsWith(u, w) <==> |w| <= |u| && u[|u| - |w|..] == w
    decreases |w|
  {
    if 0 < |w| <= |u| {
      var u', w' := u[..|u| - 1], w[..|w| - 1];
      EndsWithIff(u', w');
      assert u[|u| - |w|..] == u'[|u'| - |w'|..] + [u[|u| - 1]];
      assert w == w' + [w[|w| - 1]];
    }
  }

  /** `pat[..k]` is a suffix of `u`. */
  ghost predicate Border(pat: seq<int>, u: seq<int>, k: int) {
    0 <= k <= |pat| && EndsWith(u, pat[..k])
  }

  lemma BorderIff(pat: seq<int>, u: seq<int>, k: int)
    requires 0 <= k <= |pat|
    ensures Border(pat, u, k) <==> k <= |u| && u[|u| - k..] == pat[..k]
  {
    EndsWithIff(u, pat[..k]);
  }

  /** The longest `k <= bound` such that `pat[..k]` is a suffix of `u`
      (maximality is `LongestMax`). */
  ghost function LongestBorder(pat: seq<int>, u: seq<int>, bound: int): (k: int)
    requires 0 <= bound <= |pat| && bound <= |u|
    ensures 0 <= k <= bound && Border(pat, u, k)
    decreases bound
  {
    if bound == 0 || Border(pat, u, bound) then bound
    else LongestBorder(pat, u, bound - 1)
  }

  lemma {:induction false} LongestMax(pat: seq<int>, u: seq<int>, bound: int, k: int)
    requires 0 <= bound <= |pat| && bound <= |u|
    requires k <= bound && Border(pat, u, k)
    ensures k <= LongestBorder(pat, u, bound)
    decreases bound
  {
    if !(bound == 0 || Border(pat, u, bound)) {
      LongestMax(pat, u, bound - 1, k);
    }
  }

  /** The state after reading `u`: the length of the longest prefix of
      `pat` that is a suffix of `u` (maximality is `OverlapMax`). */
  ghost function Overlap(pat: seq<int>, u: seq<int>): (k: int)
    ensures 0 <= k <= |pat| && k <= |u| && Border(pat, u, k)
  {
    LongestBorder(pat, u, if |pat| <= |u| then |pat| else |u|)
  }

  /** No prefix of `pat` longer than `Overlap(pat, u)` is a suffix of `u`. */
  lemma OverlapMax(pat: seq<int>, u: seq<int>, k: int)
    requires Border(pat, u, k)
    ensures k <= Overlap(pat, u)
  {
    LongestMax(pat, u, if |pat| <= |u| then |pat| else |u|, k);
  }

  /** The transition from state `j` on character `c`. */
  ghost function Delta(pat: seq<int>, j: int, c: int): int
    requires 0 <= j < |pat|
  {
    Overlap(pat, pat[..j] + [c])
  }

  /** A border of `w + [c]` is a shorter border of `w` followed by `c`. */
  lemma BorderShrink(pat: seq<int>, w: seq<int>, c: int, k: int)
    requires Border(pat, w + [c], k) && k > 0
    ensures pat[k - 1] == c && Border(pat, w, k - 1)
  {
    assert (w + [c])[..|w|] == w;
    assert pat[..k][..k - 1] == pat[..k - 1];
  }

  /** A border of `w` followed by the pattern's next character is a border
      of `w + [c]`. */
  lemma BorderGrow(pat: seq<int>, w: seq<int>, c: int, k: int)
    requires Border(pat, w, k) && k < |pat| && pat[k] == c
    ensures Border(pat, w + [c], k + 1)
  {
    assert (w + [c])[..|w|] == w;
    assert pat[..k + 1][..k] == pat[..k];
  }

  /** A border of a border is a border. */
  lemma BorderTrans(pat: seq<int>, t: seq<int>, s: int, b: int)
    requires Border(pat, t, s) && Border(pat, pat[..s], b)
    ensures Border(pat, t, b)
  {
    BorderIff(pat, t, s);
    BorderIff(pat, pat[..s], b);
    BorderIff(pat, t, b);
    assert t[|t| - b..] == t[|t| - s..][s - b..];
  }

  /** Two prefixes of `pat` that are both suffixes of `t`: the shorter is a
      suffix of the longer. */
  lemma NestedBorders(pat: seq<int>, t: seq<int>, a: int, b: int)
    requires Border(pat, t, a) && Border(pat, t, b) && a <= b
    ensures Border(pat, pat[..b], a)
  {
    BorderIff(pat, t, a);
    BorderIff(pat, t, b);
    BorderIff(pat, pat[..b], a);
    assert t[|t| - a..] == t[|t| - b..][b - a..];
  }

  /** The longest border after reading `c` extends a border of `t`, hence
      one no longer than the longest. */
  lemma StepIntoState(pat: seq<int>, t: seq<int>, c: int)
    ensures Border(pat, pat[..Overlap(pat, t)] + [c], Overlap(pat, t + [c]))
  {
    var s, k := Overlap(pat, t), Overlap(pat, t + [c]);
    if k > 0 {
      BorderShrink(pat, t, c, k);
      OverlapMax(pat, t, k - 1);
      NestedBorders(pat, t, k - 1, s);
      BorderGrow(pat, pat[..s], c, k - 1);
    } else {
      assert Border(pat, pat[..s] + [c], 0);
    }
  }

  /** Every border of the state's string followed by `c` is a border of
      `t` followed by `c`. */
  lemma StateIntoStep(pat: seq<int>, t: seq<int>, c: int)
    ensures Border(pat, t + [c], Overlap(pat, pat[..Overlap(pat, t)] + [c]))
  {
    var s := Overlap(pat, t);
    var k := Overlap(pat, pat[..s] + [c]);
    if k > 0 {
      BorderShrink(pat, pat[..s], c, k);
      BorderTrans(pat, t, s, k - 1);
      BorderGrow(pat, t, c, k - 1);
    } else {
      assert Border(pat, t + [c], 0);
    }
  }

  /** The automaton's key property: the state after one more character
      depends only on the current state. */
  lemma OverlapStep(pat: seq<int>, t: seq<int>, c: int)
    requires Overlap(pat, t) < |pat|
    ensures Overlap(pat, t + [c]) == Delta(pat, Overlap(pat, t), c)
  {
    var s := Overlap(pat, t);
    StepIntoState(pat, t, c);
    StateIntoStep(pat, t, c);
    OverlapMax(pat, pat[..s] + [c], Overlap(pat, t + [c]));
    OverlapMax(pat, t + [c], Overlap(pat, pat[..s] + [c]));
  }

  /** Dropping the first character loses nothing when the whole string is
      not a border. */
  lemma DropFirst(pat: seq<int>, u: seq<int>)
    requires |u| >= 1 && !Border(pat, u, |u|)
    ensures Overlap(pat, u) == Overlap(pat, u[1..])
  {
    var k, k' := Overlap(pat, u), Overlap(pat, u[1..]);
    assert k < |u|;
    BorderIff(pat, u, k);
    BorderIff(pat, u[1..], k);
    assert u[1..][|u| - 1 - k..] == u[|u| - k..];
    OverlapMax(pat, u[1..], k);
    BorderIff(pat, u, k');
    BorderIff(pat, u[1..], k');
    assert u[1..][|u| - 1 - k'..] == u[|u| - k'..];
    OverlapMax(pat, u, k');
  }

  // ---------------------------------------------------------------------
  // Columns of the table

  /** Column 0: only the pattern's first character leads anywhere. */
  lemma FirstColumn(pat: seq<int>, c: int)
    requires |pat| >= 1
    ensures Delta(pat, 0, c) == if c == pat[0] then 1 else 0
  {
    if c == pat[0] {
      MatchColumn(pat, 0);
    }
  }

  /** A match moves on to the next state. */
  lemma MatchColumn(pat: seq<int>, j: int)
    requires 0 <= j < |pat|
    ensures Delta(pat, j, pat[j]) == j + 1
  {
    var u := pat[..j] + [pat[j]];
    assert u == pat[..j + 1];
    BorderIff(pat, u, j + 1);
    OverlapMax(pat, u, j + 1);
  }

  /** A mismatch at `j` means the whole string read is not a border. */
  lemma MismatchNotWhole(pat: seq<int>, j: int, c: int)
    requires 0 <= j < |pat| && c != pat[j]
    ensures !Border(pat, pat[..j] + [c], j + 1)
  {
    if Border(pat, pat[..j] + [c], j + 1) {
      BorderShrink(pat, pat[..j], c, j + 1);
    }
  }

  lemma SnocTail(pat: seq<int>, j: int, c: int)
    requires 1 <= j <= |pat|
    ensures (pat[..j] + [c])[1..] == pat[1..j] + [c]
  {
  }

  /** A mismatch in state `j` goes where the restart state `x`, the state
      after reading `pat[1..j]`, goes. */
  lemma MismatchColumn(pat: seq<int>, j: int, x: int, c: int)
    requires 1 <= j < |pat| && x == Overlap(pat, pat[1..j]) && c != pat[j]
    ensures x < j && Delta(pat, j, c) == Delta(pat, x, c)
  {
    MismatchNotWhole(pat, j, c);
    DropFirst(pat, pat[..j] + [c]);
    SnocTail(pat, j, c);
    OverlapStep(pat, pat[1..j], c);
  }

  /** The restart state follows the pattern one step behind the scan. */
  lemma RestartStep(pat: seq<int>, j: int, x: int)
    requires 1 <= j < |pat| && x == Overlap(pat, pat[1..j])
    ensures x < j && Delta(pat, x, pat[j]) == Overlap(pat, pat[1..j + 1])
  {
    assert pat[1..j + 1] == pat[1..j] + [pat[j]];
    OverlapStep(pat, pat[1..j], pat[j]);
  }

  // ---------------------------------------------------------------------
  // Construction

  /** `dfa` has `R` rows of `m` entries. */
  ghost predicate Shape(dfa: seq<seq<int>>, m: int) {
    |dfa| == R && forall c :: 0 <= c < R ==> |dfa[c]| == m
  }

  /** Columns `0..j-1` of `dfa` are the reference transitions. */
  ghost predicate ColumnsDone(pat: seq<int>, dfa: seq<seq<int>>, j: int)
    requires Shape(dfa, |pat|) && j <= |pat|
  {
    forall c, k :: 0 <= c < R && 0 <= k < j ==> dfa[c][k] == Delta(pat, k, c)
  }

  /** The copy loop: column `j` becomes a copy of column `x`. */
  method CopyColumn(dfa: seq<seq<int>>, m: int, j: int, x: int) returns (d: seq<seq<int>>)
    requires Shape(dfa, m) && 0 <= j < m && 0 <= x < m
    ensures Shape(d, m)
    ensures forall c, k :: 0 <= c < R && 0 <= k < m && k != j ==> d[c][k] == dfa[c][k]
    ensures forall c :: 0 <= c < R ==> d[c][j] == dfa[c][x]
  {
    d := dfa;
    var c := 0;
    while c < R
      invariant 0 <= c <= R && Shape(d, m)
      invariant forall c', k :: 0 <= c' < R && 0 <= k < m && (k != j || c <= c') ==> d[c'][k] == dfa[c'][k]
      invariant forall c' :: 0 <= c' < c ==> d[c'][j] == dfa[c'][x]
    {
      d := d[c := d[c][j := d[c][x]]];
      c := c + 1;
    }
  }

  /** The matcher: the pattern and its automaton. */
  datatype Matcher = Matcher(pat: seq<int>, dfa: seq<seq<int>>)

  /** The automaton is the reference automaton of the pattern. */
  ghost predicate Valid(m: Matcher) {
    |m.pat| >= 1 && InAlphabet(m.pat, R) && Shape(m.dfa, |m.pat|) && ColumnsDone(m.pat, m.dfa, |m.pat|)
  }

  /** One round of the constructor: column `j` and the next restart state. */
  method BuildColumn(pat: seq<int>, dfa: seq<seq<int>>, j: int, x: int) returns (d: seq<seq<int>>, x': int)
    requires 1 <= j < |pat| && InAlphabet(pat, R) && Shape(dfa, |pat|) && ColumnsDone(pat, dfa, j)
    requires x == Overlap(pat, pat[1..j])
    ensures Shape(d, |pat|) && ColumnsDone(pat, d, j + 1)
    ensures x' == Overlap(pat, pat[1..j + 1])
  {
    RestartStep(pat, j, x);
    d := CopyColumn(dfa, |pat|, j, x);
    d := d[pat[j] := d[pat[j]][j := j + 1]];
    forall c, k | 0 <= c < R && 0 <= k < j + 1
      ensures d[c][k] == Delta(pat, k, c)
    {
      if k == j {
        if c == pat[j] {
          MatchColumn(pat, j);
        } else {
          MismatchColumn(pat, j, x, c);
        }
      }
    }
    x' := d[pat[j]][x];
  }

  /** The table before the main loop: all zero except `dfa[pat[0]][0] = 1`,
      which is column 0 of the reference automaton. */
  method FirstTable(pat: seq<int>) returns (dfa: seq<seq<int>>)
    requires |pat| >= 1 && InAlphabet(pat, R)
    ensures Shape(dfa, |pat|) && ColumnsDone(pat, dfa, 1)
  {
    var zero := seq(|pat|, _ => 0);
    dfa := seq(R, _ => zero);
    assert forall c :: 0 <= c < R ==> dfa[c] == zero;
    dfa := dfa[pat[0] := zero[0 := 1]];
    forall c, k | 0 <= c < R && 0 <= k < 1
      ensures dfa[c][k] == Delta(pat, k, c)
    {
      FirstColumn(pat, c);
      if c != pat[0] {
        assert dfa[c] == zero;
      }
    }
  }

  /** The constructor `KMP(pat)`: builds the automaton column by column,
      keeping the restart state `x`, which stays behind the column being
      built. */
  method New(pat: seq<int>) returns (m: Matcher)
    requires |pat| >= 1 && InAlphabet(pat, R)
    ensures m.pat == pat && Valid(m)
    ensures forall c, j :: 0 <= c < R && 0 <= j < |pat| ==> 0 <= m.dfa[c][j] <= j + 1
  {
    var dfa := FirstTable(pat);
    var x, j := 0, 1;
    assert pat[1..1] == [];
    while j < |pat|
      invariant 1 <= j <= |pat| && Shape(dfa, |pat|) && ColumnsDone(pat, dfa, j)
      invariant x == Overlap(pat, pat[1..j])
    {
      dfa, x := BuildColumn(pat, dfa, j, x);
      j := j + 1;
    }
    m := Matcher(pat, dfa);
  }

  /** On the pattern itself the automaton advances one state per
      character. */
  lemma ValidMatches(m: Matcher, j: int)
    requires Valid(m) && 0 <= j < |m.pat|
    ensures m.dfa[m.pat[j]][j] == j + 1
  {
    MatchColumn(m.pat, j);
  }

  // ---------------------------------------------------------------------
  // Search

  /** A match ending at `i` puts the automaton in its final state. */
  lemma MatchEndsInFinal(pat: seq<int>, txt: seq<int>, i: int)
    requires |pat| <= i <= |txt| && MatchAt(pat, txt, i - |pat|)
    ensures Overlap(pat, txt[..i]) == |pat|
  {
    assert txt[..i][i - |pat|..] == txt[i - |pat|..i];
    BorderIff(pat, txt[..i], |pat|);
    OverlapMax(pat, txt[..i], |pat|);
  }

  /** The final state after reading `txt[..i]` means a match ends at `i`. */
  lemma FinalIsMatch(pat: seq<int>, txt: seq<int>, i: int)
    requires 0 <= i <= |txt| && Overlap(pat, txt[..i]) == |pat|
    ensures MatchAt(pat, txt, i - |pat|)
  {
    BorderIff(pat, txt[..i], |pat|);
    assert txt[..i][i - |pat|..] == txt[i - |pat|..i];
  }

  /** No occurrence of `pat` ends before `e`. */
  ghost predicate NoneEndsBefore(pat: seq<int>, txt: seq<int>, e: int) {
    forall p :: 0 <= p && p + |pat| < e ==> !MatchAt(pat, txt, p)
  }

  /** One step of the scan, short of the final state: the automaton's
      transition agrees with the reference state, and no match ends at
      `i`. */
  lemma ScanStep(m: Matcher, txt: seq<int>, i: int, j: int)
    requires Valid(m) && InAlphabet(txt, R) && 0 <= i < |txt|
    requires j == Overlap(m.pat, txt[..i]) && j < |m.pat|
    requires NoneEndsBefore(m.pat, txt, i)
    ensures m.dfa[txt[i]][j] == Overlap(m.pat, txt[..i + 1])
    ensures NoneEndsBefore(m.pat, txt, i + 1)
  {
    if MatchAt(m.pat, txt, i - |m.pat|) {
      MatchEndsInFinal(m.pat, txt, i);
    }
    assert txt[..i + 1] == txt[..i] + [txt[i]];
    OverlapStep(m.pat, txt[..i], txt[i]);
  }

  /** `search(txt)`: the offset of the first occurrence of the pattern, or
      the text's length when there is none. */
  method Search(m: Matcher, txt: seq<int>) returns (r: int)
    requires Valid(m) && InAlphabet(txt, R)
    ensures 0 <= r <= |txt|
    ensures r < |txt| ==> MatchAt(m.pat, txt, r)
    ensures forall p :: 0 <= p < r ==> !MatchAt(m.pat, txt, p)
  {
    var i, j := 0, 0;
    assert txt[..0] == [];
    while i < |txt| && j < |m.pat|
      invariant 0 <= i <= |txt| && j == Overlap(m.pat, txt[..i])
      invariant NoneEndsBefore(m.pat, txt, i)
    {
      ScanStep(m, txt, i, j);
      j := m.dfa[txt[i]][j];
      i := i + 1;
    }
    if j == |m.pat| {
      FinalIsMatch(m.pat, txt, i);
      r := i - |m.pat|;
    } else {
      if MatchAt(m.pat, txt, i - |m.pat|) {
        MatchEndsInFinal(m.pat, txt, i);
      }
      r := |txt|;
    }
  }
}

=== FILE: merge_sort.dfy ===
/** Merge sort: top-down, bottom-up, and the optimised top-down version that
    cuts off to insertion sort on short ranges, skips the merge when the
    halves are already in order, and alternates the roles of the array and
    its buffer instead of copying into an auxiliary array. All merges here
    take the left element on ties, so every variant is stable. */
module MergeSort {
  import opened BaseSort
  import opened Merging
  import InsertionSort

  /** Ranges with `hi <= lo + Threshold` go to insertion sort. */
  const Threshold := 7

  /** `lo + (hi - lo) / 2`: for a range of at least two elements, a split
      point that leaves both halves non-empty and strictly smaller. */
  function Mid(lo: int, hi: int): (mid: int)
    requires lo < hi
    ensures lo <= mid < hi
  {
    lo + (hi - lo) / 2
  }

  /** A range that holds the merge of the two halves of another array's
      range is a permutation of that range. */
  lemma MergedRangePerm(a: seq<Item>, r: seq<Item>, lo: int, mid: int, hi: int)
    requires 0 <= lo <= mid + 1 <= hi + 1 <= |a| && |r| == |a|
    requires r[lo..hi + 1] == Merge(a[lo..mid + 1], a[mid + 1..hi + 1], LeftFirst)
    ensures PermRange(a, r, lo, hi)
  {
    var l, h := a[lo..mid + 1], a[mid + 1..hi + 1];
    MergePermutes(l, h, LeftFirst);
    PartsPermRange(a, r, lo, mid, hi, Merge(l, h, LeftFirst));
  }

  /** It is sorted when both halves were. */
  lemma MergedRangeSorted(a: seq<Item>, r: seq<Item>, lo: int, mid: int, hi: int)
    requires 0 <= lo <= mid + 1 <= hi + 1 <= |a| && |r| == |a|
    requires r[lo..hi + 1] == Merge(a[lo..mid + 1], a[mid + 1..hi + 1], LeftFirst)
    requires SortedRange(a, lo, mid) && SortedRange(a, mid + 1, hi)
    ensures SortedRange(r, lo, hi)
  {
    SortedRangeSlice(a, lo, mid);
    SortedRangeSlice(a, mid + 1, hi);
    MergeSorted(a[lo..mid + 1], a[mid + 1..hi + 1], LeftFirst);
    SortedRangeSlice(r, lo, hi);
  }

  /** It keeps equal keys in their original order when the left half was
      sorted. */
  lemma MergedRangeStable(a: seq<Item>, r: seq<Item>, lo: int, mid: int, hi: int)
    requires 0 <= lo <= mid + 1 <= hi + 1 <= |a| && |r| == |a|
    requires r[lo..hi + 1] == Merge(a[lo..mid + 1], a[mid + 1..hi + 1], LeftFirst)
    requires SortedRange(a, lo, mid)
    ensures StableRange(a, r, lo, hi)
  {
    var l, h := a[lo..mid + 1], a[mid + 1..hi + 1];
    assert a[lo..hi + 1] == l + h;
    SortedRangeSlice(a, lo, mid);
    forall k
      ensures SameRun(a, r, lo, hi, k)
    {
      MergeStable(l, h, k);
      KeyRunConcat(l, h, k);
    }
  }

  /** Moving the head of what is left to merge onto what is done keeps the
      whole merge. */
  lemma MoveHead(done: seq<Item>, rest: seq<Item>, x: Item, rest': seq<Item>, whole: seq<Item>)
    requires done + rest == whole && rest == [x] + rest'
    ensures (done + [x]) + rest' == whole
  {
    assert (done + [x]) + rest' == done + ([x] + rest');
  }

  /** Writing `x` just past a prefix extends the prefix by `x`. */
  lemma ExtendPrefix(r: seq<Item>, lo: int, k: int, x: Item)
    requires 0 <= lo <= k < |r|
    ensures r[k := x][lo..k + 1] == r[lo..k] + [x]
  {
  }

  /** One iteration of the merge loop: the element it writes next and the
      new positions in the two halves. An exhausted half makes the other one
      supply the element; otherwise the right element is taken only when it
      is strictly smaller. */
  function Take(src: seq<Item>, i: int, mid: int, j: int, hi: int): (t: (Item, int, int))
    requires 0 <= i <= mid + 1 <= j <= hi + 1 <= |src| && i + j < mid + 1 + hi + 1
    ensures (t.1, t.2) == (i + 1, j) || (t.1, t.2) == (i, j + 1)
    ensures t.1 == i + 1 ==> i <= mid && t.0 == src[i]
    ensures t.2 == j + 1 ==> j <= hi && t.0 == src[j]
  {
    if i > mid then (src[j], i, j + 1)
    else if j > hi then (src[i], i + 1, j)
    else if Less(src[j], src[i]) then (src[j], i, j + 1)
    else (src[i], i + 1, j)
  }

  /** The element `Take` picks is the head of the merge of what is left. */
  lemma TakeStep(src: seq<Item>, i: int, mid: int, j: int, hi: int, x: Item, i': int, j': int)
    requires 0 <= i <= mid + 1 <= j <= hi + 1 <= |src| && i + j < mid + 1 + hi + 1
    requires (x, i', j') == Take(src, i, mid, j, hi)
    ensures Merge(src[i..mid + 1], src[j..hi + 1], LeftFirst) == [x] + Merge(src[i'..mid + 1], src[j'..hi + 1], LeftFirst)
  {
    var l, h := src[i..mid + 1], src[j..hi + 1];
    var l', h' := src[i'..mid + 1], src[j'..hi + 1];
    if i > mid || (j <= hi && Less(src[j], src[i])) {
      assert x == src[j] && i' == i && j' == j + 1;
      assert l' == l && h' == h[1..] && h[0] == x;
      TakeRight(l, h, LeftFirst);
    } else {
      assert x == src[i] && i' == i + 1 && j' == j;
      assert l' == l[1..] && h' == h && l[0] == x;
      TakeLeft(l, h, LeftFirst);
    }
  }

  /** The merge loop's invariant: what is written to `r[lo..k-1]`, followed
      by the merge of what is left of the two halves, is the whole merge. */
  ghost predicate MergeProgress(src: seq<Item>, r: seq<Item>, lo: int, mid: int, hi: int, i: int, j: int, k: int, whole: seq<Item>)
  {
    0 <= lo <= i <= mid + 1 <= j <= hi + 1 <= |src| == |r| && k == i + j - mid - 1 &&
    r[lo..k] + Merge(src[i..mid + 1], src[j..hi + 1], LeftFirst) == whole
  }

  /** The whole loop state: `r` differs from `dst` only inside the range,
      and the merge is under way. */
  ghost predicate MergeState(src: seq<Item>, dst: seq<Item>, r: seq<Item>, lo: int, mid: int, hi: int, i: int, j: int, k: int, whole: seq<Item>)
  {
    SameOutside(dst, r, lo, hi) && MergeProgress(src, r, lo, mid, hi, i, j, k, whole)
  }

  /** The invariant survives one iteration. */
  lemma TakeKeepsMerge(src: seq<Item>, dst: seq<Item>, r: seq<Item>, lo: int, mid: int, hi: int, i: int, j: int, k: int, whole: seq<Item>)
    requires MergeState(src, dst, r, lo, mid, hi, i, j, k, whole) && k <= hi
    ensures var t := Take(src, i, mid, j, hi);
      MergeState(src, dst, r[k := t.0], lo, mid, hi, t.1, t.2, k + 1, whole)
  {
    var t := Take(src, i, mid, j, hi);
    var rest := Merge(src[i..mid + 1], src[j..hi + 1], LeftFirst);
    var rest' := Merge(src[t.1..mid + 1], src[t.2..hi + 1], LeftFirst);
    TakeStep(src, i, mid, j, hi, t.0, t.1, t.2);
    MoveHead(r[lo..k], rest, t.0, rest', whole);
    ExtendPrefix(r, lo, k, t.0);
  }

  /** When both halves are used up, what is written is the whole merge. */
  lemma MergeDone(src: seq<Item>, dst: seq<Item>, r: seq<Item>, lo: int, mid: int, hi: int, i: int, j: int, k: int, whole: seq<Item>)
    requires MergeState(src, dst, r, lo, mid, hi, i, j, k, whole) && hi < k
    ensures SameOutside(dst, r, lo, hi) && r[lo..hi + 1] == whole
  {
    assert src[i..mid + 1] == [] && src[j..hi + 1] == [];
    assert r[lo..hi + 1] + [] == r[lo..hi + 1];
  }

  /** Before the loop nothing is written and the whole merge is left. */
  lemma MergeStart(src: seq<Item>, dst: seq<Item>, lo: int, mid: int, hi: int)
    requires |src| == |dst| && 0 <= lo <= mid + 1 <= hi + 1 <= |src|
    ensures MergeState(src, dst, dst, lo, mid, hi, lo, mid + 1, lo,
                       Merge(src[lo..mid + 1], src[mid + 1..hi + 1], LeftFirst))
  {
    assert dst[lo..lo] == [];
  }

  /** The loop shared by both merges: `src[lo..mid]` and `src[mid+1..hi]`
      merged into `dst[lo..hi]`, left element first on ties. */
  method MergeLoop(src: seq<Item>, dst: seq<Item>, lo: int, mid: int, hi: int) returns (r: seq<Item>)
    requires |src| == |dst| && 0 <= lo <= mid + 1 <= hi + 1 <= |src|
    ensures SameOutside(dst, r, lo, hi)
    ensures r[lo..hi + 1] == Merge(src[lo..mid + 1], src[mid + 1..hi + 1], LeftFirst)
  {
    ghost var whole := Merge(src[lo..mid + 1], src[mid + 1..hi + 1], LeftFirst);
    MergeStart(src, dst, lo, mid, hi);
    var i, j, k;
    r, i, j, k := TakeAll(src, dst, dst, lo, mid, hi, lo, mid + 1, lo, whole);
    MergeDone(src, dst, r, lo, mid, hi, i, j, k, whole);
  }

  /** The iterations themselves: take the next element until the range is
      full. */
  method TakeAll(src: seq<Item>, dst: seq<Item>, r0: seq<Item>, lo: int, mid: int, hi: int, i0: int, j0: int, k0: int, ghost whole: seq<Item>)
    returns (r: seq<Item>, i: int, j: int, k: int)
    requires MergeState(src, dst, r0, lo, mid, hi, i0, j0, k0, whole)
    ensures MergeState(src, dst, r, lo, mid, hi, i, j, k, whole) && hi < k
  {
    r, i, j, k := r0, i0, j0, k0;
    while k <= hi
      invariant MergeState(src, dst, r, lo, mid, hi, i, j, k, whole)
      decreases hi - k
    {
      TakeKeepsMerge(src, dst, r, lo, mid, hi, i, j, k, whole);
      var t := Take(src, i, mid, j, hi);
      r := r[k := t.0];
      i, j, k := t.1, t.2, k + 1;
    }
  }

  // ---------------------------------------------------------------------
  // The two merges

  /** `merge(a, lo, mid, hi)`: `a[lo..hi]` is copied to the auxiliary array
      and merged back from there. Only `aux[lo..hi]` is read, so a copy of
      the whole array stands for it. */
  method MergeInPlace(a: seq<Item>, lo: int, mid: int, hi: int) returns (r: seq<Item>)
    requires 0 <= lo <= mid + 1 <= hi + 1 <= |a|
    ensures SameOutside(a, r, lo, hi) && PermRange(a, r, lo, hi)
    ensures r[lo..hi + 1] == Merge(a[lo..mid + 1], a[mid + 1..hi + 1], LeftFirst)
    ensures SortedRange(a, lo, mid) && SortedRange(a, mid + 1, hi) ==> SortedRange(r, lo, hi)
    ensures SortedRange(a, lo, mid) ==> StableRange(a, r, lo, hi)
  {
    var aux := a;
    r := MergeLoop(aux, a, lo, mid, hi);
    MergedRangePerm(a, r, lo, mid, hi);
    if SortedRange(a, lo, mid) && SortedRange(a, mid + 1, hi) {
      MergedRangeSorted(a, r, lo, mid, hi);
    }
    if SortedRange(a, lo, mid) {
      MergedRangeStable(a, r, lo, mid, hi);
    }
  }

  /** `merge(src, dst, lo, mid, hi)`: the halves of `src[lo..hi]` merged
      into `dst[lo..hi]`; the rest of `dst` is left alone. */
  method MergeInto(src: seq<Item>, dst: seq<Item>, lo: int, mid: int, hi: int) returns (r: seq<Item>)
    requires |src| == |dst| && 0 <= lo <= mid + 1 <= hi + 1 <= |src|
    ensures SameOutside(dst, r, lo, hi) && PermRange(src, r, lo, hi)
    ensures r[lo..hi + 1] == Merge(src[lo..mid + 1], src[mid + 1..hi + 1], LeftFirst)
    ensures SortedRange(src, lo, mid) && SortedRange(src, mid + 1, hi) ==> SortedRange(r, lo, hi)
    ensures SortedRange(src, lo, mid) ==> StableRange(src, r, lo, hi)
  {
    r := MergeLoop(src, dst, lo, mid, hi);
    MergedRangePerm(src, r, lo, mid, hi);
    if SortedRange(src, lo, mid) && SortedRange(src, mid + 1, hi) {
      MergedRangeSorted(src, r, lo, mid, hi);
    }
    if SortedRange(src, lo, mid) {
      MergedRangeStable(src, r, lo, mid, hi);
    }
  }

  // ---------------------------------------------------------------------
  // Top-down

  /** Sorting `[lo, hi]` sorts it stably and leaves the rest alone. */
  method SortTopDownRange(a: seq<Item>, lo: int, hi: int) returns (r: seq<Item>)
    requires ValidRange(a, lo, hi)
    ensures SortedRange(r, lo, hi)
    ensures SameOutside(a, r, lo, hi) && PermRange(a, r, lo, hi)
    ensures StableRange(a, r, lo, hi)
    decreases hi - lo
  {
    if hi <= lo {
      return a;
    }
    var mid := Mid(lo, hi);
    var r1 := SortTopDownRange(a, lo, mid);
    var r2 := SortTopDownRange(r1, mid + 1, hi);
    HalvesSorted(a, r1, r2, lo, mid, hi);
    r := MergeInPlace(r2, lo, mid, hi);
    StableTrans(a, r2, r, lo, hi);
  }

  method SortTopDown(a: seq<Item>) returns (r: seq<Item>)
    ensures Sorted(r) && multiset(r) == multiset(a)
    ensures StableRange(a, r, 0, |a| - 1)
  {
    r := SortTopDownRange(a, 0, |a| - 1);
    PermRangeWhole(a, r, 0, |a| - 1);
  }

  // ---------------------------------------------------------------------
  // Bottom-up

  /** Block `d` of width `w`, `[d*w, d*w + w - 1]` clipped to the array, is
      in order. */
  ghost predicate BlockSorted(r: seq<Item>, d: int, w: int) {
    SortedRange(r, d * w, d * w + w - 1)
  }

  /** Blocks before block `c` end before it starts. */
  lemma BlockBefore(d: int, c: int, w: int)
    requires 0 <= d < c && 0 <= w
    ensures d * w + w <= c * w
  {
    assert (c - d - 1) * w >= 0;
    assert c * w == d * w + w + (c - d - 1) * w;
  }

  /** Blocks from block `c` on start where it starts or later. */
  lemma BlockFrom(c: int, d: int, w: int)
    requires c <= d && 0 <= w
    ensures c * w <= d * w
  {
    assert (d - c) * w >= 0;
    assert d * w == c * w + (d - c) * w;
  }

  /** A range the merge did not touch keeps its order. */
  lemma SortedUntouched(a: seq<Item>, b: seq<Item>, lo: int, hi: int, lo': int, hi': int)
    requires SameOutside(a, b, lo, hi) && SortedRange(a, lo', hi') && (hi' < lo || hi < lo')
    ensures SortedRange(b, lo', hi')
  {
  }

  /** The state of the bottom-up pass before merging block `c` (of width
      `2*sz`, starting at `lo`): blocks before it are merged, blocks of width
      `sz` from block `2c` on are still sorted, and `r` is a stable
      rearrangement of `a`. */
  ghost predicate PassProgress(a: seq<Item>, r: seq<Item>, sz: int, c: int, lo: int)
  {
    1 <= sz && 0 <= c && lo == c * (2 * sz) &&
    |r| == |a| && multiset(r) == multiset(a) && StableRange(a, r, 0, |a| - 1) &&
    (forall d :: 0 <= d < c ==> BlockSorted(r, d, 2 * sz)) &&
    (forall d :: 2 * c <= d ==> BlockSorted(r, d, sz))
  }

  /** Before each merge its left half, block `2c`, is sorted. */
  lemma PassLeftSorted(a: seq<Item>, r: seq<Item>, sz: int, c: int, lo: int)
    requires PassProgress(a, r, sz, c, lo)
    ensures SortedRange(r, lo, lo + sz - 1) && SortedRange(r, lo + sz, lo + sz + sz - 1)
  {
    assert (2 * c) * sz == lo;
    assert (2 * c + 1) * sz == lo + sz;
    assert BlockSorted(r, 2 * c, sz) && BlockSorted(r, 2 * c + 1, sz);
  }

  /** One merge of the pass: block `c` of width `2*sz` is merged from blocks
      `2c` and `2c+1` of width `sz`; the blocks below it and the blocks of
      width `sz` above it are not touched. */
  lemma PassStep(a: seq<Item>, r: seq<Item>, r': seq<Item>, sz: int, c: int, lo: int, hi: int)
    requires PassProgress(a, r, sz, c, lo) && lo < |r| - sz
    requires hi == if lo + sz + sz - 1 < |r| - 1 then lo + sz + sz - 1 else |r| - 1
    requires SameOutside(r, r', lo, hi) && PermRange(r, r', lo, hi)
    requires SortedRange(r', lo, hi) && StableRange(r, r', lo, hi)
    ensures PassProgress(a, r', sz, c + 1, lo + sz + sz)
  {
    PassBlocks(r, r', sz, c, lo, hi);
    PermRangeWhole(r, r', lo, hi);
    StableRangeWiden(r, r', lo, hi, 0, |r| - 1);
    StableTrans(a, r, r', 0, |r| - 1);
  }

  lemma PassBlocks(r: seq<Item>, r': seq<Item>, sz: int, c: int, lo: int, hi: int)
    requires 1 <= sz && 0 <= c && lo == c * (2 * sz) && lo < |r| - sz
    requires hi == if lo + sz + sz - 1 < |r| - 1 then lo + sz + sz - 1 else |r| - 1
    requires forall d :: 0 <= d < c ==> BlockSorted(r, d, 2 * sz)
    requires forall d :: 2 * c <= d ==> BlockSorted(r, d, sz)
    requires SameOutside(r, r', lo, hi) && SortedRange(r', lo, hi)
    ensures (c + 1) * (2 * sz) == lo + sz + sz
    ensures forall d :: 0 <= d < c + 1 ==> BlockSorted(r', d, 2 * sz)
    ensures forall d :: 2 * (c + 1) <= d ==> BlockSorted(r', d, sz)
  {
    var w2 := 2 * sz;
    assert (c + 1) * w2 == lo + sz + sz;
    assert (2 * c + 2) * sz == lo + w2;
    BlocksBelowUntouched(r, r', w2, c, lo, hi);
    BlocksAboveUntouched(r, r', sz, 2 * c + 2, lo, hi);
    assert BlockSorted(r', c, w2);
  }

  /** Sorted blocks that end before `lo` stay sorted when only `[lo, hi]`
      changes. */
  lemma BlocksBelowUntouched(r: seq<Item>, r': seq<Item>, w: int, c: int, lo: int, hi: int)
    requires 0 <= w && 0 <= c && lo == c * w
    requires forall d :: 0 <= d < c ==> BlockSorted(r, d, w)
    requires SameOutside(r, r', lo, hi)
    ensures forall d :: 0 <= d < c ==> BlockSorted(r', d, w)
  {
    forall d | 0 <= d < c
      ensures BlockSorted(r', d, w)
    {
      BlockBefore(d, c, w);
      assert BlockSorted(r, d, w);
      SortedUntouched(r, r', lo, hi, d * w, d * w + w - 1);
    }
  }

  /** Sorted blocks that start after `hi` stay sorted when only `[lo, hi]`
      changes. */
  lemma BlocksAboveUntouched(r: seq<Item>, r': seq<Item>, w: int, e: int, lo: int, hi: int)
    requires 0 <= w && hi < e * w
    requires forall d :: e <= d ==> BlockSorted(r, d, w)
    requires SameOutside(r, r', lo, hi)
    ensures forall d :: e <= d ==> BlockSorted(r', d, w)
  {
    forall d | e <= d
      ensures BlockSorted(r', d, w)
    {
      BlockFrom(e, d, w);
      assert BlockSorted(r, d, w);
      SortedUntouched(r, r', lo, hi, d * w, d * w + w - 1);
    }
  }

  /** The inner loop of `sortBottomUp`: one pass that merges neighbouring
      blocks of width `sz` into blocks of width `2*sz`. */
  method MergePass(a: seq<Item>, sz: int) returns (r: seq<Item>)
    requires 1 <= sz < |a|
    requires forall d :: 0 <= d ==> BlockSorted(a, d, sz)
    ensures |r| == |a| && multiset(r) == multiset(a)
    ensures StableRange(a, r, 0, |a| - 1)
    ensures forall d :: 0 <= d ==> BlockSorted(r, d, sz * 2)
  {
    var len := |a|;
    r := a;
    var lo := 0;
    ghost var c := 0;
    while lo < len - sz
      invariant PassProgress(a, r, sz, c, lo)
    {
      var hi := if lo + sz + sz - 1 < len - 1 then lo + sz + sz - 1 else len - 1;
      PassLeftSorted(a, r, sz, c, lo);
      var r' := MergeInPlace(r, lo, lo + sz - 1, hi);
      PassStep(a, r, r', sz, c, lo, hi);
      r := r';
      lo := lo + sz + sz;
      c := c + 1;
    }
    PassDone(a, r, sz, c, lo);
  }

  /** When the pass stops, the block it stopped at fits in one block of
      width `sz` and the blocks after it are empty. */
  lemma PassDone(a: seq<Item>, r: seq<Item>, sz: int, c: int, lo: int)
    requires PassProgress(a, r, sz, c, lo) && lo >= |r| - sz
    ensures |r| == |a| && multiset(r) == multiset(a)
    ensures StableRange(a, r, 0, |a| - 1)
    ensures forall d :: 0 <= d ==> BlockSorted(r, d, sz * 2)
  {
    var w2 := sz * 2;
    forall d | 0 <= d
      ensures BlockSorted(r, d, w2)
    {
      if d == c {
        assert (2 * c) * sz == lo;
        assert BlockSorted(r, 2 * c, sz);
      } else if d > c {
        BlockFrom(c + 1, d, w2);
        assert (c + 1) * w2 == lo + w2;
      }
    }
  }

  /** `sortBottomUp`: passes of width 1, 2, 4, ... until one block covers
      the array. */
  method SortBottomUp(a: seq<Item>) returns (r: seq<Item>)
    ensures Sorted(r) && multiset(r) == multiset(a)
    ensures StableRange(a, r, 0, |a| - 1)
  {
    var len := |a|;
    r := a;
    var sz := 1;
    while sz < len
      invariant 1 <= sz
      invariant |r| == len && multiset(r) == multiset(a) && StableRange(a, r, 0, len - 1)
      invariant forall d :: 0 <= d ==> BlockSorted(r, d, sz)
      decreases len - sz
    {
      var r' := MergePass(r, sz);
      StableTrans(a, r, r', 0, len - 1);
      r := r';
      sz := sz * 2;
    }
    assert BlockSorted(r, 0, sz);
  }

  // ---------------------------------------------------------------------
  // The optimised top-down sort

  /** `advancedSort(src, dst, lo, hi)`: sorts `[lo, hi]` into `dst`, with
      `src` as the scratch array; both must hold the same elements there on
      entry. Short ranges are insertion-sorted in `dst`; otherwise the halves
      are sorted into `src` (the roles swap at each level), and then copied
      to `dst` when already in order or merged into `dst`. */
  method AdvancedSortRange(src: seq<Item>, dst: seq<Item>, lo: int, hi: int) returns (src': seq<Item>, dst': seq<Item>)
    requires |src| == |dst| && ValidRange(dst, lo, hi) && src[lo..hi + 1] == dst[lo..hi + 1]
    ensures SameOutside(src, src', lo, hi) && SameOutside(dst, dst', lo, hi)
    ensures SortedRange(dst', lo, hi) && PermRange(dst, dst', lo, hi)
    ensures StableRange(dst, dst', lo, hi)
    decreases hi - lo
  {
    if hi <= lo + Threshold {
      dst' := InsertionSort.SortRange(dst, lo, hi);
      return src, dst';
    }
    var mid := Mid(lo, hi);
    SubSlice(src, dst, lo, hi, lo, mid);
    var dst1, src1 := AdvancedSortRange(dst, src, lo, mid);
    SubSlice(src, dst, lo, hi, mid + 1, hi);
    assert src1[mid + 1..hi + 1] == src[mid + 1..hi + 1];
    assert dst1[mid + 1..hi + 1] == dst[mid + 1..hi + 1];
    var dst2, src2 := AdvancedSortRange(dst1, src1, mid + 1, hi);
    HalvesSorted(src, src1, src2, lo, mid, hi);
    if !Less(src2[mid + 1], src2[mid]) {
      dst' := CopyRange(src2, dst2, lo, hi);
      CopyIsMerge(src2, dst', lo, mid, hi);
    } else {
      dst' := MergeInto(src2, dst2, lo, mid, hi);
    }
    src' := src2;
    StableTrans(src, src2, dst', lo, hi);
    SameSliceStable(src, dst, dst', lo, hi);
  }

  /** Agreement on a range is agreement on every sub-range. */
  lemma SubSlice(a: seq<Item>, b: seq<Item>, lo: int, hi: int, lo': int, hi': int)
    requires |a| == |b| && ValidRange(a, lo, hi) && a[lo..hi + 1] == b[lo..hi + 1]
    requires lo <= lo' <= hi' + 1 <= hi + 1
    ensures a[lo'..hi' + 1] == b[lo'..hi' + 1]
  {
    forall i | lo' <= i <= hi'
      ensures a[i] == b[i]
    {
      assert a[i] == a[lo..hi + 1][i - lo] && b[i] == b[lo..hi + 1][i - lo];
    }
  }

  /** Stability is a property of the range's contents only. */
  lemma SameSliceStable(a: seq<Item>, a': seq<Item>, b: seq<Item>, lo: int, hi: int)
    requires |a'| == |a| && StableRange(a, b, lo, hi) && a[lo..hi + 1] == a'[lo..hi + 1]
    ensures StableRange(a', b, lo, hi)
  {
    forall k
      ensures SameRun(a', b, lo, hi, k)
    {
      assert SameRun(a, b, lo, hi, k);
    }
  }

  /** `System.arraycopy(src, lo, dst, lo, hi - lo + 1)`. */
  method CopyRange(src: seq<Item>, dst: seq<Item>, lo: int, hi: int) returns (r: seq<Item>)
    requires |src| == |dst| && ValidRange(src, lo, hi)
    ensures SameOutside(dst, r, lo, hi) && r[lo..hi + 1] == src[lo..hi + 1]
  {
    r := dst[..lo] + src[lo..hi + 1] + dst[hi + 1..];
    assert r[lo..hi + 1] == src[lo..hi + 1];
  }

  lemma OrderedHalvesMerge(src: seq<Item>, lo: int, mid: int, hi: int)
    requires 0 <= lo <= mid < hi < |src|
    requires SortedRange(src, lo, mid) && SortedRange(src, mid + 1, hi) && !Less(src[mid + 1], src[mid])
    ensures src[lo..hi + 1] == Merge(src[lo..mid + 1], src[mid + 1..hi + 1], LeftFirst)
  {
    var l, h := src[lo..mid + 1], src[mid + 1..hi + 1];
    SortedRangeSlice(src, lo, mid);
    SortedRangeSlice(src, mid + 1, hi);
    MergeOfOrderedHalves(l, h);
    assert src[lo..hi + 1] == l + h;
  }

  /** When the halves are already in order (the last of the left half is not
      above the first of the right), copying the range is merging it. */
  lemma CopyIsMerge(src: seq<Item>, r: seq<Item>, lo: int, mid: int, hi: int)
    requires |r| == |src| && 0 <= lo <= mid < hi < |src|
    requires SortedRange(src, lo, mid) && SortedRange(src, mid + 1, hi) && !Less(src[mid + 1], src[mid])
    requires r[lo..hi + 1] == src[lo..hi + 1]
    ensures PermRange(src, r, lo, hi) && SortedRange(r, lo, hi) && StableRange(src, r, lo, hi)
  {
    OrderedHalvesMerge(src, lo, mid, hi);
    MergedRangePerm(src, r, lo, mid, hi);
    MergedRangeSorted(src, r, lo, mid, hi);
    MergedRangeStable(src, r, lo, mid, hi);
  }

  /** After the two recursive calls, `src2` holds both halves sorted, as a
      stable rearrangement of `src`'s range. */
  lemma HalvesSorted(src: seq<Item>, src1: seq<Item>, src2: seq<Item>, lo: int, mid: int, hi: int)
    requires ValidRange(src, lo, hi) && lo <= mid < hi
    requires SameOutside(src, src1, lo, mid) && SortedRange(src1, lo, mid)
    requires PermRange(src, src1, lo, mid) && StableRange(src, src1, lo, mid)
    requires SameOutside(src1, src2, mid + 1, hi) && SortedRange(src2, mid + 1, hi)
    requires PermRange(src1, src2, mid + 1, hi) && StableRange(src1, src2, mid + 1, hi)
    ensures SameOutside(src, src2, lo, hi) && PermRange(src, src2, lo, hi)
    ensures SortedRange(src2, lo, mid) && SortedRange(src2, mid + 1, hi)
    ensures StableRange(src, src2, lo, hi)
  {
    PermRangeWiden(src, src1, lo, mid, lo, hi);
    PermRangeWiden(src1, src2, mid + 1, hi, lo, hi);
    StableRangeWiden(src, src1, lo, mid, lo, hi);
    StableRangeWiden(src1, src2, mid + 1, hi, lo, hi);
    StableTrans(src, src1, src2, lo, hi);
  }

  /** `advancedSort(a)`: a copy of `a` is the scratch array. */
  method AdvancedSort(a: seq<Item>) returns (r: seq<Item>)
    ensures Sorted(r) && multiset(r) == multiset(a)
    ensures StableRange(a, r, 0, |a| - 1)
  {
    var helper := a;
    var _, r' := AdvancedSortRange(helper, a, 0, |a| - 1);
    r := r';
    PermRangeWhole(a, r, 0, |a| - 1);
  }
}

=== FILE: merging.dfy ===
/** The two-cursor merge shared by the merge sorts, as a function on
    sequences. The in-place loops of MergeSort and ParallelMergeSort are
    proved to compute it; its properties (length, permutation, sortedness,
    stability) are proved once here. */
module Merging {
  import opened BaseSort

  /** Which head a merge takes when the two heads have equal keys. */
  datatype TieBreak = LeftFirst | RightFirst

  /** Does the merge take the right head `y` before the left head `x`?
      With `LeftFirst` only a strictly smaller right head goes first (the test
      `less(aux[j], aux[i])`); with `RightFirst` the left head goes first only
      when strictly smaller (the test `less(arr[left], arr[mid])`). */
  predicate TakesRight(x: Item, y: Item, tie: TieBreak) {
    match tie
    case LeftFirst => Less(y, x)
    case RightFirst => !Less(x, y)
  }

  /** Merge of `l` and `r`: repeatedly take the head the tie-break selects;
      once one side is exhausted, the rest of the other follows. */
  function Merge(l: seq<Item>, r: seq<Item>, tie: TieBreak): (m: seq<Item>)
    ensures |m| == |l| + |r|
    decreases |l| + |r|
  {
    if |l| == 0 then r
    else if |r| == 0 then l
    else if TakesRight(l[0], r[0], tie) then [r[0]] + Merge(l, r[1..], tie)
    else [l[0]] + Merge(l[1..], r, tie)
  }

  /** The merge is a permutation of its two inputs together. */
  lemma {:induction false} MergePermutes(l: seq<Item>, r: seq<Item>, tie: TieBreak)
    ensures multiset(Merge(l, r, tie)) == multiset(l) + multiset(r)
    decreases |l| + |r|
  {
    if |l| == 0 || |r| == 0 {
    } else if TakesRight(l[0], r[0], tie) {
      MergePermutes(l, r[1..], tie);
      assert r == [r[0]] + r[1..];
    } else {
      MergePermutes(l[1..], r, tie);
      assert l == [l[0]] + l[1..];
    }
  }

  /** One step of the merge, in the form the loops consume it: the merge is
      the head the loop takes next, followed by the merge of what is left. */
  lemma MergeStep(l: seq<Item>, r: seq<Item>, tie: TieBreak)
    requires |l| + |r| > 0
    ensures |l| == 0 ==> Merge(l, r, tie) == [r[0]] + Merge(l, r[1..], tie)
    ensures |l| > 0 && |r| == 0 ==> Merge(l, r, tie) == [l[0]] + Merge(l[1..], r, tie)
    ensures |l| > 0 && |r| > 0 && TakesRight(l[0], r[0], tie) ==> Merge(l, r, tie) == [r[0]] + Merge(l, r[1..], tie)
    ensures |l| > 0 && |r| > 0 && !TakesRight(l[0], r[0], tie) ==> Merge(l, r, tie) == [l[0]] + Merge(l[1..], r, tie)
  {
    if |l| == 0 {
      assert r == [r[0]] + r[1..];
    }
    if |l| > 0 && |r| == 0 {
      assert l == [l[0]] + l[1..];
    }
  }

  /** The merge starts with the left head when it is the one taken. */
  lemma TakeLeft(l: seq<Item>, r: seq<Item>, tie: TieBreak)
    requires |l| > 0 && (|r| == 0 || !TakesRight(l[0], r[0], tie))
    ensures Merge(l, r, tie) == [l[0]] + Merge(l[1..], r, tie)
  {
    assert l == [l[0]] + l[1..];
  }

  /** The merge starts with the right head when it is the one taken. */
  lemma TakeRight(l: seq<Item>, r: seq<Item>, tie: TieBreak)
    requires |r| > 0 && (|l| == 0 || TakesRight(l[0], r[0], tie))
    ensures Merge(l, r, tie) == [r[0]] + Merge(l, r[1..], tie)
  {
    assert r == [r[0]] + r[1..];
  }

  ghost predicate AllAtLeastSeq(s: seq<Item>, p: int) {
    forall i :: 0 <= i < |s| ==> p <= s[i].key
  }

  lemma MultisetKeepsLower(m: seq<Item>, l: seq<Item>, r: seq<Item>, p: int)
    requires multiset(m) == multiset(l) + multiset(r)
    requires AllAtLeastSeq(l, p) && AllAtLeastSeq(r, p)
    ensures AllAtLeastSeq(m, p)
  {
    forall i | 0 <= i < |m| ensures p <= m[i].key {
      assert m[i] in multiset(m);
      if m[i] in multiset(l) {
        var t :| 0 <= t < |l| && l[t] == m[i];
      } else {
        assert m[i] in multiset(r);
        var t :| 0 <= t < |r| && r[t] == m[i];
      }
    }
  }

  lemma ConsSorted(x: Item, s: seq<Item>)
    requires Sorted(s) && AllAtLeastSeq(s, x.key)
    ensures Sorted([x] + s)
  {
    var t := [x] + s;
    forall i, j | 0 <= i < j < |t| ensures t[i].key <= t[j].key {
      if i > 0 {
        assert t[i] == s[i - 1] && t[j] == s[j - 1];
      } else {
        assert t[j] == s[j - 1];
      }
    }
  }

  /** Merging two sorted sequences gives a sorted sequence, whichever side
      wins ties. */
  lemma {:induction false} MergeSorted(l: seq<Item>, r: seq<Item>, tie: TieBreak)
    requires Sorted(l) && Sorted(r)
    ensures Sorted(Merge(l, r, tie))
    decreases |l| + |r|
  {
    if |l| == 0 || |r| == 0 {
    } else if TakesRight(l[0], r[0], tie) {
      assert Sorted(r[1..]);
      MergeSorted(l, r[1..], tie);
      MergePermutes(l, r[1..], tie);
      MultisetKeepsLower(Merge(l, r[1..], tie), l, r[1..], r[0].key);
      ConsSorted(r[0], Merge(l, r[1..], tie));
    } else {
      assert Sorted(l[1..]);
      MergeSorted(l[1..], r, tie);
      MergePermutes(l[1..], r, tie);
      MultisetKeepsLower(Merge(l[1..], r, tie), l[1..], r, l[0].key);
      ConsSorted(l[0], Merge(l[1..], r, tie));
    }
  }

  /** With `LeftFirst` the merge is stable: for every key, the elements with
      that key come out as all of `l`'s, in order, then all of `r`'s, in
      order. Only `l` needs to be sorted: a right head goes first only when it
      is strictly below every element still in `l`. */
  lemma {:induction false} MergeStable(l: seq<Item>, r: seq<Item>, k: int)
    requires Sorted(l)
    ensures KeyRun(Merge(l, r, LeftFirst), k) == KeyRun(l, k) + KeyRun(r, k)
    decreases |l| + |r|
  {
    if |l| == 0 || |r| == 0 {
    } else if TakesRight(l[0], r[0], LeftFirst) {
      MergeStable(l, r[1..], k);
      StableTakeRight(l, r, k);
    } else {
      assert Sorted(l[1..]);
      MergeStable(l[1..], r, k);
      StableTakeLeft(l, r, k);
    }
  }

  /** Taking the right head keeps each key's run in order: if the head has
      key `k`, no element of `l` has key `k`, since all of them are above it. */
  lemma StableTakeRight(l: seq<Item>, r: seq<Item>, k: int)
    requires Sorted(l) && |l| > 0 && |r| > 0 && TakesRight(l[0], r[0], LeftFirst)
    requires KeyRun(Merge(l, r[1..], LeftFirst), k) == KeyRun(l, k) + KeyRun(r[1..], k)
    ensures KeyRun(Merge(l, r, LeftFirst), k) == KeyRun(l, k) + KeyRun(r, k)
  {
    TakeRight(l, r, LeftFirst);
    KeyRunConcat([r[0]], Merge(l, r[1..], LeftFirst), k);
    KeyRunCons(r, k);
    HeadRunApart(l, r[0], k);
    SwapAroundEmpty(KeyRun([r[0]], k), KeyRun(l, k), KeyRun(r[1..], k));
  }

  /** Taking the left head keeps each key's run in order. */
  lemma StableTakeLeft(l: seq<Item>, r: seq<Item>, k: int)
    requires |l| > 0 && |r| > 0 && !TakesRight(l[0], r[0], LeftFirst)
    requires KeyRun(Merge(l[1..], r, LeftFirst), k) == KeyRun(l[1..], k) + KeyRun(r, k)
    ensures KeyRun(Merge(l, r, LeftFirst), k) == KeyRun(l, k) + KeyRun(r, k)
  {
    TakeLeft(l, r, LeftFirst);
    KeyRunConcat([l[0]], Merge(l[1..], r, LeftFirst), k);
    KeyRunCons(l, k);
    Assoc3(KeyRun([l[0]], k), KeyRun(l[1..], k), KeyRun(r, k));
  }

  /** A run splits at the head. */
  lemma KeyRunCons(s: seq<Item>, k: int)
    requires |s| > 0
    ensures KeyRun(s, k) == KeyRun([s[0]], k) + KeyRun(s[1..], k)
  {
    assert s == [s[0]] + s[1..];
    KeyRunConcat([s[0]], s[1..], k);
  }

  /** An element strictly below a sorted `l` does not share a run with it. */
  lemma HeadRunApart(l: seq<Item>, x: Item, k: int)
    requires Sorted(l) && |l| > 0 && x.key < l[0].key
    ensures KeyRun([x], k) == [] || KeyRun(l, k) == []
  {
    KeyRunSingle(x, k);
    if x.key == k {
      NoKeyRunBelowHead(l, k);
    }
  }

  lemma SwapAroundEmpty(h: seq<Item>, a: seq<Item>, b: seq<Item>)
    requires h == [] || a == []
    ensures h + (a + b) == a + (h + b)
  {
  }

  /** A key below the head of a sorted sequence has no elements in it. */
  lemma {:induction false} NoKeyRunBelowHead(l: seq<Item>, k: int)
    requires Sorted(l) && (|l| == 0 || k < l[0].key)
    ensures KeyRun(l, k) == []
  {
    if |l| > 0 {
      assert Sorted(l[1..]);
      NoKeyRunBelowHead(l[1..], k);
    }
  }

  /** When the last of a sorted `l` is no greater than the first of a sorted
      `r`, the stable merge is plain concatenation: copying gives the same
      result as merging. */
  lemma {:induction false} MergeOfOrderedHalves(l: seq<Item>, r: seq<Item>)
    requires Sorted(l) && Sorted(r)
    requires |l| == 0 || |r| == 0 || l[|l| - 1].key <= r[0].key
    ensures Merge(l, r, LeftFirst) == l + r
    decreases |l|
  {
    if |l| == 0 {
      assert l + r == r;
    } else if |r| == 0 {
      assert l + r == l;
    } else {
      assert l[0].key <= l[|l| - 1].key;
      TakeLeft(l, r, LeftFirst);
      assert Sorted(l[1..]);
      MergeOfOrderedHalves(l[1..], r);
      ConsAppend(l, r);
    }
  }

  lemma ConsAppend(l: seq<Item>, r: seq<Item>)
    requires |l| > 0
    ensures [l[0]] + (l[1..] + r) == l + r
  {
    assert l == [l[0]] + l[1..];
  }

  /** With `RightFirst`, equal keys can come out in the opposite order: one
      element of key 1 on each side, and the right one goes first. */
  lemma RightFirstIsNotStable()
    ensures Merge([Item(1, 0)], [Item(1, 1)], RightFirst) == [Item(1, 1), Item(1, 0)]
    ensures KeyRun(Merge([Item(1, 0)], [Item(1, 1)], RightFirst), 1)
         != KeyRun([Item(1, 0)], 1) + KeyRun([Item(1, 1)], 1)
  {
    assert [Item(1, 1)][1..] == [];
    assert Merge([Item(1, 0)], [], RightFirst) == [Item(1, 0)];
    assert [Item(1, 1), Item(1, 0)][1..] == [Item(1, 0)];
    assert [Item(1, 0)][1..] == [];
    KeyRunSingle(Item(1, 0), 1);
    KeyRunSingle(Item(1, 1), 1);
    assert KeyRun([Item(1, 1), Item(1, 0)], 1) == [Item(1, 1), Item(1, 0)];
  }
}

=== FILE: parallel_merge_sort.dfy ===
/** The fork/join merge sort: ranges of more than sixteen elements are split
    in half, both halves are sorted (as two tasks), and merged through the
    auxiliary array and copied back; shorter ranges are insertion-sorted.
    The two tasks work on disjoint ranges of both arrays, so running them one
    after the other gives the same arrays as any interleaving; that is how
    they are modelled here. Its merge takes the right element on equal keys,
    so unlike the other merge sorts this one is not stable. */
module ParallelMergeSort {
  import opened BaseSort
  import opened Merging
  import InsertionSort

  /** A task sorts its range directly when `end - start` is at most this. */
  const Threshold := 15

  /** One step of the merge loops: while both halves have elements the left
      head is taken only when strictly smaller; afterwards the remaining half
      is copied. `[l, leftEnd]` and `[m, right]` are what is left. */
  function Take(src: seq<Item>, l: int, leftEnd: int, m: int, right: int): (t: (Item, int, int))
    requires 0 <= l <= leftEnd + 1 <= m <= right + 1 <= |src| && (l <= leftEnd || m <= right)
    ensures (t.1, t.2) == (l + 1, m) || (t.1, t.2) == (l, m + 1)
    ensures t.1 == l + 1 ==> l <= leftEnd && t.0 == src[l] && (m <= right ==> Less(src[l], src[m]))
    ensures t.2 == m + 1 ==> m <= right && t.0 == src[m] && (l <= leftEnd ==> !Less(src[l], src[m]))
  {
    if l <= leftEnd && m <= right then
      (if Less(src[l], src[m]) then (src[l], l + 1, m) else (src[m], l, m + 1))
    else if l <= leftEnd then (src[l], l + 1, m)
    else (src[m], l, m + 1)
  }

  /** The element `Take` picks is the head of the right-first merge of what
      is left, and the rest is the merge of what is left after it. */
  lemma TakeStep(src: seq<Item>, l: int, leftEnd: int, m: int, right: int, x: Item, l': int, m': int)
    requires 0 <= l <= leftEnd + 1 <= m <= right + 1 <= |src| && (l <= leftEnd || m <= right)
    requires (x, l', m') == Take(src, l, leftEnd, m, right)
    ensures Merge(src[l..leftEnd + 1], src[m..right + 1], RightFirst)
         == [x] + Merge(src[l'..leftEnd + 1], src[m'..right + 1], RightFirst)
  {
    var p, q := src[l..leftEnd + 1], src[m..right + 1];
    var p', q' := src[l'..leftEnd + 1], src[m'..right + 1];
    if l <= leftEnd && (m > right || Less(src[l], src[m])) {
      assert x == src[l] && l' == l + 1 && m' == m;
      assert p' == p[1..] && q' == q && p[0] == x;
      TakeLeft(p, q, RightFirst);
    } else {
      assert x == src[m] && l' == l && m' == m + 1;
      assert p' == p && q' == q[1..] && q[0] == x;
      TakeRight(p, q, RightFirst);
    }
  }

  /** Loop state of the merge into `tmp`: `tmp` differs from `tmp0` only
      inside `[lo, right]`, and what is written to `tmp[lo..pos-1]`, followed
      by the merge of what is left, is the whole merge. */
  ghost predicate FillState(src: seq<Item>, tmp0: seq<Item>, tmp: seq<Item>, lo: int, l: int, leftEnd: int, m: int, right: int, pos: int, whole: seq<Item>)
  {
    0 <= lo <= l <= leftEnd + 1 <= m <= right + 1 <= |src| == |tmp| && pos == l + m - leftEnd - 1 &&
    SameOutside(tmp0, tmp, lo, right) &&
    tmp[lo..pos] + Merge(src[l..leftEnd + 1], src[m..right + 1], RightFirst) == whole
  }

  lemma MoveHead(done: seq<Item>, rest: seq<Item>, x: Item, rest': seq<Item>, whole: seq<Item>)
    requires done + rest == whole && rest == [x] + rest'
    ensures (done + [x]) + rest' == whole
  {
    assert (done + [x]) + rest' == done + ([x] + rest');
  }

  /** Writing the element `Take` picks keeps the loop state. */
  lemma FillStep(src: seq<Item>, tmp0: seq<Item>, tmp: seq<Item>, lo: int, l: int, leftEnd: int, m: int, right: int, pos: int, whole: seq<Item>)
    requires FillState(src, tmp0, tmp, lo, l, leftEnd, m, right, pos, whole) && (l <= leftEnd || m <= right)
    ensures var t := Take(src, l, leftEnd, m, right);
      FillState(src, tmp0, tmp[pos := t.0], lo, t.1, leftEnd, t.2, right, pos + 1, whole)
  {
    var t := Take(src, l, leftEnd, m, right);
    var rest := Merge(src[l..leftEnd + 1], src[m..right + 1], RightFirst);
    var rest' := Merge(src[t.1..leftEnd + 1], src[t.2..right + 1], RightFirst);
    TakeStep(src, l, leftEnd, m, right, t.0, t.1, t.2);
    MoveHead(tmp[lo..pos], rest, t.0, rest', whole);
    assert tmp[pos := t.0][lo..pos + 1] == tmp[lo..pos] + [t.0];
  }

  /** The first loop of `merge`: both halves have elements. */
  method FillBoth(src: seq<Item>, tmp0: seq<Item>, tmp: seq<Item>, lo: int, l: int, leftEnd: int, m: int, right: int, pos: int, ghost whole: seq<Item>)
    returns (tmp': seq<Item>, l': int, m': int, pos': int)
    requires FillState(src, tmp0, tmp, lo, l, leftEnd, m, right, pos, whole)
    ensures FillState(src, tmp0, tmp', lo, l', leftEnd, m', right, pos', whole)
    ensures l' > leftEnd || m' > right
  {
    tmp', l', m', pos' := tmp, l, m, pos;
    while l' <= leftEnd && m' <= right
      invariant FillState(src, tmp0, tmp', lo, l', leftEnd, m', right, pos', whole)
      decreases right + leftEnd - l' - m'
    {
      // with both halves non-empty, `Take` is the test `less(arr[left], arr[mid])`
      FillStep(src, tmp0, tmp', lo, l', leftEnd, m', right, pos', whole);
      var t := Take(src, l', leftEnd, m', right);
      tmp' := tmp'[pos' := t.0];
      l', m', pos' := t.1, t.2, pos' + 1;
    }
  }

  /** The second loop: the right half is used up, the left one is copied. */
  method FillLeft(src: seq<Item>, tmp0: seq<Item>, tmp: seq<Item>, lo: int, l: int, leftEnd: int, m: int, right: int, pos: int, ghost whole: seq<Item>)
    returns (tmp': seq<Item>, l': int, pos': int)
    requires FillState(src, tmp0, tmp, lo, l, leftEnd, m, right, pos, whole) && (l > leftEnd || m > right)
    ensures FillState(src, tmp0, tmp', lo, l', leftEnd, m, right, pos', whole) && l' > leftEnd
  {
    tmp', l', pos' := tmp, l, pos;
    while l' <= leftEnd
      invariant FillState(src, tmp0, tmp', lo, l', leftEnd, m, right, pos', whole)
      invariant l' > leftEnd || m > right
      decreases leftEnd - l'
    {
      // the right half is exhausted, so `Take` copies `arr[left]`
      FillStep(src, tmp0, tmp', lo, l', leftEnd, m, right, pos', whole);
      tmp' := tmp'[pos' := src[l']];
      l' := l' + 1;
      pos' := pos' + 1;
    }
  }

  /** The third loop: the left half is used up, the right one is copied. */
  method FillRight(src: seq<Item>, tmp0: seq<Item>, tmp: seq<Item>, lo: int, l: int, leftEnd: int, m: int, right: int, pos: int, ghost whole: seq<Item>)
    returns (tmp': seq<Item>, m': int, pos': int)
    requires FillState(src, tmp0, tmp, lo, l, leftEnd, m, right, pos, whole) && l > leftEnd
    ensures FillState(src, tmp0, tmp', lo, l, leftEnd, m', right, pos', whole) && m' > right
  {
    tmp', m', pos' := tmp, m, pos;
    while m' <= right
      invariant FillState(src, tmp0, tmp', lo, l, leftEnd, m', right, pos', whole)
      decreases right - m'
    {
      // the left half is exhausted, so `Take` copies `arr[mid]`
      FillStep(src, tmp0, tmp', lo, l, leftEnd, m', right, pos', whole);
      tmp' := tmp'[pos' := src[m']];
      m' := m' + 1;
      pos' := pos' + 1;
    }
  }

  /** Before the loops nothing is written and the whole merge is left. */
  lemma FillStart(src: seq<Item>, tmp: seq<Item>, left: int, mid: int, right: int)
    requires |src| == |tmp| && 0 <= left <= mid <= right + 1 <= |src|
    ensures FillState(src, tmp, tmp, left, left, mid - 1, mid, right, left,
                      Merge(src[left..mid], src[mid..right + 1], RightFirst))
  {
    assert tmp[left..left] == [];
  }

  /** When both halves are used up, what is written is the whole merge. */
  lemma FillDone(src: seq<Item>, tmp0: seq<Item>, tmp: seq<Item>, lo: int, l: int, leftEnd: int, m: int, right: int, pos: int, whole: seq<Item>)
    requires FillState(src, tmp0, tmp, lo, l, leftEnd, m, right, pos, whole) && l > leftEnd && m > right
    ensures SameOutside(tmp0, tmp, lo, right) && tmp[lo..right + 1] == whole
  {
    assert src[l..leftEnd + 1] == [] && src[m..right + 1] == [];
    assert tmp[lo..right + 1] + [] == tmp[lo..right + 1];
  }

  /** The three loops of `merge(arr, tmp, left, mid, right)` fill
      `tmp[left..right]` with the right-first merge of `src[left..mid-1]`
      and `src[mid..right]`. */
  method Fill(src: seq<Item>, tmp: seq<Item>, left: int, mid: int, right: int) returns (tmp': seq<Item>)
    requires |src| == |tmp| && 0 <= left <= mid <= right + 1 <= |src|
    ensures SameOutside(tmp, tmp', left, right)
    ensures tmp'[left..right + 1] == Merge(src[left..mid], src[mid..right + 1], RightFirst)
  {
    ghost var whole := Merge(src[left..mid], src[mid..right + 1], RightFirst);
    var leftEnd := mid - 1;
    FillStart(src, tmp, left, mid, right);
    var tmp1, l, m, pos := FillBoth(src, tmp, tmp, left, left, leftEnd, mid, right, left, whole);
    var tmp2, l', pos' := FillLeft(src, tmp, tmp1, left, l, leftEnd, m, right, pos, whole);
    var tmp3, m', pos'' := FillRight(src, tmp, tmp2, left, l', leftEnd, m, right, pos', whole);
    FillDone(src, tmp, tmp3, left, l', leftEnd, m', right, pos'', whole);
    tmp' := tmp3;
  }

  /** The copy-back loop, from `right` down to `left`. */
  method CopyBack(tmp: seq<Item>, arr: seq<Item>, left: int, right: int) returns (arr': seq<Item>)
    requires |tmp| == |arr| && ValidRange(arr, left, right)
    ensures SameOutside(arr, arr', left, right)
    ensures arr'[left..right + 1] == tmp[left..right + 1]
  {
    arr' := arr;
    var numElements := right - left + 1;
    var i, r := 0, right;
    while i < numElements
      invariant 0 <= i <= numElements && r == right - i
      invariant SameOutside(arr, arr', left, right)
      invariant forall p :: r < p <= right ==> arr'[p] == tmp[p]
    {
      arr' := arr'[r := tmp[r]];
      i, r := i + 1, r - 1;
    }
    assert arr'[left..right + 1] == tmp[left..right + 1];
  }

  /** `merge(arr, tmp, left, mid, right)`: `arr[left..right]` becomes the
      right-first merge of `arr[left..mid-1]` and `arr[mid..right]`; `tmp`
      keeps a copy. */
  method MergeRange(arr: seq<Item>, tmp: seq<Item>, left: int, mid: int, right: int) returns (arr': seq<Item>, tmp': seq<Item>)
    requires |arr| == |tmp| && 0 <= left <= mid <= right + 1 <= |arr|
    ensures SameOutside(arr, arr', left, right) && SameOutside(tmp, tmp', left, right)
    ensures arr'[left..right + 1] == Merge(arr[left..mid], arr[mid..right + 1], RightFirst)
    ensures tmp'[left..right + 1] == arr'[left..right + 1]
  {
    tmp' := Fill(arr, tmp, left, mid, right);
    arr' := CopyBack(tmp', arr, left, right);
  }

  /** A range holding the right-first merge of two sorted halves of another
      array's range is a sorted permutation of it. */
  lemma MergedRange(a: seq<Item>, r: seq<Item>, lo: int, mid: int, hi: int)
    requires 0 <= lo <= mid <= hi + 1 <= |a| && |r| == |a|
    requires r[lo..hi + 1] == Merge(a[lo..mid], a[mid..hi + 1], RightFirst)
    requires SortedRange(a, lo, mid - 1) && SortedRange(a, mid, hi)
    ensures PermRange(a, r, lo, hi) && SortedRange(r, lo, hi)
  {
    MergePermutes(a[lo..mid], a[mid..hi + 1], RightFirst);
    SliceSplit(a, lo, mid, hi + 1);
    SortedRangeSlice(a, lo, mid - 1);
    SortedRangeSlice(a, mid, hi);
    MergeSorted(a[lo..mid], a[mid..hi + 1], RightFirst);
    SortedRangeSlice(r, lo, hi);
  }

  /** `MergeTask.compute()`: sorts `arr[start..end]`, using `tmp[start..end]`
      as scratch. */
  method Compute(arr: seq<Item>, tmp: seq<Item>, start: int, end: int) returns (arr': seq<Item>, tmp': seq<Item>)
    requires |arr| == |tmp| && ValidRange(arr, start, end)
    ensures SortedRange(arr', start, end) && SameOutside(arr, arr', start, end) && PermRange(arr, arr', start, end)
    ensures SameOutside(tmp, tmp', start, end)
    decreases end - start
  {
    if end - start <= Threshold {
      arr' := InsertionSort.SortRange(arr, start, end);
      return arr', tmp;
    }
    var mid := start + (end - start) / 2;
    var arr1, tmp1 := Compute(arr, tmp, start, mid);
    var arr2, tmp2 := Compute(arr1, tmp1, mid + 1, end);
    arr', tmp' := MergeRange(arr2, tmp2, start, mid + 1, end);
    JoinHalves(arr, arr1, arr2, arr', tmp, tmp1, tmp2, tmp', start, mid, end);
  }

  /** Sorting the halves and merging them sorts and permutes the range, and
      the auxiliary array changes only inside it. */
  lemma JoinHalves(arr: seq<Item>, arr1: seq<Item>, arr2: seq<Item>, arr': seq<Item>,
                   tmp: seq<Item>, tmp1: seq<Item>, tmp2: seq<Item>, tmp': seq<Item>,
                   start: int, mid: int, end: int)
    requires ValidRange(arr, start, end) && start <= mid <= end
    requires SortedRange(arr1, start, mid) && SameOutside(arr, arr1, start, mid) && PermRange(arr, arr1, start, mid)
    requires SortedRange(arr2, mid + 1, end) && SameOutside(arr1, arr2, mid + 1, end) && PermRange(arr1, arr2, mid + 1, end)
    requires SameOutside(tmp, tmp1, start, mid) && SameOutside(tmp1, tmp2, mid + 1, end)
    requires SameOutside(arr2, arr', start, end) && SameOutside(tmp2, tmp', start, end)
    requires arr'[start..end + 1] == Merge(arr2[start..mid + 1], arr2[mid + 1..end + 1], RightFirst)
    ensures SortedRange(arr', start, end) && SameOutside(arr, arr', start, end) && PermRange(arr, arr', start, end)
    ensures SameOutside(tmp, tmp', start, end)
  {
    HalvesPermuted(arr, arr1, arr2, start, mid, end);
    FramedTwice(tmp, tmp1, tmp2, start, mid, end);
    MergedRange(arr2, arr', start, mid + 1, end);
    RearrangeTrans(arr, arr2, arr', start, end);
    SameOutsideTrans(tmp, tmp2, tmp', start, end);
  }

  /** Sorting the two halves in turn permutes the range and leaves both
      halves sorted. */
  lemma HalvesPermuted(a: seq<Item>, a1: seq<Item>, a2: seq<Item>, lo: int, mid: int, hi: int)
    requires ValidRange(a, lo, hi) && lo <= mid <= hi
    requires SameOutside(a, a1, lo, mid) && PermRange(a, a1, lo, mid) && SortedRange(a1, lo, mid)
    requires SameOutside(a1, a2, mid + 1, hi) && PermRange(a1, a2, mid + 1, hi) && SortedRange(a2, mid + 1, hi)
    ensures SameOutside(a, a2, lo, hi) && PermRange(a, a2, lo, hi)
    ensures SortedRange(a2, lo, mid)
  {
    PermRangeWiden(a, a1, lo, mid, lo, hi);
    PermRangeWiden(a1, a2, mid + 1, hi, lo, hi);
  }

  /** `parallelMergeSort(arr)`: one task over the whole array. The auxiliary
      array starts as a copy here; its initial contents are never read. */
  method Sort(arr: seq<Item>) returns (r: seq<Item>)
    ensures Sorted(r) && multiset(r) == multiset(arr)
  {
    var aux := arr;
    r, aux := Compute(arr, aux, 0, |arr| - 1);
    PermRangeWhole(arr, r, 0, |arr| - 1);
  }
}

=== FILE: quick_sort.dfy ===
/** Quicksort: the exchange partition, the hole-digging partition, the
    median-of-three partition with insertion sort below a threshold, and
    three-way partitioning. None of these is stable, and none claims to be:
    the contracts are order and permutation only. */
module QuickSort {
  import opened BaseSort
  import InsertionSort

  /** Ranges of at most this many elements go to insertion sort. */
  const InsertionSortThreshold := 8

  // ---------------------------------------------------------------------
  // What a partition produces

  /** `r[lo..hi]` is split at `j`: nothing before `j` has a larger key than
      `r[j]`, nothing after it a smaller one. */
  ghost predicate PartitionedAt(r: seq<Item>, lo: int, j: int, hi: int) {
    0 <= lo <= j <= hi < |r| && AllAtMost(r, lo, j - 1, r[j].key) && AllAtLeast(r, j + 1, hi, r[j].key)
  }

  /** A range split at `j` whose sides are each sorted is sorted. */
  lemma JoinSorted(r: seq<Item>, lo: int, j: int, hi: int)
    requires PartitionedAt(r, lo, j, hi) && SortedRange(r, lo, j - 1) && SortedRange(r, j + 1, hi)
    ensures SortedRange(r, lo, hi)
  {
    forall x, y | lo <= x < y <= hi && 0 <= x && y < |r|
      ensures r[x].key <= r[y].key
    {
      if x < j && j < y {
        assert r[x].key <= r[j].key <= r[y].key;
      }
    }
  }

  /** Rearranging two parts of a rearranged range rearranges the range. */
  lemma SidesPermuted(a: seq<Item>, r1: seq<Item>, r2: seq<Item>, r3: seq<Item>, lo: int, m1: int, m2: int, hi: int)
    requires SameOutside(a, r1, lo, hi) && PermRange(a, r1, lo, hi)
    requires lo <= m1 + 1 <= hi + 1 && lo <= m2 <= hi + 1
    requires SameOutside(r1, r2, lo, m1) && PermRange(r1, r2, lo, m1)
    requires SameOutside(r2, r3, m2, hi) && PermRange(r2, r3, m2, hi)
    ensures SameOutside(a, r3, lo, hi) && PermRange(a, r3, lo, hi)
  {
    PermRangeWiden(r1, r2, lo, m1, lo, hi);
    PermRangeWiden(r2, r3, m2, hi, lo, hi);
    RearrangeTrans(a, r1, r2, lo, hi);
    RearrangeTrans(a, r2, r3, lo, hi);
  }

  /** Sorting both sides of a partitioned range sorts the range. */
  lemma SortSides(a: seq<Item>, r1: seq<Item>, r2: seq<Item>, r3: seq<Item>, lo: int, j: int, hi: int)
    requires PartitionedAt(r1, lo, j, hi) && SameOutside(a, r1, lo, hi) && PermRange(a, r1, lo, hi)
    requires SortedRange(r2, lo, j - 1) && SameOutside(r1, r2, lo, j - 1) && PermRange(r1, r2, lo, j - 1)
    requires SortedRange(r3, j + 1, hi) && SameOutside(r2, r3, j + 1, hi) && PermRange(r2, r3, j + 1, hi)
    ensures SortedRange(r3, lo, hi) && SameOutside(a, r3, lo, hi) && PermRange(a, r3, lo, hi)
  {
    SidesStayPartitioned(r1, r2, r3, lo, j, hi);
    JoinSorted(r3, lo, j, hi);
    SidesPermuted(a, r1, r2, r3, lo, j - 1, j + 1, hi);
  }

  /** Sorting the sides keeps each on its side of the pivot, and the left
      side stays sorted while the right one is sorted. */
  lemma SidesStayPartitioned(r1: seq<Item>, r2: seq<Item>, r3: seq<Item>, lo: int, j: int, hi: int)
    requires PartitionedAt(r1, lo, j, hi)
    requires SortedRange(r2, lo, j - 1) && SameOutside(r1, r2, lo, j - 1) && PermRange(r1, r2, lo, j - 1)
    requires SortedRange(r3, j + 1, hi) && SameOutside(r2, r3, j + 1, hi) && PermRange(r2, r3, j + 1, hi)
    ensures PartitionedAt(r3, lo, j, hi) && SortedRange(r3, lo, j - 1) && SortedRange(r3, j + 1, hi)
  {
    var p := r1[j].key;
    PermRangeKeepsUpper(r1, r2, lo, j - 1, p);
    assert AllAtLeast(r2, j + 1, hi, p);
    PermRangeKeepsLower(r2, r3, j + 1, hi, p);
    assert SortedRange(r3, lo, j - 1);
  }

  /** The whole-array entry points: sorting `[0, |a|-1]` of a permutation of
      `a` sorts it. */
  /** The insertion sort that short ranges are handed to. */
  method SortShortRange(a: seq<Item>, lo: int, hi: int) returns (r: seq<Item>)
    requires ValidRange(a, lo, hi)
    ensures SortedRange(r, lo, hi) && SameOutside(a, r, lo, hi) && PermRange(a, r, lo, hi)
  {
    r := InsertionSort.SortRange(a, lo, hi);
  }

  /** A range of at most one element is already sorted. */
  lemma ShortRange(a: seq<Item>, lo: int, hi: int)
    requires ValidRange(a, lo, hi) && hi <= lo
    ensures SortedRange(a, lo, hi) && SameOutside(a, a, lo, hi) && PermRange(a, a, lo, hi)
  {
  }

  lemma WholeRange(a: seq<Item>, s: seq<Item>, r: seq<Item>)
    requires multiset(s) == multiset(a)
    requires SortedRange(r, 0, |s| - 1) && SameOutside(s, r, 0, |s| - 1) && PermRange(s, r, 0, |s| - 1)
    ensures Sorted(r) && multiset(r) == multiset(a)
  {
    PermRangeWhole(s, r, 0, |s| - 1);
  }

  // ---------------------------------------------------------------------
  // The exchange partition

  /** `while (less(a[++i], key)) if (i == hi) break;`: from just after `i`,
      the first element not below `key`, or `hi`. */
  method ScanUp(r: seq<Item>, i: int, hi: int, key: Item) returns (i': int)
    requires 0 <= i < hi < |r|
    ensures i < i' <= hi
    ensures forall p :: i < p < i' ==> Less(r[p], key)
    ensures i' == hi || !Less(r[i'], key)
  {
    i' := i + 1;
    while Less(r[i'], key) && i' != hi
      invariant i < i' <= hi
      invariant forall p :: i < p < i' ==> Less(r[p], key)
      decreases hi - i'
    {
      i' := i' + 1;
    }
  }

  /** `while (less(key, a[--j])) if (j == lo) break;`: from just before `j`,
      the last element not above `key`, or `lo`. */
  method ScanDown(r: seq<Item>, lo: int, j: int, key: Item) returns (j': int)
    requires 0 <= lo < j <= |r|
    ensures lo <= j' < j
    ensures forall p :: j' < p < j ==> Less(key, r[p])
    ensures j' == lo || !Less(key, r[j'])
  {
    j' := j - 1;
    while Less(key, r[j']) && j' != lo
      invariant lo <= j' < j
      invariant forall p :: j' < p < j ==> Less(key, r[p])
      decreases j'
    {
      j' := j' - 1;
    }
  }

  /** Between rounds of the exchange partition: the pivot `a[lo]` is still at
      `lo`, nothing in `r[lo+1..i]` is above it, nothing in `r[j..hi]` below
      it, and `r` is `a` rearranged inside the range. */
  ghost predicate ExchangeState(a: seq<Item>, r: seq<Item>, lo: int, hi: int, i: int, j: int) {
    0 <= lo <= i < hi < |a| && i < j <= hi + 1 && |r| == |a| && r[lo] == a[lo] &&
    AllAtMost(r, lo + 1, i, a[lo].key) && AllAtLeast(r, j, hi, a[lo].key) &&
    SameOutside(a, r, lo, hi) && multiset(r) == multiset(a)
  }

  /** Exchanging the two out-of-place elements the scans stopped at restores
      the state with both scans advanced. */
  lemma ExchangeStep(a: seq<Item>, r: seq<Item>, lo: int, hi: int, i: int, j: int, i': int, j': int)
    requires ExchangeState(a, r, lo, hi, i, j)
    requires i < i' < j' < j && i' <= hi
    requires forall p :: i < p < i' ==> Less(r[p], a[lo])
    requires forall p :: j' < p < j ==> Less(a[lo], r[p])
    requires !Less(r[i'], a[lo]) && !Less(a[lo], r[j'])
    ensures ExchangeState(a, Exch(r, i', j'), lo, hi, i', j')
  {
  }

  /** After the last round the pivot is exchanged into place `j`, where
      everything from `lo + 1` to `j` is not above it and everything after it
      is not below it. */
  lemma PivotIntoPlace(a: seq<Item>, r: seq<Item>, lo: int, hi: int, j: int)
    requires 0 <= lo <= j <= hi < |a| && |r| == |a| && r[lo] == a[lo]
    requires AllAtMost(r, lo + 1, j, a[lo].key) && AllAtLeast(r, j + 1, hi, a[lo].key)
    requires SameOutside(a, r, lo, hi) && multiset(r) == multiset(a)
    ensures PartitionedAt(Exch(r, lo, j), lo, j, hi) && Exch(r, lo, j)[j] == a[lo]
    ensures SameOutside(a, Exch(r, lo, j), lo, hi) && PermRange(a, Exch(r, lo, j), lo, hi)
  {
    WholeToPermRange(a, Exch(r, lo, j), lo, hi);
  }

  /** `partition(a, lo, hi)`: the pivot `a[lo]` ends at the returned index
      with the range partitioned around it. */
  method Partition(a: seq<Item>, lo: int, hi: int) returns (r: seq<Item>, j: int)
    requires 0 <= lo < hi < |a|
    ensures PartitionedAt(r, lo, j, hi) && r[j] == a[lo]
    ensures SameOutside(a, r, lo, hi) && PermRange(a, r, lo, hi)
  {
    r := a;
    var key := a[lo];
    var i := lo;
    j := hi + 1;
    while true
      invariant ExchangeState(a, r, lo, hi, i, j)
      decreases hi - i
    {
      var i' := ScanUp(r, i, hi, key);
      var j' := ScanDown(r, lo, j, key);
      if i' >= j' {
        assert AllAtMost(r, lo + 1, j', key.key);
        PivotIntoPlace(a, r, lo, hi, j');
        r, j := Exch(r, lo, j'), j';
        return;
      }
      ExchangeStep(a, r, lo, hi, i, j, i', j');
      r := Exch(r, i', j');
      i, j := i', j';
    }
  }

  /** `sort(a, lo, hi)`: partition, then sort both sides. */
  method SortRange(a: seq<Item>, lo: int, hi: int) returns (r: seq<Item>)
    requires ValidRange(a, lo, hi)
    ensures SortedRange(r, lo, hi) && SameOutside(a, r, lo, hi) && PermRange(a, r, lo, hi)
    decreases hi - lo
  {
    if hi <= lo {
      ShortRange(a, lo, hi);
      return a;
    }
    var r1, j := Partition(a, lo, hi);
    var r2 := SortRange(r1, lo, j - 1);
    r := SortRange(r2, j + 1, hi);
    SortSides(a, r1, r2, r, lo, j, hi);
  }

  /** `sort(a)`: the random shuffle is the parameter `shuffled`, any
      rearrangement of `a`. */
  method Sort(a: seq<Item>, shuffled: seq<Item>) returns (r: seq<Item>)
    requires multiset(shuffled) == multiset(a)
    ensures Sorted(r) && multiset(r) == multiset(a)
  {
    r := SortRange(shuffled, 0, |shuffled| - 1);
    WholeRange(a, shuffled, r);
  }

  // ---------------------------------------------------------------------
  // Median of three

  function Count(b: bool): int {
    if b then 1 else 0
  }

  /** `m` is a median of `x`, `y`, `z`: at least two of them are not above
      it and at least two not below it. */
  ghost predicate IsMedian(x: int, y: int, z: int, m: int) {
    Count(x <= m) + Count(y <= m) + Count(z <= m) >= 2 &&
    Count(m <= x) + Count(m <= y) + Count(m <= z) >= 2
  }

  /** `median3(a, i, j, k)`: the index, among the three, of a median key. */
  function Median3(a: seq<Item>, i: int, j: int, k: int): (m: int)
    requires 0 <= i < |a| && 0 <= j < |a| && 0 <= k < |a|
    ensures m == i || m == j || m == k
    ensures IsMedian(a[i].key, a[j].key, a[k].key, a[m].key)
  {
    if Less(a[i], a[j]) then
      (if Less(a[j], a[k]) then j else if Less(a[i], a[k]) then k else i)
    else
      (if Less(a[k], a[j]) then j else if Less(a[k], a[i]) then k else i)
  }

  /** The middle index the median-of-three variants sample. */
  function MidIndex(lo: int, hi: int): (mid: int)
    requires lo < hi
    ensures lo < mid <= hi
    ensures hi - lo >= 2 ==> mid < hi
  {
    lo + (hi - lo + 1) / 2
  }

  /** Once the median of `a[lo]`, `a[mid]`, `a[hi]` is exchanged to `lo`,
      the other two sit at `mid` and `hi`: one of them is not above the
      pivot and one not below it. These are the sentinels that stop the
      unguarded scans. */
  lemma MedianSentinels(a: seq<Item>, lo: int, mid: int, hi: int)
    requires 0 <= lo < mid < hi < |a|
    ensures var s := Exch(a, Median3(a, lo, mid, hi), lo);
      (s[mid].key <= s[lo].key || s[hi].key <= s[lo].key) &&
      (s[lo].key <= s[mid].key || s[lo].key <= s[hi].key)
  {
  }

  /** Exchanging the median to the front permutes the range. */
  method MedianToFront(a: seq<Item>, lo: int, hi: int) returns (s: seq<Item>)
    requires 0 <= lo < hi < |a|
    ensures s == Exch(a, Median3(a, lo, MidIndex(lo, hi), hi), lo)
    ensures SameOutside(a, s, lo, hi) && PermRange(a, s, lo, hi)
    ensures IsMedian(a[lo].key, a[MidIndex(lo, hi)].key, a[hi].key, s[lo].key)
  {
    var m := Median3(a, lo, MidIndex(lo, hi), hi);
    s := Exch(a, m, lo);
    WholeToPermRange(a, s, lo, hi);
  }

  // ---------------------------------------------------------------------
  // The median-of-three exchange partition

  /** `while (less(a[++i], key));`: the scan needs no bound because
      `r[bound]` is not below `key`. */
  method ScanUpTo(r: seq<Item>, i: int, bound: int, key: Item) returns (i': int)
    requires 0 <= i < bound < |r| && !Less(r[bound], key)
    ensures i < i' <= bound && !Less(r[i'], key)
    ensures forall p :: i < p < i' ==> Less(r[p], key)
  {
    i' := i + 1;
    while Less(r[i'], key)
      invariant i < i' <= bound
      invariant forall p :: i < p < i' ==> Less(r[p], key)
      decreases bound - i'
    {
      i' := i' + 1;
    }
  }

  /** `while (less(key, a[--j]));`: stopped by `r[bound]`, which is not
      above `key`. */
  method ScanDownTo(r: seq<Item>, bound: int, j: int, key: Item) returns (j': int)
    requires 0 <= bound < j <= |r| && !Less(key, r[bound])
    ensures bound <= j' < j && !Less(key, r[j'])
    ensures forall p :: j' < p < j ==> Less(key, r[p])
  {
    j' := j - 1;
    while Less(key, r[j'])
      invariant bound <= j' < j
      invariant forall p :: j' < p < j ==> Less(key, r[p])
      decreases j'
    {
      j' := j' - 1;
    }
  }

  /** Between rounds of the unguarded partition: the pivot `s[lo]` is at
      `lo`, nothing in `r[lo+1..i-1]` is above it, nothing in `r[j+1..hi]`
      below it, and the scans stopped at `i` (not below) and `j` (not above). */
  ghost predicate SentinelState(s: seq<Item>, r: seq<Item>, lo: int, hi: int, i: int, j: int) {
    0 <= lo < i <= hi < |s| && lo < j <= hi && |r| == |s| && r[lo] == s[lo] &&
    AllAtMost(r, lo + 1, i - 1, s[lo].key) && AllAtLeast(r, j + 1, hi, s[lo].key) &&
    !Less(r[i], s[lo]) && !Less(s[lo], r[j]) &&
    SameOutside(s, r, lo, hi) && multiset(r) == multiset(s)
  }

  /** One round: exchange, then scan up to the element just exchanged
      to `j` and down to the one just exchanged to `i`. */
  method SentinelRound(s: seq<Item>, r: seq<Item>, lo: int, hi: int, i: int, j: int) returns (r': seq<Item>, i': int, j': int)
    requires SentinelState(s, r, lo, hi, i, j) && i < j
    ensures SentinelState(s, r', lo, hi, i', j') && i < i' && j' < j
  {
    r' := Exch(r, i, j);
    i' := ScanUpTo(r', i, j, s[lo]);
    j' := ScanDownTo(r', i, j, s[lo]);
  }

  /** The rounds of the unguarded partition, then the pivot into place. */
  method SentinelRounds(s: seq<Item>, r: seq<Item>, lo: int, hi: int, i: int, j: int) returns (r': seq<Item>, j': int)
    requires SentinelState(s, r, lo, hi, i, j)
    ensures PartitionedAt(r', lo, j', hi) && r'[j'] == s[lo]
    ensures SameOutside(s, r', lo, hi) && PermRange(s, r', lo, hi)
  {
    r' := r;
    var i' := i;
    j' := j;
    while i' < j'
      invariant SentinelState(s, r', lo, hi, i', j')
      decreases j' - i'
    {
      r', i', j' := SentinelRound(s, r', lo, hi, i', j');
    }
    assert AllAtMost(r', lo + 1, j', s[lo].key);
    PivotIntoPlace(s, r', lo, hi, j');
    r' := Exch(r', lo, j');
  }

  /** The partition once the median is at `lo`: the two opening scans, each
      with its early return, then the unguarded rounds. `early` records that
      an early return was taken; `sentinels` (the other two samples at `mid`
      and `hi`, one on either side of the pivot) rules both out. */
  method PartitionFromFront(s: seq<Item>, lo: int, hi: int, ghost sentinels: bool) returns (r: seq<Item>, j: int, ghost early: bool)
    requires 0 <= lo < hi < |s|
    requires sentinels ==> (lo < MidIndex(lo, hi) < hi &&
                            (s[MidIndex(lo, hi)].key <= s[lo].key || s[hi].key <= s[lo].key) &&
                            (s[lo].key <= s[MidIndex(lo, hi)].key || s[lo].key <= s[hi].key))
    ensures PartitionedAt(r, lo, j, hi) && r[j] == s[lo]
    ensures SameOutside(s, r, lo, hi) && PermRange(s, r, lo, hi)
    ensures sentinels ==> !early
  {
    var key := s[lo];
    early := false;
    var i := lo + 1;
    while Less(s[i], key)
      invariant lo < i <= hi
      invariant forall p :: lo < p < i ==> Less(s[p], key)
      decreases hi - i
    {
      if i == hi {
        // the pivot is the unique largest key
        PivotIntoPlace(s, s, lo, hi, hi);
        r, j, early := Exch(s, lo, hi), hi, true;
        return;
      }
      i := i + 1;
    }
    j := hi;
    while Less(key, s[j])
      invariant lo < j <= hi
      invariant forall p :: j < p <= hi ==> Less(key, s[p])
      decreases j
    {
      if j == lo + 1 {
        // the pivot is the unique smallest key
        r, j, early := s, lo, true;
        WholeToPermRange(s, r, lo, hi);
        return;
      }
      j := j - 1;
    }
    r, j := SentinelRounds(s, s, lo, hi, i, j);
  }

  /** `advancedPartition(a, lo, hi)`: the median of `a[lo]`, `a[mid]`,
      `a[hi]` is the pivot. The early returns are taken only on a range of
      two elements: on longer ones the median always has a key on either
      side of it among the samples. */
  method AdvancedPartition(a: seq<Item>, lo: int, hi: int) returns (r: seq<Item>, j: int, ghost early: bool)
    requires 0 <= lo < hi < |a|
    ensures PartitionedAt(r, lo, j, hi) && SameOutside(a, r, lo, hi) && PermRange(a, r, lo, hi)
    ensures IsMedian(a[lo].key, a[MidIndex(lo, hi)].key, a[hi].key, r[j].key)
    ensures hi - lo >= 2 ==> !early
  {
    var s := MedianToFront(a, lo, hi);
    if hi - lo >= 2 {
      MedianSentinels(a, lo, MidIndex(lo, hi), hi);
    }
    r, j, early := PartitionFromFront(s, lo, hi, hi - lo >= 2);
  }

  /** `advancedSort(a, lo, hi)`: insertion sort up to the threshold,
      median-of-three partition above it. */
  method AdvancedSortRange(a: seq<Item>, lo: int, hi: int) returns (r: seq<Item>)
    requires ValidRange(a, lo, hi)
    ensures SortedRange(r, lo, hi) && SameOutside(a, r, lo, hi) && PermRange(a, r, lo, hi)
    decreases hi - lo
  {
    if hi <= lo {
      ShortRange(a, lo, hi);
      return a;
    }
    var n := hi - lo + 1;
    if n <= InsertionSortThreshold {
      r := SortShortRange(a, lo, hi);
      return;
    }
    var r1, j, _ := AdvancedPartition(a, lo, hi);
    var r2 := AdvancedSortRange(r1, lo, j - 1);
    r := AdvancedSortRange(r2, j + 1, hi);
    SortSides(a, r1, r2, r, lo, j, hi);
  }

  method AdvancedSort(a: seq<Item>) returns (r: seq<Item>)
    ensures Sorted(r) && multiset(r) == multiset(a)
  {
    r := AdvancedSortRange(a, 0, |a| - 1);
    WholeRange(a, a, r);
  }

  // ---------------------------------------------------------------------
  // The hole-digging partition

  /** Between rounds of the hole-digging partition: the pivot `a[lo]` has
      been taken out, leaving a hole at `left`; nothing before `left` is
      above the pivot and nothing after `right` below it; putting the pivot
      back into the hole gives a rearrangement of `a`. */
  ghost predicate HoleState(a: seq<Item>, r: seq<Item>, lo: int, hi: int, left: int, right: int) {
    0 <= lo <= left <= right <= hi < |a| && |r| == |a| &&
    AllAtMost(r, lo, left - 1, a[lo].key) && AllAtLeast(r, right + 1, hi, a[lo].key) &&
    SameOutside(a, r, lo, hi) && multiset(r[left := a[lo]]) == multiset(a)
  }

  /** `while (left < right && !less(a[right], key)) right--;` */
  method DigDown(r: seq<Item>, left: int, right: int, key: Item) returns (right': int)
    requires 0 <= left <= right < |r|
    ensures left <= right' <= right
    ensures forall p :: right' < p <= right ==> !Less(r[p], key)
    ensures right' == left || Less(r[right'], key)
  {
    right' := right;
    while left < right' && !Less(r[right'], key)
      invariant left <= right' <= right
      invariant forall p :: right' < p <= right ==> !Less(r[p], key)
    {
      right' := right' - 1;
    }
  }

  /** `while (left < right && !less(key, a[left])) left++;` */
  method DigUp(r: seq<Item>, left: int, right: int, key: Item) returns (left': int)
    requires 0 <= left <= right < |r|
    ensures left <= left' <= right
    ensures forall p :: left <= p < left' ==> !Less(key, r[p])
    ensures left' == right || Less(key, r[left'])
  {
    left' := left;
    while left' < right && !Less(key, r[left'])
      invariant left <= left' <= right
      invariant forall p :: left <= p < left' ==> !Less(key, r[p])
    {
      left' := left' + 1;
    }
  }

  /** Moving the value at `q` into the hole at `p` moves the hole to `q`. */
  lemma MoveIntoHole(r: seq<Item>, p: int, q: int, x: Item)
    requires 0 <= p < |r| && 0 <= q < |r|
    ensures multiset(r[p := r[q]][q := x]) == multiset(r[p := x])
  {
    if p != q {
      assert r[p := r[q]][q := x] == Exch(r[p := x], p, q);
    }
  }

  /** Halfway through a round: the hole has moved to `right`, and what was
      moved into `left` is below the pivot unless the two ends met. */
  ghost predicate HoleAtRight(a: seq<Item>, r: seq<Item>, lo: int, hi: int, left: int, right: int) {
    0 <= lo <= left <= right <= hi < |a| && |r| == |a| &&
    AllAtMost(r, lo, left - 1, a[lo].key) && (left == right || Less(r[left], a[lo])) &&
    AllAtLeast(r, right + 1, hi, a[lo].key) &&
    SameOutside(a, r, lo, hi) && multiset(r[right := a[lo]]) == multiset(a)
  }

  /** `a[left] = a[right]` after scanning down from `right`. */
  method FillFromRight(a: seq<Item>, r: seq<Item>, lo: int, hi: int, left: int, right: int) returns (r': seq<Item>, right': int)
    requires HoleState(a, r, lo, hi, left, right) && left < right
    ensures HoleAtRight(a, r', lo, hi, left, right') && right' <= right
  {
    right' := DigDown(r, left, right, a[lo]);
    r' := r[left := r[right']];
    MoveIntoHole(r, left, right', a[lo]);
  }

  /** `a[right] = a[left]` after scanning up from `left`. */
  method FillFromLeft(a: seq<Item>, r: seq<Item>, lo: int, hi: int, left: int, right: int) returns (r': seq<Item>, left': int)
    requires HoleAtRight(a, r, lo, hi, left, right)
    ensures HoleState(a, r', lo, hi, left', right) && left <= left'
    ensures left < right ==> left < left'
  {
    left' := DigUp(r, left, right, a[lo]);
    r' := r[right := r[left']];
    MoveIntoHole(r, right, left', a[lo]);
  }

  /** One round: fill the hole from the right, then from the left. Unless
      the two ends met, the first fill puts a smaller key at `left`, so the
      second scan advances: the gap shrinks. */
  method DigRound(a: seq<Item>, r: seq<Item>, lo: int, hi: int, left: int, right: int) returns (r': seq<Item>, left': int, right': int)
    requires HoleState(a, r, lo, hi, left, right) && left < right
    ensures HoleState(a, r', lo, hi, left', right') && right' - left' < right - left
  {
    var r1;
    r1, right' := FillFromRight(a, r, lo, hi, left, right);
    r', left' := FillFromLeft(a, r1, lo, hi, left, right');
  }

  /** The partition of `sort2` and `advancedSort2`: the pivot `a[lo]` ends at
      `left`, where the two ends meet. */
  method DigPartition(a: seq<Item>, lo: int, hi: int) returns (r: seq<Item>, left: int)
    requires 0 <= lo < hi < |a|
    ensures PartitionedAt(r, lo, left, hi) && r[left] == a[lo]
    ensures SameOutside(a, r, lo, hi) && PermRange(a, r, lo, hi)
  {
    r := a;
    left := lo;
    var right := hi;
    assert r[left := a[lo]] == a;
    while left < right
      invariant HoleState(a, r, lo, hi, left, right)
      decreases right - left
    {
      r, left, right := DigRound(a, r, lo, hi, left, right);
    }
    r := r[left := a[lo]];
    WholeToPermRange(a, r, lo, hi);
  }

  /** `sort2(a, lo, hi)`. */
  method Sort2Range(a: seq<Item>, lo: int, hi: int) returns (r: seq<Item>)
    requires ValidRange(a, lo, hi)
    ensures SortedRange(r, lo, hi) && SameOutside(a, r, lo, hi) && PermRange(a, r, lo, hi)
    decreases hi - lo
  {
    if |a| <= 1 || lo >= hi {
      return a;
    }
    var r1, left := DigPartition(a, lo, hi);
    var r2 := Sort2Range(r1, lo, left - 1);
    r := Sort2Range(r2, left + 1, hi);
    SortSides(a, r1, r2, r, lo, left, hi);
  }

  /** `sort2(a)`, after the shuffle. */
  method Sort2(a: seq<Item>, shuffled: seq<Item>) returns (r: seq<Item>)
    requires multiset(shuffled) == multiset(a)
    ensures Sorted(r) && multiset(r) == multiset(a)
  {
    r := Sort2Range(shuffled, 0, |shuffled| - 1);
    WholeRange(a, shuffled, r);
  }

  /** The partition step of `advancedSort2`: the median of the three samples
      to the front, then the hole-digging partition around it. */
  method MedianDigPartition(a: seq<Item>, lo: int, hi: int) returns (r: seq<Item>, left: int)
    requires 0 <= lo < hi < |a|
    ensures PartitionedAt(r, lo, left, hi) && SameOutside(a, r, lo, hi) && PermRange(a, r, lo, hi)
    ensures IsMedian(a[lo].key, a[MidIndex(lo, hi)].key, a[hi].key, r[left].key)
  {
    var s := MedianToFront(a, lo, hi);
    r, left := DigPartition(s, lo, hi);
  }

  /** `advancedSort2(a, lo, hi)`: insertion sort up to the threshold, else
      the median to the front and the hole-digging partition. */
  method AdvancedSort2Range(a: seq<Item>, lo: int, hi: int) returns (r: seq<Item>)
    requires ValidRange(a, lo, hi)
    ensures SortedRange(r, lo, hi) && SameOutside(a, r, lo, hi) && PermRange(a, r, lo, hi)
    decreases hi - lo
  {
    if hi <= lo {
      ShortRange(a, lo, hi);
      return a;
    }
    var n := hi - lo + 1;
    if n <= InsertionSortThreshold {
      r := SortShortRange(a, lo, hi);
      return;
    }
    var r1, left := MedianDigPartition(a, lo, hi);
    var r2 := AdvancedSort2Range(r1, lo, left - 1);
    r := AdvancedSort2Range(r2, left + 1, hi);
    SortSides(a, r1, r2, r, lo, left, hi);
  }

  method AdvancedSort2(a: seq<Item>) returns (r: seq<Item>)
    ensures Sorted(r) && multiset(r) == multiset(a)
  {
    r := AdvancedSort2Range(a, 0, |a| - 1);
    WholeRange(a, a, r);
  }

  // ---------------------------------------------------------------------
  // Three-way partitioning

  /** `r[lo..hi]` is split into keys below `k` (`[lo, lt-1]`), keys equal to
      `k` (`[lt, gt]`) and keys above `k` (`[gt+1, hi]`). */
  ghost predicate ThreeWaySplit(r: seq<Item>, lo: int, lt: int, gt: int, hi: int, k: int) {
    0 <= lo <= lt <= gt <= hi < |r| &&
    (forall p :: lo <= p < lt ==> r[p].key < k) &&
    (forall p :: lt <= p <= gt ==> r[p].key == k) &&
    (forall p :: gt < p <= hi ==> k < r[p].key)
  }

  /** Loop state of the three-way partition: `[lo, lt-1]` below the pivot,
      `[lt, i-1]` equal to it, `[i, gt]` not yet seen, `[gt+1, hi]` above. */
  ghost predicate ThreeWayState(s: seq<Item>, r: seq<Item>, lo: int, hi: int, lt: int, i: int, gt: int) {
    0 <= lo <= lt < i <= gt + 1 <= hi + 1 <= |s| && |r| == |s| &&
    (forall p :: lo <= p < lt ==> r[p].key < s[lo].key) &&
    (forall p :: lt <= p < i ==> r[p].key == s[lo].key) &&
    (forall p :: gt < p <= hi ==> s[lo].key < r[p].key) &&
    SameOutside(s, r, lo, hi) && multiset(r) == multiset(s)
  }

  /** The partition step of `threeWaySort`, once the pivot is at `lo`. */
  method ThreeWayPartition(s: seq<Item>, lo: int, hi: int) returns (r: seq<Item>, lt: int, gt: int)
    requires 0 <= lo <= hi < |s|
    ensures ThreeWaySplit(r, lo, lt, gt, hi, s[lo].key)
    ensures SameOutside(s, r, lo, hi) && PermRange(s, r, lo, hi)
  {
    r := s;
    lt, gt := lo, hi;
    var key := s[lo];
    var i := lo + 1;
    while i <= gt
      invariant ThreeWayState(s, r, lo, hi, lt, i, gt)
      decreases gt - i
    {
      var cmp := CompareTo(r[i], key);
      if cmp < 0 {
        r := Exch(r, lt, i);
        lt, i := lt + 1, i + 1;
      } else if cmp > 0 {
        r := Exch(r, i, gt);
        gt := gt - 1;
      } else {
        i := i + 1;
      }
    }
    WholeToPermRange(s, r, lo, hi);
  }

  /** Sorting the outer parts of a three-way split sorts the range. */
  lemma SortOuterParts(a: seq<Item>, r1: seq<Item>, r2: seq<Item>, r3: seq<Item>, lo: int, lt: int, gt: int, hi: int, k: int)
    requires ThreeWaySplit(r1, lo, lt, gt, hi, k) && SameOutside(a, r1, lo, hi) && PermRange(a, r1, lo, hi)
    requires SortedRange(r2, lo, lt - 1) && SameOutside(r1, r2, lo, lt - 1) && PermRange(r1, r2, lo, lt - 1)
    requires SortedRange(r3, gt + 1, hi) && SameOutside(r2, r3, gt + 1, hi) && PermRange(r2, r3, gt + 1, hi)
    ensures SortedRange(r3, lo, hi) && SameOutside(a, r3, lo, hi) && PermRange(a, r3, lo, hi)
  {
    OuterPartsKeepBounds(r1, r2, r3, lo, lt, gt, hi, k);
    ThreeSortedJoin(r3, lo, lt, gt, hi, k);
    SidesPermuted(a, r1, r2, r3, lo, lt - 1, gt + 1, hi);
  }

  /** Sorting the outer parts keeps them on their side of `k` and leaves
      the middle alone. */
  lemma OuterPartsKeepBounds(r1: seq<Item>, r2: seq<Item>, r3: seq<Item>, lo: int, lt: int, gt: int, hi: int, k: int)
    requires ThreeWaySplit(r1, lo, lt, gt, hi, k)
    requires SortedRange(r2, lo, lt - 1) && SameOutside(r1, r2, lo, lt - 1) && PermRange(r1, r2, lo, lt - 1)
    requires SortedRange(r3, gt + 1, hi) && SameOutside(r2, r3, gt + 1, hi) && PermRange(r2, r3, gt + 1, hi)
    ensures SortedRange(r3, lo, lt - 1) && AllAtMost(r3, lo, lt - 1, k)
    ensures forall p :: lt <= p <= gt ==> r3[p].key == k
    ensures AllAtLeast(r3, gt + 1, hi, k)
  {
    assert AllAtMost(r1, lo, lt - 1, k);
    PermRangeKeepsUpper(r1, r2, lo, lt - 1, k);
    assert AllAtLeast(r2, gt + 1, hi, k);
    PermRangeKeepsLower(r2, r3, gt + 1, hi, k);
  }

  lemma ThreeSortedJoin(r: seq<Item>, lo: int, lt: int, gt: int, hi: int, k: int)
    requires 0 <= lo <= lt <= gt <= hi < |r|
    requires SortedRange(r, lo, lt - 1) && AllAtMost(r, lo, lt - 1, k)
    requires forall p :: lt <= p <= gt ==> r[p].key == k
    requires SortedRange(r, gt + 1, hi) && AllAtLeast(r, gt + 1, hi, k)
    ensures SortedRange(r, lo, hi)
  {
  }

  /** The partition step of `threeWaySort`: the median of the three samples
      to the front, then the three-way partition around it. */
  method MedianThreeWayPartition(a: seq<Item>, lo: int, hi: int) returns (r: seq<Item>, lt: int, gt: int)
    requires 0 <= lo < hi < |a|
    ensures 0 <= lo <= lt <= gt <= hi < |r|
    ensures ThreeWaySplit(r, lo, lt, gt, hi, r[lt].key)
    ensures SameOutside(a, r, lo, hi) && PermRange(a, r, lo, hi)
    ensures IsMedian(a[lo].key, a[MidIndex(lo, hi)].key, a[hi].key, r[lt].key)
  {
    var s := MedianToFront(a, lo, hi);
    r, lt, gt := ThreeWayPartition(s, lo, hi);
  }

  /** `threeWaySort(a, lo, hi)`: insertion sort up to the threshold, else
      the median to the front, three-way partition, and sorting the parts
      below and above the pivot. */
  method ThreeWaySortRange(a: seq<Item>, lo: int, hi: int) returns (r: seq<Item>)
    requires ValidRange(a, lo, hi)
    ensures SortedRange(r, lo, hi) && SameOutside(a, r, lo, hi) && PermRange(a, r, lo, hi)
    decreases hi - lo
  {
    if hi <= lo {
      ShortRange(a, lo, hi);
      return a;
    }
    var n := hi - lo + 1;
    if n <= InsertionSortThreshold {
      r := SortShortRange(a, lo, hi);
      return;
    }
    var r1, lt, gt := MedianThreeWayPartition(a, lo, hi);
    var r2 := ThreeWaySortRange(r1, lo, lt - 1);
    r := ThreeWaySortRange(r2, gt + 1, hi);
    SortOuterParts(a, r1, r2, r, lo, lt, gt, hi, r1[lt].key);
  }

  method ThreeWaySort(a: seq<Item>) returns (r: seq<Item>)
    ensures Sorted(r) && multiset(r) == multiset(a)
  {
    r := ThreeWaySortRange(a, 0, |a| - 1);
    WholeRange(a, a, r);
  }
}

=== FILE: radix_sort.dfy ===
/** Least-significant-digit radix sort on non-negative ints. Pass `k`
    (1-based) distributes the array by the digit at place value
    `RADIX_DICT[k-1]` with a counting sort that fills buckets back to front,
    and so is stable.

    `CountingPass` is the reference definition of one pass: the elements
    whose digit is 0, in input order, then those whose digit is 1, and so on.
    The sort is a sequence of such passes over a table of place values; the
    table as written (`RadixDict`) repeats 10^6 and 10^8 and never holds 10^5
    or 10^9, so the digit at place 10^5 is never examined. `PowersOfTen` is
    the evidently intended table. */
module RadixSort {
  import opened BaseSort

  /** `RADIX_DICT` as written. */
  const RadixDict: seq<int> := [1, 10, 100, 1000, 10000, 1000000, 1000000, 10000000, 100000000, 100000000]

  /** The intended table: entry `k` is 10^k. */
  const PowersOfTen: seq<int> := [1, 10, 100, 1000, 10000, 100000, 1000000, 10000000, 100000000, 1000000000]

  function Pow10(k: nat): (p: int)
    ensures p >= 1
  {
    if k == 0 then 1 else 10 * Pow10(k - 1)
  }

  lemma PowersOfTenArePowers(k: int)
    requires 0 <= k < 10
    ensures PowersOfTen[k] == Pow10(k)
  {
    assert Pow10(9) == 1000000000;
  }

  /** The written table agrees with the powers of ten for the first five
      places only. */
  lemma RadixDictDiffers()
    ensures forall k :: 0 <= k < 5 ==> RadixDict[k] == Pow10(k)
    ensures RadixDict[5] != Pow10(5) && RadixDict[9] != Pow10(9)
  {
    assert Pow10(9) == 1000000000;
  }

  // ---------------------------------------------------------------------
  // Digits and the reference pass

  /** `getFigure`: the decimal digit of `v` at place value `div`. On the
      non-negative values the sort accepts, Java's truncating `/` and `%`
      agree with Dafny's. */
  function Digit(v: int, div: int): (d: int)
    requires div >= 1
    ensures 0 <= d <= 9
  {
    (v / div) % 10
  }

  /** The elements of `s` whose digit at `div` is `d`, in their order in `s`. */
  function Bucket(s: seq<int>, div: int, d: int): (b: seq<int>)
    requires div >= 1
    ensures |b| <= |s|
  {
    if s == [] then [] else (if Digit(s[0], div) == d then [s[0]] else []) + Bucket(s[1..], div, d)
  }

  /** The buckets for digits `e` to 9, concatenated. */
  function Collect(s: seq<int>, div: int, e: nat): seq<int>
    requires div >= 1
    decreases 10 - e
  {
    if e >= 10 then [] else Bucket(s, div, e) + Collect(s, div, e + 1)
  }

  /** One pass of the sort, by its meaning: the stable partition of `s` by
      the digit at `div`. */
  function CountingPass(s: seq<int>, div: int): seq<int>
    requires div >= 1
  {
    Collect(s, div, 0)
  }

  /** The number of elements of `s` whose digit is below `d`: where bucket
      `d` starts in the result. */
  function Below(s: seq<int>, div: int, d: int): (n: nat)
    requires div >= 1
    decreases d
  {
    if d <= 0 then 0 else Below(s, div, d - 1) + |Bucket(s, div, d - 1)|
  }

  lemma {:induction false} BucketConcat(s: seq<int>, t: seq<int>, div: int, d: int)
    requires div >= 1
    ensures Bucket(s + t, div, d) == Bucket(s, div, d) + Bucket(t, div, d)
    decreases |s|
  {
    if s != [] {
      assert (s + t)[0] == s[0] && (s + t)[1..] == s[1..] + t;
      BucketConcat(s[1..], t, div, d);
    } else {
      assert s + t == t;
    }
  }

  lemma {:induction false} BelowCons(x: int, t: seq<int>, div: int, d: int)
    requires div >= 1
    ensures Below([x] + t, div, d) == (if 0 <= Digit(x, div) < d then 1 else 0) + Below(t, div, d)
    decreases d
  {
    if d > 0 {
      BelowCons(x, t, div, d - 1);
      BucketConsLength(x, t, div, d - 1);
      BelowStep(x, t, div, d, Digit(x, div));
    }
  }

  /** The step of `BelowCons`, with the digit `g` of `x` as a plain number. */
  lemma BelowStep(x: int, t: seq<int>, div: int, d: int, g: int)
    requires div >= 1 && d > 0 && 0 <= g <= 9
    requires Below([x] + t, div, d - 1) == (if g < d - 1 then 1 else 0) + Below(t, div, d - 1)
    requires |Bucket([x] + t, div, d - 1)| == (if g == d - 1 then 1 else 0) + |Bucket(t, div, d - 1)|
    ensures Below([x] + t, div, d) == (if g < d then 1 else 0) + Below(t, div, d)
  {
  }

  lemma BucketConsLength(x: int, t: seq<int>, div: int, d: int)
    requires div >= 1
    ensures |Bucket([x] + t, div, d)| == (if Digit(x, div) == d then 1 else 0) + |Bucket(t, div, d)|
  {
    var xs := [x] + t;
    assert xs[0] == x && xs[1..] == t;
  }

  /** Every element has a digit below 10, so the buckets cover the input. */
  lemma {:induction false} BelowAll(s: seq<int>, div: int)
    requires div >= 1
    ensures Below(s, div, 10) == |s|
    decreases |s|
  {
    if s != [] {
      BelowAll(s[1..], div);
      BelowCons(s[0], s[1..], div, 10);
      BelowAllStep(s, div, 10);
    }
  }

  /** The step of `BelowAll`, for any bound `top` that the head's digit is
      below. */
  lemma BelowAllStep(s: seq<int>, div: int, top: int)
    requires div >= 1 && |s| > 0
    requires Below(s[1..], div, top) == |s| - 1
    requires Below([s[0]] + s[1..], div, top) == 1 + Below(s[1..], div, top)
    ensures Below(s, div, top) == |s|
  {
    assert [s[0]] + s[1..] == s;
  }

  lemma {:induction false} CollectLength(s: seq<int>, div: int, e: nat)
    requires div >= 1 && e <= 10
    ensures |Collect(s, div, e)| + Below(s, div, e) == |s|
    decreases 10 - e
  {
    if e < 10 {
      CollectLength(s, div, e + 1);
    } else {
      BelowAll(s, div);
    }
  }

  /** Bucket `d` of `s` sits in `b` exactly where the pass puts it. */
  ghost predicate BlockAt(b: seq<int>, s: seq<int>, div: int, d: int)
    requires div >= 1
  {
    Below(s, div, d) + |Bucket(s, div, d)| <= |b| &&
    b[Below(s, div, d)..Below(s, div, d) + |Bucket(s, div, d)|] == Bucket(s, div, d)
  }

  lemma SliceJoin(b: seq<int>, lo: int, mid: int, x: seq<int>, y: seq<int>)
    requires 0 <= lo <= mid <= |b| && b[lo..mid] == x && b[mid..] == y
    ensures b[lo..] == x + y
  {
    assert b[lo..] == b[lo..mid] + b[mid..];
  }

  /** A sequence holding every bucket at that bucket's place is the pass's
      output; `e = 0` gives the whole of it. */
  lemma {:induction false} BlocksDetermine(b: seq<int>, s: seq<int>, div: int, e: nat)
    requires div >= 1 && e <= 10 && |b| == |s|
    requires forall d :: 0 <= d < 10 ==> BlockAt(b, s, div, d)
    ensures Below(s, div, e) <= |b| && b[Below(s, div, e)..] == Collect(s, div, e)
    decreases 10 - e
  {
    CollectLength(s, div, e);
    if e < 10 {
      BlocksDetermine(b, s, div, e + 1);
      var lo, bk := Below(s, div, e), Bucket(s, div, e);
      assert Below(s, div, e + 1) == lo + |bk|;
      assert BlockAt(b, s, div, e);
      SliceJoin(b, lo, lo + |bk|, bk, Collect(s, div, e + 1));
    } else {
      BelowAll(s, div);
    }
  }

  // ---------------------------------------------------------------------
  // What one pass guarantees

  lemma {:induction false} CollectCons(x: int, t: seq<int>, div: int, e: nat)
    requires div >= 1 && e <= 10
    ensures multiset(Collect([x] + t, div, e)) ==
      (if e <= Digit(x, div) then multiset{x} else multiset{}) + multiset(Collect(t, div, e))
    decreases 10 - e
  {
    if e < 10 {
      CollectCons(x, t, div, e + 1);
      assert ([x] + t)[1..] == t;
    }
  }

  /** A pass is a permutation. */
  lemma {:induction false} PassPermutes(s: seq<int>, div: int)
    requires div >= 1
    ensures multiset(CountingPass(s, div)) == multiset(s)
    decreases |s|
  {
    if s != [] {
      PassPermutes(s[1..], div);
      CollectCons(s[0], s[1..], div, 0);
      assert [s[0]] + s[1..] == s;
    }
  }

  lemma {:induction false} BucketOfBucket(s: seq<int>, div: int, e: int, d: int)
    requires div >= 1
    ensures Bucket(Bucket(s, div, e), div, d) == if e == d then Bucket(s, div, e) else []
    decreases |s|
  {
    if s != [] {
      BucketOfBucket(s[1..], div, e, d);
      if Digit(s[0], div) == e {
        assert Bucket(s, div, e) == [s[0]] + Bucket(s[1..], div, e);
        BucketConcat([s[0]], Bucket(s[1..], div, e), div, d);
        assert [s[0]][1..] == [];
        assert Bucket([s[0]], div, d) == if e == d then [s[0]] else [];
      } else {
        assert Bucket(s, div, e) == Bucket(s[1..], div, e);
      }
    }
  }

  lemma {:induction false} BucketOfCollect(s: seq<int>, div: int, e: nat, d: int)
    requires div >= 1 && e <= 10
    ensures Bucket(Collect(s, div, e), div, d) == if e <= d < 10 then Bucket(s, div, d) else []
    decreases 10 - e
  {
    if e < 10 {
      BucketOfCollect(s, div, e + 1, d);
      BucketConcat(Bucket(s, div, e), Collect(s, div, e + 1), div, d);
      BucketOfBucket(s, div, e, d);
    }
  }

  /** A pass is stable: the elements sharing a digit keep their order. */
  lemma PassStable(s: seq<int>, div: int, d: int)
    requires div >= 1
    ensures Bucket(CountingPass(s, div), div, d) == Bucket(s, div, d)
  {
    BucketOfCollect(s, div, 0, d);
    if !(0 <= d < 10) {
      BucketEmpty(s, div, d);
    }
  }

  lemma {:induction false} BucketEmpty(s: seq<int>, div: int, d: int)
    requires div >= 1 && !(0 <= d < 10)
    ensures Bucket(s, div, d) == []
    decreases |s|
  {
    if s != [] {
      BucketEmpty(s[1..], div, d);
    }
  }

  /** Every element of bucket `d` has digit `d` and comes from `s`. */
  lemma {:induction false} BucketMembers(s: seq<int>, div: int, d: int)
    requires div >= 1
    ensures forall j :: 0 <= j < |Bucket(s, div, d)| ==> Digit(Bucket(s, div, d)[j], div) == d
    ensures forall j :: 0 <= j < |Bucket(s, div, d)| ==> Bucket(s, div, d)[j] in s
    decreases |s|
  {
    if s != [] {
      BucketMembers(s[1..], div, d);
      var b, b' := Bucket(s, div, d), Bucket(s[1..], div, d);
      forall j | 0 <= j < |b|
        ensures Digit(b[j], div) == d && b[j] in s
      {
        if Digit(s[0], div) == d {
          assert b == [s[0]] + b';
          if j > 0 {
            assert b[j] == b'[j - 1];
            assert b'[j - 1] in s[1..];
          }
        } else {
          assert b == b';
          assert b'[j] in s[1..];
        }
      }
    }
  }

  /** The digits of `s` never decrease. */
  ghost predicate DigitSorted(s: seq<int>, div: int)
    requires div >= 1
  {
    forall i, j :: 0 <= i < j < |s| ==> Digit(s[i], div) <= Digit(s[j], div)
  }

  lemma {:induction false} CollectDigitSorted(s: seq<int>, div: int, e: nat)
    requires div >= 1 && e <= 10
    ensures DigitSorted(Collect(s, div, e), div)
    ensures forall i :: 0 <= i < |Collect(s, div, e)| ==> e <= Digit(Collect(s, div, e)[i], div)
    decreases 10 - e
  {
    if e < 10 {
      CollectDigitSorted(s, div, e + 1);
      BucketMembers(s, div, e);
      var b, c := Bucket(s, div, e), Collect(s, div, e + 1);
      assert Collect(s, div, e) == b + c;
      forall i | 0 <= i < |b + c|
        ensures e <= Digit((b + c)[i], div)
        ensures i < |b| ==> Digit((b + c)[i], div) == e
        ensures i >= |b| ==> e + 1 <= Digit((b + c)[i], div)
      {
        if i >= |b| {
          assert (b + c)[i] == c[i - |b|];
        }
      }
    }
  }

  /** A pass orders the array by the digit it examines. */
  lemma PassOrdersDigit(s: seq<int>, div: int)
    requires div >= 1
    ensures DigitSorted(CountingPass(s, div), div)
  {
    CollectDigitSorted(s, div, 0);
  }

  // ---------------------------------------------------------------------
  // The least-significant-digit argument

  /** `s` is ordered by its value modulo `m`: by its low digits when `m` is a
      power of ten. */
  ghost predicate LowSorted(s: seq<int>, m: int)
    requires m >= 1
  {
    forall i, j :: 0 <= i < j < |s| ==> s[i] % m <= s[j] % m
  }

  lemma MulMono(a: int, b: int, m: int)
    requires a <= b && m >= 0
    ensures a * m <= b * m
  {
    assert b * m - a * m == (b - a) * m;
  }

  lemma ProductBound(k: int, m: int)
    requires m >= 1
    ensures k >= 1 ==> k * m >= m
    ensures k <= -1 ==> k * m <= -m
  {
    if k >= 1 {
      MulMono(1, k, m);
    }
    if k <= -1 {
      MulMono(k, -1, m);
    }
  }

  /** Quotient and remainder are unique. */
  lemma DivModUnique(v: int, m: int, q: int, r: int)
    requires m >= 1 && v == q * m + r && 0 <= r < m
    ensures v / m == q && v % m == r
  {
    var q0, r0 := v / m, v % m;
    assert v == q0 * m + r0;
    assert (q - q0) * m == r0 - r by {
      assert (q - q0) * m == q * m - q0 * m;
    }
    ProductBound(q - q0, m);
  }

  /** The low digits below place `10m` are the digit at `m` followed by the
      low digits below `m`. */
  lemma LowDigits(v: int, m: int)
    requires m >= 1
    ensures v % (10 * m) == Digit(v, m) * m + v % m
  {
    var q, r := v / m, v % m;
    assert v == q * m + r;
    var q', d := q / 10, q % 10;
    assert q == 10 * q' + d;
    assert q * m == q' * (10 * m) + d * m by {
      assert q * m == (10 * q' + d) * m;
    }
    MulMono(d, 9, m);
    MulMono(0, d, m);
    DivModUnique(v, 10 * m, q', d * m + r);
  }

  /** A bucket of a sequence ordered by its values modulo `m` stays so ordered. */
  lemma {:induction false} BucketKeepsLowSorted(s: seq<int>, div: int, d: int, m: int)
    requires div >= 1 && m >= 1 && LowSorted(s, m)
    ensures LowSorted(Bucket(s, div, d), m)
    decreases |s|
  {
    if s != [] {
      assert LowSorted(s[1..], m);
      BucketKeepsLowSorted(s[1..], div, d, m);
      BucketMembers(s[1..], div, d);
      var b' := Bucket(s[1..], div, d);
      if Digit(s[0], div) == d {
        var b := [s[0]] + b';
        assert Bucket(s, div, d) == b;
        forall i, j | 0 <= i < j < |b|
          ensures b[i] % m <= b[j] % m
        {
          assert b[j] == b'[j - 1];
          if i == 0 {
            assert b'[j - 1] in s[1..];
            var k :| 0 <= k < |s[1..]| && s[1..][k] == b'[j - 1];
            assert s[k + 1] == b'[j - 1];
          } else {
            assert b[i] == b'[i - 1];
          }
        }
      } else {
        assert Bucket(s, div, d) == b';
      }
    }
  }

  /** Different digits order the low digits one place up. */
  lemma DigitDecides(x: int, y: int, m: int)
    requires m >= 1 && Digit(x, m) < Digit(y, m)
    ensures x % (10 * m) < y % (10 * m)
  {
    LowDigits(x, m);
    LowDigits(y, m);
    var dx, dy := Digit(x, m), Digit(y, m);
    MulMono(dx + 1, dy, m);
    assert (dx + 1) * m == dx * m + m;
  }

  /** Within one bucket the digit at `m` is shared, so the order by values
      modulo `m` is the order by values modulo `10m`. */
  lemma SameDigitOrder(x: int, y: int, m: int)
    requires m >= 1 && Digit(x, m) == Digit(y, m) && x % m <= y % m
    ensures x % (10 * m) <= y % (10 * m)
  {
    LowDigits(x, m);
    LowDigits(y, m);
  }

  lemma {:induction false} CollectLowSorted(s: seq<int>, m: int, e: nat)
    requires m >= 1 && e <= 10 && LowSorted(s, m)
    ensures LowSorted(Collect(s, m, e), 10 * m)
    decreases 10 - e
  {
    if e < 10 {
      CollectLowSorted(s, m, e + 1);
      CollectDigitSorted(s, m, e + 1);
      BucketKeepsLowSorted(s, m, e, m);
      BucketMembers(s, m, e);
      var b, c := Bucket(s, m, e), Collect(s, m, e + 1);
      var r := b + c;
      assert Collect(s, m, e) == r;
      forall i, j | 0 <= i < j < |r|
        ensures r[i] % (10 * m) <= r[j] % (10 * m)
      {
        if j < |b| {
          assert r[i] == b[i] && r[j] == b[j];
          SameDigitOrder(r[i], r[j], m);
        } else if i >= |b| {
          assert r[i] == c[i - |b|] && r[j] == c[j - |b|];
        } else {
          assert r[i] == b[i] && r[j] == c[j - |b|];
          DigitDecides(r[i], r[j], m);
        }
      }
    }
  }

  /** A pass on the digit at `m` of an array ordered by its values modulo
      `m` leaves it ordered by its values modulo `10m`. */
  lemma PassExtendsOrder(s: seq<int>, m: int)
    requires m >= 1 && LowSorted(s, m)
    ensures LowSorted(CountingPass(s, m), 10 * m)
  {
    CollectLowSorted(s, m, 0);
  }

  // ---------------------------------------------------------------------
  // The whole sort

  /** One pass as a total function of the place value; both tables hold
      only positive place values, so the guard never applies to them. */
  function Pass(s: seq<int>, div: int): (r: seq<int>)
  {
    if div >= 1 then CountingPass(s, div) else s
  }

  /** The first `k` passes of `f` with place values `dict[0..k-1]`; the
      sort is `Iterate(Pass, arr, dict, max)`. */
  function Iterate(f: (seq<int>, int) -> seq<int>, s: seq<int>, dict: seq<int>, k: int): seq<int>
    requires k <= |dict|
    decreases k
  {
    if k <= 0 then s else f(Iterate(f, s, dict, k - 1), dict[k - 1])
  }

  /** Passes that each leave `s` alone leave it alone together. */
  lemma {:induction false} IterateKeeps(f: (seq<int>, int) -> seq<int>, s: seq<int>, dict: seq<int>, k: int)
    requires 0 <= k <= |dict|
    requires forall j :: 0 <= j < k ==> f(s, dict[j]) == s
    ensures Iterate(f, s, dict, k) == s
    decreases k
  {
    if k > 0 {
      IterateKeeps(f, s, dict, k - 1);
    }
  }

  /** Passes that each permute permute together. */
  lemma {:induction false} IteratePermutes(f: (seq<int>, int) -> seq<int>, s: seq<int>, dict: seq<int>, k: int)
    requires 0 <= k <= |dict|
    requires forall t, j :: 0 <= j < k ==> multiset(f(t, dict[j])) == multiset(t)
    ensures multiset(Iterate(f, s, dict, k)) == multiset(s)
    decreases k
  {
    if k > 0 {
      IteratePermutes(f, s, dict, k - 1);
    }
  }

  /** Passes that each order one more low digit order the `k` low digits. */
  lemma {:induction false} IterateOrders(f: (seq<int>, int) -> seq<int>, s: seq<int>, dict: seq<int>, k: int)
    requires 0 <= k <= |dict|
    requires forall t, j :: 0 <= j < k && LowSorted(t, Pow10(j)) ==> LowSorted(f(t, dict[j]), Pow10(j + 1))
    ensures LowSorted(Iterate(f, s, dict, k), Pow10(k))
    decreases k
  {
    if k > 0 {
      IterateOrders(f, s, dict, k - 1);
    } else {
      forall i, j | 0 <= i < j < |s|
        ensures s[i] % 1 <= s[j] % 1
      {
        DivModUnique(s[i], 1, s[i], 0);
        DivModUnique(s[j], 1, s[j], 0);
      }
    }
  }

  /** Ordered by values modulo `m` with every value in `[0, m)`: sorted. */
  lemma LowSortedIsSorted(r: seq<int>, m: int)
    requires m >= 1 && LowSorted(r, m) && forall i :: 0 <= i < |r| ==> 0 <= r[i] < m
    ensures SortedInts(r)
  {
    forall i | 0 <= i < |r|
      ensures r[i] % m == r[i]
    {
      DivModUnique(r[i], m, 0, r[i]);
    }
  }

  /** With the intended table, `k` passes sort values below 10^k and permute
      the input. */
  lemma PassesSort(s: seq<int>, k: int)
    requires 0 <= k <= 10 && forall i :: 0 <= i < |s| ==> 0 <= s[i] < Pow10(k)
    ensures multiset(Iterate(Pass, s, PowersOfTen, k)) == multiset(s)
    ensures SortedInts(Iterate(Pass, s, PowersOfTen, k))
  {
    forall t, j | 0 <= j < k
      ensures multiset(Pass(t, PowersOfTen[j])) == multiset(t)
    {
      PassPermutes(t, PowersOfTen[j]);
    }
    IteratePermutes(Pass, s, PowersOfTen, k);
    forall t, j | 0 <= j < k && LowSorted(t, Pow10(j))
      ensures LowSorted(Pass(t, PowersOfTen[j]), Pow10(j + 1))
    {
      PowersOfTenArePowers(j);
      PassExtendsOrder(t, PowersOfTen[j]);
    }
    IterateOrders(Pass, s, PowersOfTen, k);
    var r := Iterate(Pass, s, PowersOfTen, k);
    forall i | 0 <= i < |r|
      ensures 0 <= r[i] < Pow10(k)
    {
      assert r[i] in multiset(s);
    }
    LowSortedIsSorted(r, Pow10(k));
  }

  /** Every element of `s` has digit `d0` at place `div`. */
  ghost predicate AllDigit(s: seq<int>, div: int, d0: int)
    requires div >= 1
  {
    forall i :: 0 <= i < |s| ==> Digit(s[i], div) == d0
  }

  /** A pass over elements that share the examined digit changes nothing. */
  lemma SameDigitPass(s: seq<int>, div: int, d0: int)
    requires div >= 1 && AllDigit(s, div, d0)
    ensures CountingPass(s, div) == s
  {
    if s != [] {
      assert Digit(s[0], div) == d0;
    }
    SameDigitCollect(s, div, d0, 0);
  }

  lemma {:induction false} SameDigitBucket(s: seq<int>, div: int, d0: int, d: int)
    requires div >= 1 && forall i :: 0 <= i < |s| ==> Digit(s[i], div) == d0
    ensures Bucket(s, div, d) == if d == d0 then s else []
    decreases |s|
  {
    if s != [] {
      assert forall i :: 0 <= i < |s[1..]| ==> Digit(s[1..][i], div) == d0;
      SameDigitBucket(s[1..], div, d0, d);
      assert [s[0]] + s[1..] == s;
    }
  }

  lemma {:induction false} SameDigitCollect(s: seq<int>, div: int, d0: int, e: nat)
    requires div >= 1 && e <= 10 && forall i :: 0 <= i < |s| ==> Digit(s[i], div) == d0
    requires s == [] || 0 <= d0 < 10
    ensures Collect(s, div, e) == if e <= d0 then s else []
    decreases 10 - e
  {
    if e < 10 {
      SameDigitCollect(s, div, d0, e + 1);
      SameDigitBucket(s, div, d0, e);
    }
  }

  /** With the table as written, the passes never examine the digit at
      place 10^5, so two values below 10^6 that differ only there stay in
      input order. */
  lemma AsWrittenLeavesUnsorted(s: seq<int>, max: int)
    requires s == [100000, 0] && max == 6
    ensures forall i :: 0 <= i < |s| ==> 0 <= s[i] < Pow10(max)
    ensures Iterate(Pass, s, RadixDict, max) == s && !SortedInts(Iterate(Pass, s, RadixDict, max))
  {
    assert Pow10(6) == 1000000;
    forall j | 0 <= j < max
      ensures Pass(s, RadixDict[j]) == s
    {
      AsWrittenPassKeeps(s, j);
    }
    IterateKeeps(Pass, s, RadixDict, max);
    assert s[0] > s[1];
  }

  lemma AsWrittenPassKeeps(s: seq<int>, j: int)
    requires s == [100000, 0] && 0 <= j < 6
    ensures Pass(s, RadixDict[j]) == s
  {
    var div := RadixDict[j];
    assert Digit(100000, div) == 0 by {
      assert div in {1, 10, 100, 1000, 10000, 1000000};
    }
    assert AllDigit(s, div, 0);
    SameDigitPass(s, div, 0);
  }

  // ---------------------------------------------------------------------
  // The counting-sort pass as `RadixSort.sort` performs it

  lemma BelowMono(s: seq<int>, div: int, d: int, e: int)
    requires div >= 1 && d <= e
    ensures Below(s, div, d) <= Below(s, div, e)
    decreases e - d
  {
    if d < e {
      BelowMono(s, div, d, e - 1);
    }
  }

  lemma BelowBound(s: seq<int>, div: int, d: int)
    requires div >= 1 && 0 <= d <= 10
    ensures Below(s, div, d) <= |s|
  {
    CollectLength(s, div, d);
  }

  /** Appending `x` adds it to its own bucket only. */
  lemma BucketSnoc(s: seq<int>, i: int, div: int, d: int)
    requires div >= 1 && 0 <= i < |s|
    ensures Bucket(s[..i + 1], div, d) == Bucket(s[..i], div, d) + (if Digit(s[i], div) == d then [s[i]] else [])
  {
    assert s[..i + 1] == s[..i] + [s[i]];
    BucketConcat(s[..i], [s[i]], div, d);
    assert [s[i]][1..] == [];
  }

  /** Prepending `x` adds it to its own bucket only. */
  lemma BucketCons(s: seq<int>, i: int, div: int, d: int)
    requires div >= 1 && 0 <= i < |s|
    ensures Bucket(s[i..], div, d) == (if Digit(s[i], div) == d then [s[i]] else []) + Bucket(s[i + 1..], div, d)
  {
    assert s[i..][1..] == s[i + 1..];
  }

  lemma {:induction false} BucketNone(s: seq<int>, div: int, d: int)
    requires div >= 1 && forall i :: 0 <= i < |s| ==> Digit(s[i], div) != d
    ensures Bucket(s, div, d) == []
    decreases |s|
  {
    if s != [] {
      assert forall i :: 0 <= i < |s[1..]| ==> Digit(s[1..][i], div) != d;
      BucketNone(s[1..], div, d);
    }
  }

  /** Bucket `d` while `arr[..i]` is still to place: `count[d]` is one past
      the slot of its next element, and the rest of the bucket already
      sits above that slot, up to the end of the bucket's block. */
  ghost predicate PlacingAt(arr: seq<int>, div: int, count: seq<int>, b: seq<int>, i: int, d: int)
    requires div >= 1 && 0 <= i <= |arr| && 0 <= d < |count|
  {
    count[d] == Below(arr, div, d) + |Bucket(arr[..i], div, d)| &&
    count[d] <= Below(arr, div, d + 1) <= |b| &&
    b[count[d]..Below(arr, div, d + 1)] == Bucket(arr[i..], div, d)
  }

  /** The state of the back-to-front loop, for every digit. */
  ghost predicate Placing(arr: seq<int>, div: int, count: seq<int>, b: seq<int>, i: int)
    requires div >= 1 && 0 <= i <= |arr|
  {
    forall d :: 0 <= d < |count| && d < 10 ==> PlacingAt(arr, div, count, b, i, d)
  }

  /** Before the loop every block is empty of placed elements. */
  lemma PlacingStart(arr: seq<int>, div: int, count: seq<int>, b: seq<int>)
    requires div >= 1 && |b| == |arr|
    requires forall d :: 0 <= d < |count| && d < 10 ==> count[d] == Below(arr, div, d + 1)
    ensures Placing(arr, div, count, b, |arr|)
  {
    assert arr[..|arr|] == arr;
    forall d | 0 <= d < |count| && d < 10
      ensures PlacingAt(arr, div, count, b, |arr|, d)
    {
      BelowBound(arr, div, d + 1);
      assert Bucket(arr[|arr|..], div, d) == [];
    }
  }

  /** The bucket of the element being placed, digit `j`: its slot `c` lies
      in its block and its slice grows by the element. */
  lemma PlaceOwn(arr: seq<int>, div: int, count: seq<int>, b: seq<int>, i: int, j: int, c: int)
    requires div >= 1 && 0 < i <= |arr| && j == Digit(arr[i - 1], div) && 0 <= j < |count|
    requires c == count[j] - 1 && PlacingAt(arr, div, count, b, i, j)
    ensures Below(arr, div, j) <= c < Below(arr, div, j + 1) <= |b|
    ensures PlacingAt(arr, div, count[j := c], b[c := arr[i - 1]], i - 1, j)
  {
    var x, hi := arr[i - 1], Below(arr, div, j + 1);
    BucketSnoc(arr, i - 1, div, j);
    assert |Bucket(arr[..i], div, j)| == |Bucket(arr[..i - 1], div, j)| + 1;
    BucketCons(arr, i - 1, div, j);
    assert Bucket(arr[i - 1..], div, j) == [x] + Bucket(arr[i..], div, j);
    UpdateFront(b, c, x, hi);
  }

  lemma UpdateFront(b: seq<int>, c: int, x: int, hi: int)
    requires 0 <= c < hi <= |b|
    ensures b[c := x][c..hi] == [x] + b[c + 1..hi]
  {
    assert b[c := x][c..hi][1..] == b[c + 1..hi];
  }

  /** Another bucket: its count and its slice are untouched. */
  lemma PlaceOther(arr: seq<int>, div: int, count: seq<int>, b: seq<int>, i: int, j: int, c: int, d: int)
    requires div >= 1 && 0 < i <= |arr| && j == Digit(arr[i - 1], div) && 0 <= j < |count|
    requires c == count[j] - 1 && Below(arr, div, j) <= c < Below(arr, div, j + 1) <= |b|
    requires 0 <= d < |count| && d < 10 && d != j && PlacingAt(arr, div, count, b, i, d)
    ensures PlacingAt(arr, div, count[j := c], b[c := arr[i - 1]], i - 1, d)
  {
    OtherBucketsKeep(arr, i, div, d);
    BlocksApart(arr, div, count, b, i, d, j, c);
    UpdateOutside(b, c, arr[i - 1], count[d], Below(arr, div, d + 1));
  }

  /** Placing an element with another digit leaves bucket `d`'s pieces as they are. */
  lemma OtherBucketsKeep(arr: seq<int>, i: int, div: int, d: int)
    requires div >= 1 && 0 < i <= |arr| && d != Digit(arr[i - 1], div)
    ensures Bucket(arr[..i - 1], div, d) == Bucket(arr[..i], div, d)
    ensures Bucket(arr[i - 1..], div, d) == Bucket(arr[i..], div, d)
  {
    BucketSnoc(arr, i - 1, div, d);
    BucketCons(arr, i - 1, div, d);
  }

  /** The slot `c` in block `j` lies outside bucket `d`'s placed slice. */
  lemma BlocksApart(arr: seq<int>, div: int, count: seq<int>, b: seq<int>, i: int, d: int, j: int, c: int)
    requires div >= 1 && 0 <= i <= |arr| && 0 <= d < |count| && d != j && 0 <= j
    requires PlacingAt(arr, div, count, b, i, d)
    requires Below(arr, div, j) <= c < Below(arr, div, j + 1)
    ensures c < count[d] || Below(arr, div, d + 1) <= c
  {
    if d < j {
      BelowMono(arr, div, d + 1, j);
    } else {
      BelowMono(arr, div, j + 1, d);
    }
  }

  lemma UpdateOutside(b: seq<int>, c: int, x: int, lo: int, hi: int)
    requires 0 <= c < |b| && 0 <= lo <= hi <= |b| && (c < lo || hi <= c)
    ensures b[c := x][lo..hi] == b[lo..hi]
  {
  }

  /** Placing `arr[i-1]`, whose digit is `j`, at slot `c = count[j] - 1`
      keeps the loop state. */
  lemma PlaceStep(arr: seq<int>, div: int, count: seq<int>, b: seq<int>, i: int, j: int, c: int)
    requires div >= 1 && 0 < i <= |arr| && Placing(arr, div, count, b, i)
    requires j == Digit(arr[i - 1], div) && 0 <= j < |count| && c == count[j] - 1
    ensures 0 <= c < |b| && Placing(arr, div, count[j := c], b[c := arr[i - 1]], i - 1)
  {
    assert PlacingAt(arr, div, count, b, i, j);
    PlaceOwn(arr, div, count, b, i, j, c);
    var count', b', i' := count[j := c], b[c := arr[i - 1]], i - 1;
    forall d | 0 <= d < |count'| && d < 10
      ensures PlacingAt(arr, div, count', b', i', d)
    {
      if d != j {
        PlaceOther(arr, div, count, b, i, j, c, d);
      }
    }
  }

  /** With no element left to place, every bucket is in its block. */
  lemma PlacedAll(arr: seq<int>, div: int, count: seq<int>, b: seq<int>)
    requires div >= 1 && |b| == |arr| && Placing(arr, div, count, b, 0)
    requires forall i :: 0 <= i < |arr| ==> Digit(arr[i], div) < |count|
    ensures b == CountingPass(arr, div)
  {
    assert arr[0..] == arr;
    forall d | 0 <= d < 10
      ensures BlockAt(b, arr, div, d)
    {
      if d < |count| {
        assert PlacingAt(arr, div, count, b, 0, d);
      } else {
        BucketNone(arr, div, d);
        BelowBound(arr, div, d);
      }
    }
    BlocksDetermine(b, arr, div, 0);
  }

  /** Every digit of `s` at place `div` is a valid index of a count array
      of `width` entries. */
  ghost predicate DigitsBelow(s: seq<int>, div: int, width: int)
    requires div >= 1
  {
    forall i :: 0 <= i < |s| ==> Digit(s[i], div) < width
  }

  lemma DigitsBelowPerm(s: seq<int>, r: seq<int>, div: int, width: int)
    requires div >= 1 && multiset(r) == multiset(s) && DigitsBelow(s, div, width)
    ensures DigitsBelow(r, div, width)
  {
    forall i | 0 <= i < |r|
      ensures Digit(r[i], div) < width
    {
      assert r[i] in multiset(s);
      var k :| 0 <= k < |s| && s[k] == r[i];
    }
  }

  /** The first two loops of a pass: `count[d]` ends as the number of
      elements whose digit is at most `d`. */
  method CountDigits(arr: seq<int>, div: int, width: int) returns (count: seq<int>)
    requires div >= 1 && width >= 0
    requires forall i :: 0 <= i < |arr| ==> Digit(arr[i], div) < width
    ensures |count| == width
    ensures forall d :: 0 <= d < width && d < 10 ==> count[d] == Below(arr, div, d + 1)
  {
    count := seq(width, _ => 0);
    var i := 0;
    while i < |arr|
      invariant 0 <= i <= |arr| && |count| == width
      invariant forall d :: 0 <= d < width ==> count[d] == |Bucket(arr[..i], div, d)|
    {
      var dg := Digit(arr[i], div);
      forall d | 0 <= d < width
        ensures |Bucket(arr[..i + 1], div, d)| == |Bucket(arr[..i], div, d)| + (if dg == d then 1 else 0)
      {
        BucketSnoc(arr, i, div, d);
      }
      count := count[dg := count[dg] + 1];
      i := i + 1;
    }
    assert arr[..|arr|] == arr;
    i := 1;
    while i < width
      invariant |count| == width && (width == 0 || 1 <= i <= width)
      invariant forall d :: 0 <= d < width && d < 10 ==>
        count[d] == if d < i then Below(arr, div, d + 1) else |Bucket(arr, div, d)|
    {
      count := count[i := count[i] + count[i - 1]];
      i := i + 1;
    }
  }

  /** One pass of `sort` with a count array of `width` entries: count the
      digits, turn the counts into block ends, place the elements back to
      front, copy back. `sort` indexes the count array by digit, so
      every digit must be below `width`. */
  method CountingSortPass(arr: seq<int>, div: int, width: int) returns (r: seq<int>)
    requires div >= 1 && width >= 0 && DigitsBelow(arr, div, width)
    ensures r == CountingPass(arr, div)
  {
    var count := CountDigits(arr, div, width);
    var b := seq(|arr|, _ => 0);
    var i := |arr|;
    PlacingStart(arr, div, count, b);
    while i > 0
      invariant 0 <= i <= |arr| && |b| == |arr| && |count| == width
      invariant Placing(arr, div, count, b, i)
    {
      var j := Digit(arr[i - 1], div);
      var c := count[j] - 1;
      PlaceStep(arr, div, count, b, i, j, c);
      b := b[c := arr[i - 1]];
      count := count[j := c];
      i := i - 1;
    }
    PlacedAll(arr, div, count, b);
    r := b;
  }

  // ---------------------------------------------------------------------
  // The sort

  /** Tables that agree on their first `k` entries give the same passes. */
  lemma {:induction false} IterateAgree(f: (seq<int>, int) -> seq<int>, s: seq<int>, d1: seq<int>, d2: seq<int>, k: int)
    requires 0 <= k <= |d1| && k <= |d2| && d1[..k] == d2[..k]
    ensures Iterate(f, s, d1, k) == Iterate(f, s, d2, k)
    decreases k
  {
    if k > 0 {
      assert d1[..k - 1] == d1[..k][..k - 1];
      assert d2[..k - 1] == d2[..k][..k - 1];
      assert d1[k - 1] == d1[..k][k - 1];
      assert d2[k - 1] == d2[..k][k - 1];
      IterateAgree(f, s, d1, d2, k - 1);
    }
  }

  lemma IterateStep(f: (seq<int>, int) -> seq<int>, s: seq<int>, dict: seq<int>, k: int)
    requires 0 <= k < |dict|
    ensures Iterate(f, s, dict, k + 1) == f(Iterate(f, s, dict, k), dict[k])
  {
  }

  /** The number of passes the loop `for (k = 1; k <= max; k++)` makes. */
  function Passes(max: int): (n: nat)
    ensures n <= 0 <==> max <= 0
    ensures max >= 0 ==> n == max
  {
    if max < 0 then 0 else max
  }

  /** `sort(arr, max)` with a count array of `width` entries and the place
      values `dict`: pass `k + 1` of `sort` examines place `dict[k]`. */
  method SortWith(arr: seq<int>, max: int, dict: seq<int>, width: int) returns (r: seq<int>)
    requires max <= |dict| && width >= 0
    requires forall j :: 0 <= j < max ==> dict[j] >= 1 && DigitsBelow(arr, dict[j], width)
    ensures r == Iterate(Pass, arr, dict, max)
    ensures multiset(r) == multiset(arr)
  {
    r := RunPasses(arr, Passes(max), dict, width);
    IterateNone(Pass, arr, dict, max);
  }

  /** The loop over `k` of `sort`, running `n` passes. */
  method RunPasses(arr: seq<int>, n: nat, dict: seq<int>, width: int) returns (r: seq<int>)
    requires n <= |dict| && width >= 0
    requires forall j :: 0 <= j < n ==> dict[j] >= 1 && DigitsBelow(arr, dict[j], width)
    ensures r == Iterate(Pass, arr, dict, n)
    ensures multiset(r) == multiset(arr)
  {
    r := arr;
    var k := 0;
    while k < n
      invariant 0 <= k <= n
      invariant r == Iterate(Pass, arr, dict, k)
      invariant multiset(r) == multiset(arr)
    {
      var div := dict[k];
      DigitsBelowPerm(arr, r, div, width);
      var r' := CountingSortPass(r, div, width);
      PassPermutes(r, div);
      IterateStep(Pass, arr, dict, k);
      r := r';
      k := k + 1;
    }
  }

  /** No passes run when `max` is not positive. */
  lemma IterateNone(f: (seq<int>, int) -> seq<int>, s: seq<int>, dict: seq<int>, max: int)
    requires max <= |dict|
    ensures Iterate(f, s, dict, max) == Iterate(f, s, dict, Passes(max))
  {
  }

  /** `sort` with the intended table and a count array with one entry per
      decimal digit: a permutation, and sorted when `max` covers the
      digits of every value. */
  method Sort(arr: seq<int>, max: int) returns (r: seq<int>)
    requires max <= 10 && forall i :: 0 <= i < |arr| ==> arr[i] >= 0
    ensures multiset(r) == multiset(arr)
    ensures (forall i :: 0 <= i < |arr| ==> arr[i] < Pow10(Passes(max))) ==> SortedInts(r)
  {
    forall j | 0 <= j < max
      ensures PowersOfTen[j] >= 1 && DigitsBelow(arr, PowersOfTen[j], 10)
    {
    }
    r := SortWith(arr, max, PowersOfTen, 10);
    if forall i :: 0 <= i < |arr| ==> arr[i] < Pow10(Passes(max)) {
      PassesSort(arr, Passes(max));
    }
  }

  /** `sort` as written: `RADIX_DICT` and a count array of `arr.length`
      entries, which `sort` indexes by digit, so it runs only when
      every digit it reads is below the array's length. It agrees with the
      intended sort up to five digits. */
  method SortAsWritten(arr: seq<int>, max: int) returns (r: seq<int>)
    requires max <= 10 && forall i :: 0 <= i < |arr| ==> arr[i] >= 0
    requires forall j :: 0 <= j < max ==> DigitsBelow(arr, RadixDict[j], |arr|)
    ensures r == Iterate(Pass, arr, RadixDict, max)
    ensures multiset(r) == multiset(arr)
    ensures max <= 5 && (forall i :: 0 <= i < |arr| ==> arr[i] < Pow10(Passes(max))) ==> SortedInts(r)
  {
    forall j | 0 <= j < max
      ensures RadixDict[j] >= 1
    {
    }
    r := SortWith(arr, max, RadixDict, |arr|);
    if max <= 5 && forall i :: 0 <= i < |arr| ==> arr[i] < Pow10(Passes(max)) {
      AsWrittenAgrees(arr, Passes(max));
      PassesSort(arr, Passes(max));
    }
  }

  /** Up to five passes, the written table is the intended one. */
  lemma AsWrittenAgrees(s: seq<int>, k: int)
    requires 0 <= k <= 5
    ensures Iterate(Pass, s, RadixDict, k) == Iterate(Pass, s, PowersOfTen, k)
  {
    assert RadixDict[..k] == PowersOfTen[..k] by {
      assert RadixDict[..5] == PowersOfTen[..5];
      assert RadixDict[..k] == RadixDict[..5][..k];
      assert PowersOfTen[..k] == PowersOfTen[..5][..k];
    }
    IterateAgree(Pass, s, RadixDict, PowersOfTen, k);
  }

  /** With a count array of `arr.length` entries, sorting `[5]` by one digit
      reads `count[5]` of a one-entry array. */
  lemma AsWrittenCountTooShort(arr: seq<int>)
    requires arr == [5]
    ensures !DigitsBelow(arr, RadixDict[0], |arr|)
  {
    assert Digit(arr[0], RadixDict[0]) == 5;
  }
}

=== FILE: select_sort.dfy ===
/** Selection sort: the one-ended version that moves the smallest remaining
    element to the front of the unsorted range, and the two-ended version
    that per round also moves the largest one to the back. Neither is
    stable: the swap that places the selected element can jump it over
    equal keys. */
module SelectSort {
  import opened BaseSort

  // ---------------------------------------------------------------------
  // Selection scans

  /** The inner loop of `sort`: the index of the first minimum of `a[lo..hi]`. */
  method MinIndex(a: seq<Item>, lo: int, hi: int) returns (m: int)
    requires 0 <= lo <= hi < |a|
    ensures lo <= m <= hi
    ensures AllAtLeast(a, lo, hi, a[m].key)
    ensures forall p :: lo <= p < m ==> a[m].key < a[p].key
  {
    m := lo;
    var j := lo + 1;
    while j <= hi
      invariant lo <= m < j <= hi + 1
      invariant AllAtLeast(a, lo, j - 1, a[m].key)
      invariant forall p :: lo <= p < m ==> a[m].key < a[p].key
    {
      if Less(a[j], a[m]) {
        m := j;
      }
      j := j + 1;
    }
  }

  /** The inner loop of `sortBilaterally`: the indices of the first minimum
      and of the first maximum of `a[lo..hi]`, found in one scan. */
  method MinMaxIndex(a: seq<Item>, lo: int, hi: int) returns (min: int, max: int)
    requires 0 <= lo <= hi < |a|
    ensures lo <= min <= hi && lo <= max <= hi
    ensures AllAtLeast(a, lo, hi, a[min].key) && AllAtMost(a, lo, hi, a[max].key)
    ensures forall p :: lo <= p < min ==> a[min].key < a[p].key
    ensures forall p :: lo <= p < max ==> a[p].key < a[max].key
  {
    min, max := lo, lo;
    var j := lo + 1;
    while j <= hi
      invariant lo <= min < j <= hi + 1 && lo <= max < j
      invariant AllAtLeast(a, lo, j - 1, a[min].key) && AllAtMost(a, lo, j - 1, a[max].key)
      invariant forall p :: lo <= p < min ==> a[min].key < a[p].key
      invariant forall p :: lo <= p < max ==> a[p].key < a[max].key
    {
      if Less(a[j], a[min]) {
        min := j;
      }
      if Less(a[max], a[j]) {
        max := j;
      }
      j := j + 1;
    }
  }

  // ---------------------------------------------------------------------
  // One-ended selection

  /** Swapping the minimum of the rest to position `i` extends the selected prefix. */
  lemma {:induction false} SelectStep(a: seq<Item>, i: int, m: int)
    requires 0 <= i <= m < |a| && SettledBelow(a, i) && AllAtLeast(a, i, |a| - 1, a[m].key)
    ensures SettledBelow(Exch(a, i, m), i + 1)
  {
    var r := Exch(a, i, m);
    assert r[i] == a[m];
    forall p, q | 0 <= p < q <= i
      ensures r[p].key <= r[q].key
    {
      if q < i {
        assert r[p] == a[p] && r[q] == a[q];
      } else {
        assert r[p] == a[p];
        assert a[p].key <= a[i - 1].key <= a[m].key;
      }
    }
    forall k | i + 1 <= k < |r|
      ensures r[i].key <= r[k].key
    {
      if k == m {
        assert r[k] == a[i];
      } else {
        assert r[k] == a[k];
      }
    }
  }

  /** `sort`: selection sort. The result is sorted and a permutation of the input. */
  method Sort(a: seq<Item>) returns (r: seq<Item>)
    ensures |r| == |a| && Sorted(r) && multiset(r) == multiset(a)
  {
    r := a;
    var i := 0;
    while i < |r|
      invariant |r| == |a| && 0 <= i <= |r|
      invariant multiset(r) == multiset(a)
      invariant SettledBelow(r, i)
    {
      var min := MinIndex(r, i, |r| - 1);
      SelectStep(r, i, min);
      r := Exch(r, i, min);
      i := i + 1;
    }
  }

  // ---------------------------------------------------------------------
  // Two-ended selection

  /** Outside the unsorted window `[left, right]` the array is final. */
  ghost predicate Window(a: seq<Item>, left: int, right: int) {
    SettledBelow(a, left) && SettledAbove(a, right)
  }

  /** One round's swaps as `sortBilaterally` performs them: the minimum to `left`,
      then the maximum, whose index is corrected if the first swap moved it,
      to `right`. */
  function EndsSwap(a: seq<Item>, left: int, right: int, min: int, max: int): (r: seq<Item>)
    requires 0 <= left < right < |a| && left <= min <= right && left <= max <= right
    ensures SameOutside(a, r, left, right) && PermRange(a, r, left, right)
    ensures multiset(r) == multiset(a)
  {
    var r1 := if min != left then Exch(a, min, left) else a;
    var max' := if max == left then min else max;
    var r2 := if max' != right then Exch(r1, max', right) else r1;
    WholeToPermRange(a, r2, left, right);
    r2
  }

  /** After the swaps the window's ends hold its minimum and its maximum,
      including when the maximum started at `left` and when the minimum and
      maximum coincide. */
  lemma EndsSwapPlacesExtremes(a: seq<Item>, left: int, right: int, min: int, max: int)
    requires 0 <= left < right < |a| && left <= min <= right && left <= max <= right
    requires AllAtLeast(a, left, right, a[min].key) && AllAtMost(a, left, right, a[max].key)
    ensures AllAtLeast(EndsSwap(a, left, right, min, max), left, right,
                       EndsSwap(a, left, right, min, max)[left].key)
    ensures AllAtMost(EndsSwap(a, left, right, min, max), left, right,
                      EndsSwap(a, left, right, min, max)[right].key)
  {
    var r := EndsSwap(a, left, right, min, max);
    PermRangeKeepsLower(a, r, left, right, a[min].key);
    PermRangeKeepsUpper(a, r, left, right, a[max].key);
    var r1 := if min != left then Exch(a, min, left) else a;
    var max' := if max == left then min else max;
    assert r1[left] == a[min];
    assert r1[max'].key == a[max].key;
    assert r[right].key == a[max].key;
    if max' == left {
      assert a[min].key == a[max].key;
      assert r[left].key == a[min].key;
    } else {
      assert r[left] == a[min];
    }
  }

  /** A round shrinks the window by one at each end. */
  lemma WindowStep(a: seq<Item>, left: int, right: int, min: int, max: int)
    requires 0 <= left < right < |a| && left <= min <= right && left <= max <= right
    requires AllAtLeast(a, left, right, a[min].key) && AllAtMost(a, left, right, a[max].key)
    requires Window(a, left, right)
    ensures Window(EndsSwap(a, left, right, min, max), left + 1, right - 1)
  {
    var r := EndsSwap(a, left, right, min, max);
    EndsSwapPlacesExtremes(a, left, right, min, max);
    if left >= 1 {
      PermRangeKeepsLower(a, r, left, right, a[left - 1].key);
    }
    if right + 1 < |a| {
      PermRangeKeepsUpper(a, r, left, right, a[right + 1].key);
    }
    WindowGrowsLeft(a, r, left, right);
    WindowGrowsRight(a, r, left, right);
  }

  lemma {:induction false} WindowGrowsLeft(a: seq<Item>, r: seq<Item>, left: int, right: int)
    requires 0 <= left < right < |a| && SameOutside(a, r, left, right) && Window(a, left, right)
    requires AllAtLeast(r, left, right, r[left].key)
    requires left >= 1 ==> AllAtLeast(r, left, right, a[left - 1].key)
    requires right + 1 < |a| ==> AllAtMost(r, left, right, a[right + 1].key)
    ensures SortedRange(r, 0, left) && AllAtLeast(r, left + 1, |r| - 1, r[left].key)
  {
    forall p, q | 0 <= p < q <= left
      ensures r[p].key <= r[q].key
    {
      if q < left {
        assert r[p] == a[p] && r[q] == a[q];
      } else {
        assert r[p] == a[p];
      }
    }
    forall k | left + 1 <= k < |r|
      ensures r[left].key <= r[k].key
    {
      if right < k {
        assert r[k] == a[k];
        assert r[left].key <= a[right + 1].key;
      }
    }
  }

  lemma {:induction false} WindowGrowsRight(a: seq<Item>, r: seq<Item>, left: int, right: int)
    requires 0 <= left < right < |a| && SameOutside(a, r, left, right) && Window(a, left, right)
    requires AllAtMost(r, left, right, r[right].key)
    requires left >= 1 ==> AllAtLeast(r, left, right, a[left - 1].key)
    requires right + 1 < |a| ==> AllAtMost(r, left, right, a[right + 1].key)
    ensures SortedRange(r, right, |r| - 1) && AllAtMost(r, 0, right - 1, r[right].key)
  {
    forall p, q | right <= p < q < |r|
      ensures r[p].key <= r[q].key
    {
      if right < p {
        assert r[p] == a[p] && r[q] == a[q];
      } else {
        assert r[q] == a[q];
      }
    }
    forall k | 0 <= k <= right - 1
      ensures r[k].key <= r[right].key
    {
      if k < left {
        assert r[k] == a[k];
        assert a[k].key <= a[left - 1].key <= r[right].key;
      }
    }
  }

  /** One round of `sortBilaterally`: find the window's minimum and
      maximum and move them to its ends. */
  method BilateralRound(a: seq<Item>, left: int, right: int) returns (r: seq<Item>)
    requires 0 <= left < right < |a| && Window(a, left, right)
    ensures |r| == |a| && multiset(r) == multiset(a)
    ensures Window(r, left + 1, right - 1)
  {
    var min, max := MinMaxIndex(a, left, right);
    WindowStep(a, left, right, min, max);
    r := EndsSwap(a, left, right, min, max);
  }

  /** `sortBilaterally`: two-ended selection sort. The result is sorted and
      a permutation of the input. */
  method SortBilaterally(a: seq<Item>) returns (r: seq<Item>)
    ensures |r| == |a| && Sorted(r) && multiset(r) == multiset(a)
  {
    r := a;
    var left, right := 0, |a| - 1;
    while left < right
      invariant |r| == |a| && multiset(r) == multiset(a)
      invariant left + right == |a| - 1 && 0 <= left && right < |a|
      invariant right + 1 >= left
      invariant Window(r, left, right)
      decreases right - left
    {
      r := BilateralRound(r, left, right);
      left, right := left + 1, right - 1;
    }
    SettledAroundSorted(r, left, right);
  }
}

=== FILE: shell_sort.dfy ===
/** Shell sort: gapped insertion passes over a shrinking gap sequence
    1, step + 1, step * (step + 1) + 1, ... that ends with a plain insertion
    pass (gap 1). `ShellSort` keeps `step` in a public static field (3); here
    it is a parameter. */
module ShellSort {
  import opened BaseSort

  /** The initial value of `ShellSort`'s public static `step` field. */
  const DefaultStep := 3

  /** The `k`-th gap: 1, then `step * h + 1` for each next one. */
  function Gap(k: nat, step: int): (h: int)
    requires step >= 1
    ensures h >= k + 1
  {
    if k == 0 then 1 else step * Gap(k - 1, step) + 1
  }

  /** Integer division by `step` walks the gap sequence back one place,
      and takes the first gap, 1, to 0. This needs `step >= 2`; see
      `StepOneStalls` for `step` equal to 1. */
  lemma GapRetrace(k: nat, step: int)
    requires step >= 2
    ensures Gap(k + 1, step) / step == Gap(k, step)
    ensures Gap(0, step) / step == 0
    ensures Gap(k + 1, step) > step
  {
    var g := Gap(k, step);
    assert Gap(k + 1, step) == step * g + 1;
    DivOfMultiplePlusOne(g, step);
    DivOfMultiplePlusOne(0, step);
    MulAtLeast(step, g);
  }

  /** `(step * g + 1) / step == g`: the remainder of `step * g + 1` is 1. */
  lemma DivOfMultiplePlusOne(g: int, step: int)
    requires step >= 2 && g >= 0
    ensures (step * g + 1) / step == g
  {
    var x := step * g + 1;
    var q, r := x / step, x % step;
    assert x == step * q + r && 0 <= r < step;
    assert step * (g - q) == r - 1;
    if g - q > 0 {
      MulAtLeast(step, g - q);
    } else if g - q < 0 {
      MulAtLeast(step, q - g);
    }
  }

  lemma MulAtLeast(x: int, y: int)
    requires x >= 0 && y >= 1
    ensures x * y >= x
  {
  }

  /** With `step` equal to 1, `h /= step` leaves the gap as it is: after
      any number of rounds of the outer loop the gap is still at least 1, so
      the loop `while (h >= 1)` never ends. */
  lemma {:induction false} StepOneStalls(h: int, rounds: nat)
    requires h >= 1
    ensures DivideRounds(h, 1, rounds) == h
    decreases rounds
  {
    if rounds > 0 {
      StepOneStalls(h / 1, rounds - 1);
    }
  }

  /** The gap after `rounds` executions of `h /= step`. */
  function DivideRounds(h: int, step: int, rounds: nat): int
    requires step >= 1
    decreases rounds
  {
    if rounds == 0 then h else DivideRounds(h / step, step, rounds - 1)
  }

  /** The growth loop `while (h < len / step) h = step * h + 1`: the largest
      gap it reaches is the first gap that is not below `len / step`. */
  method MaxGap(len: nat, step: int) returns (h: int, ghost k: nat)
    requires step >= 2
    ensures h == Gap(k, step) && h >= len / step
    ensures k > 0 ==> Gap(k - 1, step) < len / step
  {
    var limit := len / step;
    assert limit <= len by {
      DivAtMost(len, step);
    }
    h, k := 1, 0;
    while h < limit
      invariant h == Gap(k, step)
      invariant k > 0 ==> Gap(k - 1, step) < limit
      decreases len - k
    {
      h, k := step * h + 1, k + 1;
    }
  }

  lemma DivAtMost(x: nat, d: int)
    requires d >= 1
    ensures x / d <= x
  {
  }

  /** Every element is in order with the one `h` places before it. */
  ghost predicate HSorted(a: seq<Item>, h: int) {
    forall p :: 0 <= h <= p < |a| ==> a[p - h].key <= a[p].key
  }

  /** The inner loop `for (j = i; j >= h && less(a[j], a[j-h]); j -= h) exch(a, j, j-h)`:
      sinks `a[i]` down its chain of positions `h` apart. */
  method GapSink(a: seq<Item>, h: int, i: int) returns (r: seq<Item>)
    requires 1 <= h <= i < |a|
    requires forall p :: h <= p < i ==> a[p - h].key <= a[p].key
    ensures |r| == |a| && multiset(r) == multiset(a)
    ensures forall p :: h <= p <= i ==> r[p - h].key <= r[p].key
  {
    r := a;
    var j := i;
    while j >= h && Less(r[j], r[j - h])
      invariant 0 <= j <= i && |r| == |a| && multiset(r) == multiset(a)
      invariant forall p :: h <= p <= i && p != j ==> r[p - h].key <= r[p].key
      invariant j + h <= i && j - h >= 0 ==> r[j - h].key <= r[j + h].key
      decreases j
    {
      r := Exch(r, j, j - h);
      j := j - h;
    }
  }

  /** One gap pass `for (i = h; i < len; ++i)`: afterwards the array is
      `h`-sorted. Only `exch` writes, so the multiset is kept. */
  method HSortPass(a: seq<Item>, h: int) returns (r: seq<Item>)
    requires h >= 1
    ensures HSorted(r, h) && multiset(r) == multiset(a)
  {
    r := a;
    var i := h;
    while i < |r|
      invariant |r| == |a| && multiset(r) == multiset(a)
      invariant h <= i && (i <= |r| || i == h)
      invariant forall p :: h <= p < i && p < |r| ==> r[p - h].key <= r[p].key
    {
      r := GapSink(r, h, i);
      i := i + 1;
    }
  }

  /** A 1-sorted array is sorted. */
  lemma OneSortedIsSorted(a: seq<Item>)
    requires HSorted(a, 1)
    ensures Sorted(a)
  {
    assert AdjacentSorted(a, 0, |a| - 1) by {
      forall i | 0 < i <= |a| - 1 && 0 < i < |a|
        ensures !Less(a[i], a[i - 1])
      {
        assert a[i - 1].key <= a[i].key;
      }
    }
    AdjacentSortedIsSorted(a, 0, |a| - 1);
  }

  /** `sort(a)`: grow the gap, then run a gapped pass for each gap back down
      the sequence; the last pass has gap 1, so the result is a sorted
      permutation. A negative `step` makes `len / step` at most 0, so the
      gap stays 1, and after the one pass `h /= step` truncates it to 0 or
      -1. A `step` of 0 divides by zero, and a `step` of 1 never ends (see
      `StepOneStalls`). */
  method Sort(a: seq<Item>, step: int) returns (r: seq<Item>)
    requires step >= 2 || step < 0
    ensures Sorted(r) && multiset(r) == multiset(a)
  {
    if step < 0 {
      r := HSortPass(a, 1);
      OneSortedIsSorted(r);
      return;
    }
    var h;
    ghost var k: int;
    h, k := MaxGap(|a|, step);
    r := a;
    while h >= 1
      invariant -1 <= k && h == (if k < 0 then 0 else Gap(k, step))
      invariant multiset(r) == multiset(a)
      invariant k < 0 ==> Sorted(r)
      decreases k
    {
      r := HSortPass(r, h);
      if k == 0 {
        OneSortedIsSorted(r);
        GapRetrace(0, step);
      } else {
        GapRetrace(k - 1, step);
      }
      h := h / step;
      k := k - 1;
    }
  }
}

=== FILE: text.dfy ===
/** Strings as the searching algorithms see them: sequences of UTF-16 code
    units, each an `int`, looked up in tables indexed by code unit. */
module Text {
  /** Every code unit of `s` indexes a table of `r` entries. */
  ghost predicate InAlphabet(s: seq<int>, r: int) {
    forall i :: 0 <= i < |s| ==> 0 <= s[i] < r
  }

  /** `pat` occurs in `txt` at offset `p`. */
  ghost predicate MatchAt(pat: seq<int>, txt: seq<int>, p: int) {
    0 <= p && p + |pat| <= |txt| && txt[p..p + |pat|] == pat
  }
}
